=== FILE: README.md ===
# atlascode core, modelled in Dafny

This project models the core of atlascode, the Atlassian extension for VS Code, and proves properties of that model. The core covers:

- **The OAuth dancer.** It holds a table of in-flight authorization sessions, one per provider. It runs a local callback listener on port 31415. It builds the authorize URL. It exchanges a callback's code for tokens, accessible resources and the user.
- **The login manager.** It derives site records from an OAuth result or from a server (basic-auth) probe. It builds the credential id and the username slug.
- **The site manager.** It keeps per-product site lists in a global store, mirrored in a cache. Adding sites de-duplicates them. Removing a site goes by hostname. An auth-removal event removes every site of its credential.
- **The OAuth refresher.** It builds the refresh-token request for each provider family.
- **The Bitbucket Server pull-request API.** It covers:
  - paged answers;
  - changed files;
  - the nested comment trees and their visibility rule;
  - the anchor posted with an inline comment;
  - users, avatars, merge bodies and branch records.
- **The pull-request comment provider of the diff editor.** It turns the threads a diff document carries into editor threads. It also posts new threads and replies.
- **The new-issue monitor.** Each check announces the issues created since its timestamp, then advances the timestamp.
- **The start-work webview's issue update.** It moves the issue, best effort, to an "in progress" status. It also guards against overlapping refreshes.
- **The analytics event builders.** These cover track events, screen events, tenant, user and instance attributes, and exclusion from activity.

Everything is a pure function over immutable data, in one module per source file:

| module | contents |
|---|---|
| `Results` | the `Option` and `Result` wrappers |
| `Strings` | string helpers |
| `AuthInfo` | shared records: providers, products, strategies, sites |
| `OAuthDancer` | the dancer's state-transition model |
| `OAuthDancerShutdown` | forced shutdown |
| `DancerProperties` | properties that span several events |
| `LoginManager` | login manager |
| `SiteManager` | site manager |
| `OAuthRefresher` | OAuth refresher |
| `ServerPullRequests` | Bitbucket Server pull-request API |
| `CommentProvider` | comment provider |
| `NewIssueMonitor` | new-issue monitor |
| `StartWork` | start-work webview |
| `Analytics` | analytics event builders |

The results of network calls, clocks, uuids and user answers are inputs to the functions. Side effects become returned values. Examples are the events the site manager fires, the message the webview posts and the request body the API sends.

The dancer is modelled as an event system with three events: `DoDance`, `Response` and `ForceShutdown`. A callback is handled atomically. Four behaviours of the code are modelled as written, and lemmas state their consequences:

1. **The idle check always closes the listener.** It compares `_authsInFlight.entries.length` with 1, and that `length` is the arity of the `entries` method, which is 0. So every idle check closes the listener, even while another dance is in flight.
2. **Response listeners are never removed.** A superseded or settled session still reacts to a late callback carrying its token. That callback deletes the route's table entry, which may belong to the session that replaced it. Forced shutdown can then no longer find the replacing session, so it stays pending.
3. **The route is not compared with the session.** The token match ignores which route the callback arrived on.
4. **The failure path skips the idle check.**

Some other behaviours are also kept as written:

- **Renamed files.** `getChangedFiles` takes both paths of a change from the entry's `path`; the entry's `srcPath` is never read. A renamed file therefore reports its new path as its old path too.
- **A failed listener bind hangs the dance.** The listener is started with a promisified `listen`, whose callback becomes the `listening` listener. A bind error never settles that promise, so the `catch` that would reject the caller is dead. The dance stays pending, the browser is not opened, and the server object stays set. A later dance then skips the bind and opens the browser with nothing listening.
- **Unencoded refresh token.** The Bitbucket refresh body is built by pasting the token into the form text. A token holding `&` or `+` is read back by the server as something else.
- **Credential-id collisions.** Credential ids of site and user ids that contain colons can collide.
- **Removal by hostname.** A remove-auth event for one user removes the first site with the matching hostname. When two users share a server, that can be the other user's site.

The provider enum strings (`bbcloud`, `bbcloudstaging`, `jiracloud`, `jiracloudstaging`) and the product name/key pairs (`Jira`/`jira`, `Bitbucket`/`bitbucket`) belong to the extension's authInfo module. That module is not part of this model, so they are fixed here as constants. `emptySiteInfo` is taken to be the all-empty site. `isEmptySiteInfo` is taken to test for an empty id.

## Model

| member | source | states |
|---|---|---|
| `AuthInfo.ProviderIdClassifies` | src/atlclients/oauthRefresher.ts:24-27 | the `startsWith('jira')` / `endsWith('staging')` string tests on a provider id pick exactly the Jira providers / the staging providers |
| `AuthInfo.ProductForProviderId` | src/atlclients/oauthDancer.ts:160 | the product of a provider id is Jira exactly when the id starts with `jira`, Bitbucket otherwise |
| `OAuthDancer.AuthorizeUrl` | src/atlclients/oauthDancer.ts:63-114 | the authorize URL is the strategy's authorization URL with the query names in the code's order (seven for Jira, three for Bitbucket), `client_id` first and `state` last, carrying the token |
| `OAuthDancer.AuthorizeUrlCarriesToken` | src/atlclients/oauthDancer.ts:63-114 | reading the query back gives exactly the session token as `state` and `code` as `response_type`, for every provider |
| `OAuthDancer.FirstPrimary` | src/atlclients/oauthDancer.ts:394-399 | the email of the first entry flagged primary; none exactly when no entry is primary |
| `OAuthDancer.BitbucketEmail` | src/atlclients/oauthDancer.ts:382-402 | the first primary email of a non-empty listing, else the placeholder `do-not-reply@atlassian.com`, also when the listing call fails or is not an array |
| `OAuthDancer.BitbucketUser` | src/atlclients/oauthDancer.ts:370-417 | the user fails exactly when the profile call fails; its id is the profile's account id and its email the chosen email |
| `OAuthDancer.BitbucketResource` | src/atlclients/oauthDancer.ts:179-195 | the one resource synthesized for Bitbucket: `bbcloud` at bitbucket.org for the production provider, `bbcloudstaging` at bb-inf.net otherwise |
| `OAuthDancer.RunExchange` | src/atlclients/oauthDancer.ts:160-199 | a success carries the exchanged tokens; on the Jira route it needs a non-empty resource list and the Jira user; zero resources reject with the no-resources error; on Bitbucket it succeeds exactly when tokens and profile succeed, with the synthesized resource |
| `OAuthDancer.MaybeShutdown` | src/atlclients/oauthDancer.ts:419-431 | the idle check always closes the listener and stops the timer, whatever the table holds, and changes nothing else |
| `OAuthDancer.Settle` | src/atlclients/oauthDancer.ts:208-226 | a promise settles once: a pending session takes the outcome, a settled one ignores it; no other session changes |
| `OAuthDancer.Cancel` | src/atlclients/oauthDancer.ts:233-236 | cancelling a pending session marks it cancelled, removes its provider's entry and closes the listener; cancelling anything else changes nothing |
| `OAuthDancer.Supersede` | src/atlclients/oauthDancer.ts:150-154 | the provider's in-flight session is cancelled as superseded and its entry removed; validity is kept and no other session changes |
| `OAuthDancer.StartListener` | src/atlclients/oauthDancer.ts:241-256 | the listener is bound only when there is none; a failed bind leaves the dance hanging, without opening the browser, and keeps the server object, unbound; otherwise the browser opens at the URL |
| `OAuthDancer.DoDance` | src/atlclients/oauthDancer.ts:149-262 | a dance registers a new pending session under a fresh token, makes it the provider's entry, supersedes the previous one, keeps the table valid and opens the browser at the authorize URL carrying the token |
| `OAuthDancer.Response` | src/atlclients/oauthDancer.ts:159-229 | an unmatched callback changes nothing; a matched one deletes the route's entry and settles the token's session, if pending, with the exchange's outcome; only success closes the listener; validity is kept |
| `OAuthDancerShutdown.CancelProvider` | src/atlclients/oauthDancer.ts:434-436 | cancels exactly the live session of one provider, leaving other providers' entries and sessions as they were |
| `OAuthDancerShutdown.CancelEach` | src/atlclients/oauthDancer.ts:433-438 | every live session of a listed provider is cancelled with reason shutdown; every other session is unchanged |
| `OAuthDancerShutdown.ForceShutdown` | src/atlclients/oauthDancer.ts:433-449 | forced shutdown cancels exactly the live sessions, empties the table, stops the timer and closes the listener |
| `DancerProperties.Apply` | src/atlclients/oauthDancer.ts:149-262 | every event keeps the table valid and never forgets a registered session |
| `DancerProperties.SettledIsFinal` | src/atlclients/oauthDancer.ts:157-237 | no event changes a settled (resolved, rejected or cancelled) session |
| `DancerProperties.Run` | src/atlclients/oauthDancer.ts:149-262 | any run of enabled events from a valid state ends in a valid state |
| `DancerProperties.RunKeepsSettled` | src/atlclients/oauthDancer.ts:157-237 | a settled session keeps its outcome through any run of events |
| `DancerProperties.SecondDanceSupersedesFirst` | src/atlclients/oauthDancer.ts:150-154 | a second dance for a provider cancels the first as superseded and becomes the provider's pending entry |
| `DancerProperties.SuccessClosesListenerWhileOthersInFlight` | src/atlclients/oauthDancer.ts:419-431 | a successful callback closes the listener while another provider's session is still pending in the table |
| `DancerProperties.SupersededCallbackEvictsSuccessor` | src/atlclients/oauthDancer.ts:159-218 | a late callback for a cancelled session removes the provider's current entry and changes neither session |
| `DancerProperties.CrossRouteCallback` | src/atlclients/oauthDancer.ts:162-201 | a callback on another provider's route settles the token's session, deletes the route's entry and leaves the session's own entry |
| `DancerProperties.JiraWithoutResourcesRejects` | src/atlclients/oauthDancer.ts:169-176 | on the Jira route, tokens with zero accessible resources reject the session with the no-resources error |
| `DancerProperties.JiraDanceEndToEnd` | src/atlclients/oauthDancer.ts:149-262 | from any valid state, a Jira dance answered with a code, tokens, a non-empty resource list and the user resolves with those tokens, resources and user, drops the provider's entry and closes the listener |
| `DancerProperties.BitbucketDanceEndToEnd` | src/atlclients/oauthDancer.ts:178-215 | from any valid state, a Bitbucket dance resolves with the profile's user, the placeholder email whenever the email listing fails, and the one synthesized resource |
| `DancerProperties.EvictedSessionOutlivesShutdown` | src/atlclients/oauthDancer.ts:433-449 | for any pending session, a late callback of a stale session evicts it from the table, and forced shutdown then leaves it pending |
| `DancerProperties.FailedBindHangsLaterDances` | src/atlclients/oauthDancer.ts:241-256 | a failed bind leaves the first dance pending, and a second dance then opens the browser with the server still unbound while the first stays pending |
| `LoginManager.GenerateCredentialId` | src/atlclients/loginManager.ts:213-215 | the credential id is the site id, `::`, then the user id, position by position |
| `LoginManager.SplitCredentialId` | src/atlclients/loginManager.ts:213-215 | a split is found exactly when the id holds `::`; it rebuilds the id and its first half holds no `::` nor ends in `:` |
| `LoginManager.CredentialIdRoundTrip` | src/atlclients/loginManager.ts:213-215 | splitting the credential id gives back the site and user ids exactly when the site id holds no `::` and does not end in `:` |
| `LoginManager.HostWithPortIsSplitSafe` | src/atlclients/loginManager.ts:213-215 | a hostname with a port is such a site id |
| `LoginManager.CredentialIdCanCollide` | src/atlclients/loginManager.ts:213-215 | with colons allowed, two different (site, user) pairs share a credential id |
| `LoginManager.JiraSite` | src/atlclients/loginManager.ts:94-109 | a Jira resource's site: its id, name, url and avatar, the parsed hostname, the product's API URL and the credential id of resource and user |
| `LoginManager.JiraSites` | src/atlclients/loginManager.ts:94-109 | the Jira sites fail exactly when some resource url does not parse; otherwise one site per resource, in order |
| `LoginManager.OAuthSiteDetails` | src/atlclients/loginManager.ts:59-114 | Bitbucket yields one cloud site from the first resource (host, API URL and name `Bitbucket Cloud` or `Bitbucket Staging Cloud` by provider) or none; Jira yields the resource sites; every site is cloud, with the user and its credential id |
| `LoginManager.OAuthCredentialsReadBack` | src/atlclients/loginManager.ts:59-114 | every OAuth site's credential id splits back into the site's id and the user's id |
| `LoginManager.OAuthLogin` | src/atlclients/loginManager.ts:24-57 | no provider or a failed dance saves nothing; a site-details error saves nothing; otherwise each site of `getOAuthSiteDetails` is saved, in order, with the dance's access and refresh tokens and user |
| `LoginManager.OAuthLoginSavesItsUser` | src/atlclients/loginManager.ts:39-45 | each saved site's user id is the saved user's, and its credential id splits back into the site's id and that user's id |
| `LoginManager.Slug` | src/atlclients/loginManager.ts:13 | the slug has the username's length, replaces exactly the characters of the regex class with `_`, and contains none of them |
| `LoginManager.SlugIdempotent` | src/atlclients/loginManager.ts:146 | slugging a slug changes nothing |
| `LoginManager.SiteRoot` | src/atlclients/loginManager.ts:137-138 | the root is `https://` plus the hostname when protocol and context path are unset, and protocol, `//`, hostname, context path when both are set |
| `LoginManager.ProbeUrl` | src/atlclients/loginManager.ts:139-150 | Jira probes `/rest/api/2/myself`; Bitbucket probes the user's slug under `/rest/api/1.0/users/` with avatar size 64 |
| `LoginManager.ServerSite` | src/atlclients/loginManager.ts:172-205 | a server site is non-cloud, named and identified by its hostname, linked at the root, with the product's user id (Jira `id`, Bitbucket `slug`), API URL and avatar, and the credential id of hostname and username |
| `LoginManager.ServerCredentialReadsBack` | src/atlclients/loginManager.ts:172-205 | a server site's credential id splits back into its hostname and the username typed in |
| `LoginManager.SaveDetailsForServerSite` | src/atlclients/loginManager.ts:129-211 | a server login saves something exactly when the probe succeeds: the server site, with the typed-in username and password and the probed user; a failed probe rejects with its error |
| `LoginManager.ServerLoginSavesTypedCredentials` | src/atlclients/loginManager.ts:172-208 | the saved site's user id is the saved user's, and its credential id splits back into the hostname and the saved username |
| `SiteManager.Create` | src/siteManager.ts:24-35 | a new manager reads the given store and its cache agrees with it |
| `SiteManager.SitesForKey` | src/siteManager.ts:81-94 | reading a product's sites gives the persisted list and caches it, keeping the cache coherent with the store |
| `SiteManager.FirstSite` | src/siteManager.ts:96-103 | the first persisted site of the product, or the empty site when there is none |
| `SiteManager.FirstCloudUserId` | src/siteManager.ts:116-124 | the user id of the first cloud site; none exactly when no site is cloud |
| `SiteManager.FirstAAID` | src/siteManager.ts:105-114 | with a key, that product's first cloud user; without one, Jira's when truthy, else Bitbucket's |
| `SiteManager.FindById` | src/siteManager.ts:139-141 | the first site with that id in the list; none exactly when no site has the id |
| `SiteManager.SiteForId` | src/siteManager.ts:139-141 | a product's site is the first persisted site with the id, found exactly when some persisted site has it |
| `SiteManager.SiteForIdPrefersFirst` | src/siteManager.ts:139-141 | of two different stored sites with the same id, the earlier one is returned |
| `SiteManager.Unknown` | src/siteManager.ts:50 | keeps exactly the new sites whose (id, userId) is not already stored |
| `SiteManager.AddSites` | src/siteManager.ts:42-65 | store and cache get the stored list plus the unknown new sites, under the first site's product; an event fires exactly when the product had no list or something was added |
| `SiteManager.AddedAreKnown` | src/siteManager.ts:50-54 | after the merge every new site is known by (id, userId) |
| `SiteManager.AddSitesKnowsAll` | src/siteManager.ts:42-60 | after adding, every passed site is known in the product's stored list |
| `SiteManager.AllKnownAddsNothing` | src/siteManager.ts:50-53 | when every new site is already known, nothing is added |
| `SiteManager.AddSitesTwice` | src/siteManager.ts:42-65 | adding the same sites again leaves the store unchanged and fires nothing |
| `SiteManager.AddSitesKeepsDuplicatesOfOneCall` | src/siteManager.ts:55-57 | de-duplication is only against the store: a first list with a site twice stores it twice |
| `SiteManager.FindHostname` | src/siteManager.ts:146 | the index of the first site of the hostname, or -1 exactly when there is none |
| `SiteManager.RemoveSite` | src/siteManager.ts:143-166 | removal succeeds exactly when a site of the hostname is stored; it splices out the first one in store and cache, fires the new list, removes the credentials exactly when the list becomes empty and clears the last-create setting exactly for its id; otherwise nothing changes |
| `SiteManager.RemoveSiteKeepsOthers` | src/siteManager.ts:146-149 | every other site keeps its relative order |
| `SiteManager.SpliceIsRemoveFirst` | src/siteManager.ts:146-149 | `findIndex` then `splice(i, 1)` removes the first site of the hostname, and nothing when there is none |
| `SiteManager.RemoveSiteStore` | src/siteManager.ts:143-151 | on the store, removal replaces the product's list by the list without its first site of the hostname |
| `SiteManager.WithCredential` | src/siteManager.ts:69 | keeps exactly the sites of the credential |
| `SiteManager.WithoutCredential` | src/siteManager.ts:69 | keeps exactly the sites of the other credentials |
| `SiteManager.RemoveEach` | src/siteManager.ts:70 | removing each dead site keeps the cache coherent |
| `SiteManager.RemoveEachIsOutside` | src/siteManager.ts:69-70 | with unique hostnames, removing the dead sites one by one leaves exactly the sites outside their hostnames |
| `SiteManager.OutsideDeadIsWithout` | src/siteManager.ts:69 | with unique hostnames, dropping the hostnames of a credential's sites drops exactly that credential's sites |
| `SiteManager.RemoveAuthTail` | src/siteManager.ts:71-73 | the final notification fires once, with the product's current list, exactly when some site was dead |
| `SiteManager.OnDidAuthChange` | src/siteManager.ts:67-75 | a remove-auth event notifies exactly when the credential has sites, and last with the product's current list; other events change nothing |
| `SiteManager.RemoveAuthDropsExactlyItsSites` | src/siteManager.ts:67-75 | with unique hostnames, a remove-auth event leaves exactly the other credentials' sites |
| `SiteManager.RemoveAuthDropsOtherUsersSite` | src/siteManager.ts:143-149 | when two users share a hostname, removing the second user's credential removes the first user's site |
| `OAuthRefresher.RefreshStrategy` | src/atlclients/oauthRefresher.ts:24-47 | the strategy is chosen by the `jira` prefix and the `staging` suffix of the provider id |
| `OAuthRefresher.RefreshUsesProviderStrategy` | src/atlclients/oauthRefresher.ts:24-47 | for every provider the refresher uses the strategy the dance used |
| `OAuthRefresher.RefreshRequest` | src/atlclients/oauthRefresher.ts:28-58 | Jira ids post a JSON body with the refresh grant, client credentials, token and redirect; others post the form `grant_type=refresh_token&refresh_token=` plus the token, with Basic client credentials |
| `OAuthRefresher.FormDecode` | src/atlclients/oauthRefresher.ts:53-56 | the receiving token server's form decoding, a reference reader for the body posted with the form content type: every `+` becomes a space and every other character is kept |
| `OAuthRefresher.FormFieldIn` | src/atlclients/oauthRefresher.ts:53-56 | in the receiving server's reader, a field is the value of the first pair named for it; none exactly when no pair is |
| `OAuthRefresher.FormField` | src/atlclients/oauthRefresher.ts:53-56 | in the receiving server's reader, a field read from a form body is the value of one of its `&`-separated pairs |
| `OAuthRefresher.PairReadsBack` | src/atlclients/oauthRefresher.ts:53-56 | a pair `key=value` gives its decoded value for its key and nothing for any other name |
| `OAuthRefresher.FormFieldsOfPairs` | src/atlclients/oauthRefresher.ts:53-56 | under the receiving server's reader, the form body the code writes reads back as the refresh grant and the `+`-decoded token, for any token without `&`; a token holding `%` comes back undecoded, not as a real server would read it |
| `OAuthRefresher.RefreshTokenReadsBack` | src/atlclients/oauthRefresher.ts:33-56 | the server reads back exactly the refresh token, and the refresh grant type, from the JSON body, and from the form body for every token that form encoding leaves unchanged |
| `OAuthRefresher.AmpersandTokenCut` | src/atlclients/oauthRefresher.ts:53-56 | a token holding `&` is read back cut short at the `&` |
| `OAuthRefresher.PlusTokenSpaced` | src/atlclients/oauthRefresher.ts:53-56 | a token holding `+` is read back with a space in its place |
| `OAuthRefresher.GetNewAccessToken` | src/atlclients/oauthRefresher.ts:22-63 | posts that request; succeeds exactly when the answer does, with the answer's access token |
| `ServerPullRequests.StopIndex` | src/bitbucket/bitbucket-server/pullRequests.ts:168 | the first page that does not explicitly say `isLastPage: false`; every page before it does |
| `ServerPullRequests.Accumulated` | src/bitbucket/bitbucket-server/pullRequests.ts:163-179 | every collected value comes from one of the pages |
| `ServerPullRequests.FetchAll` | src/bitbucket/bitbucket-server/pullRequests.ts:163-179 | the paging loop collects exactly what `Accumulated` defines: nothing for a first answer without values, otherwise the values of every page up to the first that does not ask for more, in order |
| `ServerPullRequests.NormalizeType` | src/bitbucket/bitbucket-server/pullRequests.ts:181-200 | ADD and COPY are added, DELETE removed, MOVE renamed, anything else modified |
| `ServerPullRequests.ToFileChange` | src/bitbucket/bitbucket-server/pullRequests.ts:202-206 | an added file has no old path, a removed one no new path, all others both; every path present is the entry's `path` |
| `ServerPullRequests.RenamedFileLosesSource` | src/bitbucket/bitbucket-server/pullRequests.ts:190-206 | a moved file is reported as renamed with its new path as both old and new path, not its source path |
| `ServerPullRequests.ChangedFiles` | src/bitbucket/bitbucket-server/pullRequests.ts:152-207 | one file change per collected entry, in order |
| `ServerPullRequests.ChangedFilesPathsFromEntries` | src/bitbucket/bitbucket-server/pullRequests.ts:181-206 | each change carries its entry's path, the same on both sides when both are present, and is a rename exactly when the entry is a move |
| `ServerPullRequests.NoValuesNoChanges` | src/bitbucket/bitbucket-server/pullRequests.ts:163-165 | an answer without values yields no changes |
| `ServerPullRequests.PatchAvatarUrl` | src/bitbucket/bitbucket-server/pullRequests.ts:602-607 | a relative avatar gets the base URL prefixed; a missing, empty or absolute one is unchanged |
| `ServerPullRequests.PatchAvatarUrlIdempotent` | src/bitbucket/bitbucket-server/pullRequests.ts:602-607 | with an absolute base the patch is idempotent and makes a present avatar absolute |
| `ServerPullRequests.ToUser` | src/bitbucket/bitbucket-server/pullRequests.ts:543-552 | the user's account id is the slug, its mention `@` plus the slug, its display name, email and self link copied, its avatar the patched one |
| `ServerPullRequests.InlineOfAnchor` | src/bitbucket/bitbucket-server/pullRequests.ts:389-395 | the anchor's line goes to `to` on the TO side, to `from` otherwise |
| `ServerPullRequests.ConvertDataToComment` | src/bitbucket/bitbucket-server/pullRequests.ts:375-399 | a comment is deletable / editable exactly when permitted, owned by the site's user and not deleted; html falls back to text; the inline comes from the anchor; the user is the converted author, or the unknown user when there is none; parent id and both timestamps are copied |
| `ServerPullRequests.ShouldDisplayIffLiveInThread` | src/bitbucket/bitbucket-server/pullRequests.ts:345-364 | a comment is shown exactly when it or some reply at any depth is not deleted |
| `ServerPullRequests.ChildrenLiveInThread` | src/bitbucket/bitbucket-server/pullRequests.ts:345-354 | some reply is shown exactly when some reply thread holds an undeleted comment |
| `ServerPullRequests.ToNested` | src/bitbucket/bitbucket-server/pullRequests.ts:366-373 | replies are converted one by one, in order; a comment with a shown reply is never deletable; every other field is the flat conversion's |
| `ServerPullRequests.ThreadSharesInline` | src/bitbucket/bitbucket-server/pullRequests.ts:366-368 | every comment of a converted thread, at any depth, carries the thread anchor's inline position |
| `ServerPullRequests.KeptActivities` | src/bitbucket/bitbucket-server/pullRequests.ts:329-334 | keeps exactly the comment activities whose anchor, if any, is on the effective diff and not orphaned |
| `ServerPullRequests.ShownThreads` | src/bitbucket/bitbucket-server/pullRequests.ts:336-341 | keeps exactly the converted threads that are shown |
| `ServerPullRequests.GetComments` | src/bitbucket/bitbucket-server/pullRequests.ts:300-343 | the comments are exactly the shown threads of the kept activities of the collected pages |
| `ServerPullRequests.GetCommentsKeepsLiveThreads` | src/bitbucket/bitbucket-server/pullRequests.ts:336-364 | the returned threads are exactly the kept threads holding a comment, at any depth, that is not deleted |
| `ServerPullRequests.PostAnchor` | src/bitbucket/bitbucket-server/pullRequests.ts:516-523 | the posted anchor takes `to` when truthy, else `from`, with file type TO exactly when `to` is truthy |
| `ServerPullRequests.PostCommentBody` | src/bitbucket/bitbucket-server/pullRequests.ts:511-524 | the body carries the text, a parent exactly for a truthy parent id, and an anchor exactly for an inline position |
| `ServerPullRequests.AnchorRoundTrip` | src/bitbucket/bitbucket-server/pullRequests.ts:516-523 | posting then reading back an inline position gives it back exactly when one side alone is set (a `to` of 0 does not count) |
| `ServerPullRequests.PostComment` | src/bitbucket/bitbucket-server/pullRequests.ts:503-531 | posts that body; the returned comment is the answer converted without an anchor, so it carries no inline position, even for an inline post |
| `ServerPullRequests.MergeRequestBody` | src/bitbucket/bitbucket-server/pullRequests.ts:492-494 | empty without a strategy; otherwise the strategy, the message and no auto subject |
| `ServerPullRequests.MergeMessageNeedsStrategy` | src/bitbucket/bitbucket-server/pullRequests.ts:492-494 | the commit message reaches the server exactly when a strategy is chosen or there is no message |
| `ServerPullRequests.ToPullRequestRepo` | src/bitbucket/bitbucket-server/pullRequests.ts:609-623 | the branch and commit are the record's when truthy, else the not-found placeholders; neither is ever empty |
| `ServerPullRequests.PullRequestRepoStable` | src/bitbucket/bitbucket-server/pullRequests.ts:609-623 | converting the record a converted repository reads as gives it back |
| `CommentProvider.ThreadLine` | src/views/pullRequestCommentProvider.ts:27-32 | a thread sits on the line before its `from` when set, else before its `to`, else on line 0 |
| `CommentProvider.IdText` | src/views/pullRequestCommentProvider.ts:38 | a shown id is a non-empty string of decimal digits |
| `CommentProvider.NumberOf` | src/views/pullRequestCommentProvider.ts:79 | `Number` reads the empty string as 0, a digit string as its value, and anything else as NaN |
| `CommentProvider.IdTextReadsBack` | src/views/pullRequestCommentProvider.ts:79 | reading a shown id as a number gives the id back |
| `CommentProvider.ToEditorComment` | src/views/pullRequestCommentProvider.ts:34-40 | the editor comment shows the author's name and raw text, and its id reads back as the comment's id |
| `CommentProvider.ToThread` | src/views/pullRequestCommentProvider.ts:33-45 | one editor comment per stored comment, in order, at the first comment's line, in the pull-request scheme, with the first comment's id |
| `CommentProvider.ProvideDocumentComments` | src/views/pullRequestCommentProvider.ts:10-51 | the whole document is commentable exactly when the query has a path; one editor thread per stored thread, in order |
| `CommentProvider.NewCommentInline` | src/views/pullRequestCommentProvider.ts:55-59 | the left side sets `from`, the right side `to`, one-based, with the query's path whether present or not |
| `CommentProvider.NewCommentLineRoundTrip` | src/views/pullRequestCommentProvider.ts:55-59 | a new comment's inline position maps back to the line it was made on; only line -1 falls back to line 0 |
| `CommentProvider.ParentOf` | src/views/pullRequestCommentProvider.ts:79 | `Number(threadId)` is passed as the parent id as it is: a number, or NaN |
| `CommentProvider.CreateNewCommentThread` | src/views/pullRequestCommentProvider.ts:53-75 | posts the text to the query's remote and pull request with no parent and an inline position on the range's start line, on the side the query names; returns a one-comment thread for the answer, at the range, whose id reads back as the answer's |
| `CommentProvider.CreatedThreadReappears` | src/views/pullRequestCommentProvider.ts:53-75 | when the answer carries the posted inline position, the thread shown for it on reload sits on the comment's line with the created thread's id and comment |
| `CommentProvider.ReplyToCommentThread` | src/views/pullRequestCommentProvider.ts:77-90 | posts the text to the query's remote and pull request under `Number(threadId)`, NaN for a non-numeric id, with no inline position, and appends exactly the answer to the thread |
| `CommentProvider.ReplyTargetsFirstComment` | src/views/pullRequestCommentProvider.ts:79 | a reply to a provided thread is posted under the thread's first comment, whatever its id |
| `CommentProvider.ReplyMatchesReload` | src/views/pullRequestCommentProvider.ts:77-90 | the thread a reply leaves in the editor is the one shown once the answer is stored at the thread's end |
| `NewIssueMonitor.Create` | src/jira/newIssueMonitor.ts:13-14 | a new monitor has no project and the creation time |
| `NewIssueMonitor.SetProject` | src/jira/newIssueMonitor.ts:19-22 | setting a project watches it from now on |
| `NewIssueMonitor.CheckQuery` | src/jira/newIssueMonitor.ts:24-31 | no search exactly when there is no project, the host is offline or there is no Jira site; the search starts with the project clause and ends with the quoted, formatted timestamp, and nothing else |
| `NewIssueMonitor.SetProjectThenQuery` | src/jira/newIssueMonitor.ts:19-31 | after setting a project, an online check with a Jira site searches that project from the time it was set |
| `NewIssueMonitor.NewerThan` | src/jira/newIssueMonitor.ts:36 | keeps exactly the issues created strictly after the timestamp |
| `NewIssueMonitor.Advance` | src/jira/newIssueMonitor.ts:39-43 | the new timestamp is the old one or some creation time, and is no earlier than any of them |
| `NewIssueMonitor.IssueName` | src/jira/newIssueMonitor.ts:52 | an issue's name is its bracketed key, then its quoted summary, and nothing else |
| `NewIssueMonitor.IssueNames` | src/jira/newIssueMonitor.ts:52 | one name per issue, in order |
| `NewIssueMonitor.Message` | src/jira/newIssueMonitor.ts:54-63 | one new issue is named alone; two or three are all named, the last after "and"; more name the first two and count the others |
| `NewIssueMonitor.MessageNamesIssues` | src/jira/newIssueMonitor.ts:51-63 | with up to three new issues every issue's name occurs in the message; with more, the first two names and the phrase `and n-2 other new issues` occur |
| `NewIssueMonitor.MessageStartsWithFirstIssue` | src/jira/newIssueMonitor.ts:51-63 | every message starts with the first new issue's name |
| `NewIssueMonitor.OnIssues` | src/jira/newIssueMonitor.ts:32-44 | a notification appears exactly when some issue is new, naming them and opening the issue when there is one, the explorer otherwise; the timestamp moves to the newest creation time and covers every issue found |
| `NewIssueMonitor.SecondDeliveryIsSilent` | src/jira/newIssueMonitor.ts:36-43 | delivering the same answer again announces nothing and changes nothing |
| `StartWork.FirstInProgress` | src/webviews/startWorkOnIssueWebview.ts:192 | the first non-initial transition into an "in progress" status; none exactly when there is none |
| `StartWork.FirstNonInitial` | src/webviews/startWorkOnIssueWebview.ts:196 | the first non-initial transition; none exactly when all are initial |
| `StartWork.ChooseStatus` | src/webviews/startWorkOnIssueWebview.ts:190-199 | the status is kept when it mentions progress, else the target of the first in-progress transition, else that of the first non-initial one, else kept; it is always the old status or a non-initial target |
| `StartWork.ChooseStatusReachesProgress` | src/webviews/startWorkOnIssueWebview.ts:190-195 | whenever an in-progress transition exists, the chosen status mentions progress |
| `StartWork.ChooseStatusIdempotent` | src/webviews/startWorkOnIssueWebview.ts:190-199 | choosing again changes nothing |
| `StartWork.RemotesOrDefault` | src/webviews/startWorkOnIssueWebview.ts:157-159 | a repository's remotes, or the read-only `NO_GIT_REMOTE_FOUND` placeholder; never empty |
| `StartWork.LocalBranches` | src/webviews/startWorkOnIssueWebview.ts:183 | exactly the names of the named head refs |
| `StartWork.ToRepoData` | src/webviews/startWorkOnIssueWebview.ts:160-187 | the repository data carries the defaulted remotes, the local branches, the development branch and branching model, and empty reviewer and remote-branch lists |
| `StartWork.BeginUpdate` | src/webviews/startWorkOnIssueWebview.ts:135-149 | an update during a refresh does nothing; otherwise it raises the flag, shows the issue, takes the tenant of a non-empty site and retitles the panel |
| `StartWork.FinishUpdate` | src/webviews/startWorkOnIssueWebview.ts:151-213 | the flag is always cleared; on success the chosen status is shown with one data record per repository; on failure the error message is posted |
| `StartWork.OverlappingUpdateIsDropped` | src/webviews/startWorkOnIssueWebview.ts:136-141 | an update during a refresh is dropped, and after the refresh finishes the next update goes ahead |
| `StartWork.UpdateShowsChosenStatus` | src/webviews/startWorkOnIssueWebview.ts:190-206 | a whole update posts the issue with the chosen status, unchanged when it already mentions progress |
| `StartWork.IssueLink` | src/webviews/startWorkOnIssueWebview.ts:83 | the copied link starts with `https://` and the site's link URL and ends with `/browse/` and the key |
| `Analytics.PlatformFor` | src/analytics.ts:30-32 | a known platform name gives its table label, any other `unknown` |
| `Analytics.PlatformLabels` | src/analytics.ts:17-32 | the label is `unknown` exactly for names outside the table, and always one of six labels |
| `Analytics.Event` | src/analytics.ts:284-293 | the event has the fixed fields plus the caller's attributes, which win on a clash |
| `Analytics.AnyUserOrAnonymous` | src/analytics.ts:295-306 | adds the account id and its type when there is one, else the machine id as anonymous id; nothing else changes |
| `Analytics.TenantOrNull` | src/analytics.ts:308-318 | the tenant type is `cloudId` for a truthy tenant and `null` otherwise; the id is copied as given |
| `Analytics.InstanceAttrs` | src/analytics.ts:324-331 | a non-empty site gives its instance type and product, overriding a given product; otherwise the product's name, or nothing |
| `Analytics.InstanceType` | src/analytics.ts:320-339 | merges those attributes into `attributes`, keeping its other entries and every other field; with nothing to add the event is unchanged |
| `Analytics.SiteOverridesProduct` | src/analytics.ts:324-331 | with a non-empty site the host product and instance type come from the site |
| `Analytics.InstanceTypeIdempotent` | src/analytics.ts:333-335 | merging the instance attributes twice is merging them once |
| `Analytics.ExcludeFromActivity` | src/analytics.ts:341-350 | sets the exclude flag in `attributes`, keeping its other entries and every other field |
| `Analytics.ExcludeIdempotent` | src/analytics.ts:341-350 | excluding twice is excluding once |
| `Analytics.TrackEnvelope` | src/analytics.ts:265-282 | the envelope carries the body and a tenant type `cloudId` with the tenant id, or `null` without one |
| `Analytics.TrackEvent` | src/analytics.ts:265-282 | a track event carries the event body, the tenant fields exactly as given, and the account id or else the machine id as anonymous id |
| `Analytics.InstanceTrackEvent` | src/analytics.ts:256-263 | a site's track event is tenant-scoped exactly for a cloud Jira site, its body holds the site's instance attributes, and it carries the user |
| `Analytics.ViewScreenEvent` | src/analytics.ts:161-180 | a screen event carries its name, the screen body, the site's id as tenant, `cloudId` exactly for a non-empty id, and the user |
| `Analytics.ScreenBodyOfWelcome` | src/analytics.ts:161-169 | the welcome screen's body is excluded from activity and keeps a non-empty site's instance type |
| `Analytics.WelcomeScreenExcluded` | src/analytics.ts:161-180 | the welcome screen event is always excluded from activity, whatever the site and product |

## Left out

- **The HTTP listener, routing and outgoing requests.** This covers the express app and http server, the `/timeout` route, axios calls and the agent. The answers become inputs: `Exchange`, probe answers, pages, token answers. The routes map to the route provider of `Response`.
- **The browser timeout.** The `pTimeout` race and the timeout page are not modelled. They only add a rejection path for the caller and do not touch the table.
- **The shutdown checker's interval.** Only its presence (`shutdownTimer`) is modelled. Every idle check closes the listener anyway.
- **Interleaving at `await` points.** Each callback, dance and update is one atomic step.
- **uuid generation, Base64 and URL percent-encoding.** Tokens are inputs. Credential ids and Basic credentials keep the text before encoding. Queries are structured pairs.
- **Strategy values.** The URLs, client ids and secrets live in a module that is not part of this model, so they are a `Strategies` parameter.
- **`date-fns` formatting.** It is a parameter of `NewIssueMonitor.CheckQuery`. Dates are integers.
- **Host lookups.** The platform name, machine id and first account id are parameters of the analytics builders. The online check and the site check of the monitor are parameters too.
- **UI work.** Showing messages, webview messaging and refreshing the explorer are out. The notification's "View" answer is returned as the action it would trigger.
- **`!` non-null assertions.** These are preconditions in the model: `ServerPullRequests.AuthorsHaveSite` and `CommentProvider.ThreadsAnchored`. The source would throw a TypeError in those cases. `createNewCommentThread` asserts nothing about the path: a query without one posts an inline position without a path, although the editor offers commenting ranges only when the path is truthy.
- **The Bitbucket Cloud pull-request API.** src/bitbucket/pullRequests.ts, through which the comment provider posts, is not part of this model. A post is modelled as the arguments the provider passes (`CommentProvider.PostCall`), and the comment the server answers with is an input. What the server stores for a post, and its errors, are not modelled.
- **How Bitbucket Server stores a posted anchor.** `ServerPullRequests.StoredAnchor` assumes the server echoes a posted anchor back on the effective diff, not orphaned, with the posted line and side, and stores no anchor for a post without a line. `ServerPullRequests.AnchorRoundTrip` rests on that assumption.
- **Form percent-encoding.** The form reader (`OAuthRefresher.FormDecode`, `OAuthRefresher.FormField`) stands for the token server's reader, which is not in the extension. It decodes `+` but not percent escapes. Only `OAuthRefresher.RefreshTokenReadsBack` excludes tokens holding `%`. For a token holding `%`, `OAuthRefresher.FormFieldsOfPairs`, `OAuthRefresher.AmpersandTokenCut` and `OAuthRefresher.PlusTokenSpaced` give the text with its escapes left undecoded, which is not what a real server reads.
- **The branching model's contents.** `StartWork` passes the repository API's branching model through as an opaque value.
- **Other pull-request API calls.** The list queries, `get`, `getMergeStrategies`, `getCommits`, edit and delete comment, reviewers, `create`, approval, task count and `toPullRequestModel` are out. They are REST plumbing around the mappings that are modelled. `getCommits` uses the same paging loop as `FetchAll`.
- **`toUser` on an empty `links.self`.** The TypeError it throws is not modelled. The self link is an optional input.
- **Start-work actions.** `forceUpdateIssue`, `fetchIssue`, the `startWork` action and `createOrCheckoutBranch` are out: they are remote calls and git operations. Bitbucket repository lookups are summarised in `RepoState` (href, development branch, branching model).
- **Local branches.** They are modelled by name; the Branch objects from `getBranch` are not modelled.
- **`Number()` on strings other than decimal digits.** Signs, whitespace, exponents and hex are read as NaN or left out.
- **Case conversion.** Lower-casing covers ASCII letters only.
- **Object spread of a non-object `attributes` value.** It is modelled as spreading nothing.
- **Inherited property names in the platform table.** A name like `constructor` would read a prototype member; this is not modelled.
- **The credential manager and site manager calls of a login.** `LoginManager.OAuthLogin` and `LoginManager.SaveDetailsForServerSite` return what they would store: a `SiteSave` names the auth info given to `saveAuthInfo` and the site given to `addSites`. The model does not carry these calls out, and does not model their failures. The OAuth login runs its saves in an un-awaited `forEach`, so their interleaving is not modelled. The success and error messages and the `authenticated` analytics event are out too.
- **vscode Range validation of negative lines.** A 0 is falsy, so a `from` of 0 falls through to `to`, and a thread with neither set truthily gets line 0. A thread whose chosen `from` or `to` is negative gets a line before 0, which the editor would reject. The model keeps the integer.
- `SiteManager.RemoveEach`: its own contract states only cache coherence. The exact result is stated, for lists with unique hostnames, by `SiteManager.RemoveEachIsOutside` and `SiteManager.RemoveAuthDropsExactlyItsSites`.
- `SiteManager.Unknown`: states membership, not order; the body keeps the order of the new sites.
- `SiteManager.WithCredential`: states membership, not order.
- `SiteManager.WithoutCredential`: states membership, not order.
- `ServerPullRequests.KeptActivities`: states membership, not order.
- `ServerPullRequests.ShownThreads`: states membership, not order.
- `ServerPullRequests.GetComments`: states membership, not order.
- `ServerPullRequests.Accumulated`: its own contract states only where the values come from. `ServerPullRequests.FetchAll` ties it to the paging loop.
- `NewIssueMonitor.NewerThan`: states membership, not order.
- `StartWork.LocalBranches`: states membership, not order.
- `OAuthRefresher.RefreshTokenReadsBack`: the form half holds only for tokens without `&`, `+` or `%`. `OAuthRefresher.AmpersandTokenCut` and `OAuthRefresher.PlusTokenSpaced` state what the server reads for the others.
- `LoginManager.SiteRoot`: states the two cases where protocol and context path are both set or both unset. The mixed cases follow the same defaults.

=== FILE: analytics.dfy ===
/** The analytics event builders: events are JSON objects, modelled as maps
    from keys to values. The host platform name, the machine id and the
    first Atlassian account id are parameters; sending is left out. Object
    spread and `Object.assign` are map union, the right operand winning. */
module Analytics {
  import opened Results
  import opened Strings
  import opened AuthInfo

  datatype Value = Str(s: string) | Bool(b: bool) | Null | Undefined | Obj(fields: map<string, Value>)

  type Attrs = map<string, Value>

  /** JavaScript truthiness of a value. */
  predicate ValueTruthy(v: Value)
  {
    match v
    case Str(s) => s != ""
    case Bool(b) => b
    case Null => false
    case Undefined => false
    case Obj(_) => true
  }

  /** The keys an object spread copies out of a value. */
  function Spread(v: Value): (m: Attrs)
    ensures v.Obj? ==> m == v.fields
    ensures !v.Obj? ==> m == map[]
  {
    if v.Obj? then v.fields else map[]
  }

  /** `obj[key]`, reading an absent key as `undefined`. */
  function Get(m: Attrs, key: string): Value
  {
    if key in m then m[key] else Undefined
  }

  /** Node platform names and their analytics labels. */
  const PlatformMap: map<string, string> := map[
    "aix" := "desktop", "android" := "android", "darwin" := "mac", "freebsd" := "desktop",
    "linux" := "linux", "openbsd" := "desktop", "sunos" := "desktop", "win32" := "windows",
    "cygwin" := "windows"]

  /** `AnalyticsPlatform.for` */
  function PlatformFor(p: string): (r: string)
    ensures p in PlatformMap ==> r == PlatformMap[p]
    ensures p !in PlatformMap ==> r == "unknown"
  {
    if p in PlatformMap && PlatformMap[p] != "" then PlatformMap[p] else "unknown"
  }

  /** The label is `unknown` exactly for the names outside the table, and
      otherwise one of five fixed labels. */
  lemma PlatformLabels(p: string)
    ensures PlatformFor(p) == "unknown" <==> p !in PlatformMap
    ensures PlatformFor(p) in {"desktop", "android", "mac", "linux", "windows", "unknown"}
  {
    assert forall q :: q in PlatformMap ==> PlatformMap[q] != "unknown";
  }

  /** The body of a track event: the fixed fields, with the platform label,
      then the caller's attributes, which win on a clash. */
  function Event(platformLabel: string, action: string, actionSubject: string, props: Attrs): (e: Attrs)
    ensures e.Keys == props.Keys + {"origin", "platform", "action", "actionSubject", "source"}
    ensures forall k :: k in props ==> e[k] == props[k]
    ensures "origin" !in props ==> e["origin"] == Str("desktop")
    ensures "source" !in props ==> e["source"] == Str("vscode")
    ensures "platform" !in props ==> e["platform"] == Str(platformLabel)
    ensures "action" !in props ==> e["action"] == Str(action)
    ensures "actionSubject" !in props ==> e["actionSubject"] == Str(actionSubject)
  {
    map["origin" := Str("desktop"), "platform" := Str(platformLabel), "action" := Str(action),
        "actionSubject" := Str(actionSubject), "source" := Str("vscode")] + props
  }

  /** The user fields of a finished event: the account id and its type when
      there is an account, else only the machine id as anonymous id. */
  predicate HasUser(r: Attrs, aaid: Option<string>, machineId: string)
  {
    if Truthy(aaid) then
      && Get(r, "userId") == Str(aaid.value) && Get(r, "userIdType") == Str("atlassianAccount")
      && "anonymousId" !in r
    else
      && Get(r, "anonymousId") == Str(machineId) && "userId" !in r && "userIdType" !in r
  }

  /** Adds the user: the account id when there is one, else the machine id
      as an anonymous id. */
  function AnyUserOrAnonymous(e: Attrs, aaid: Option<string>, machineId: string): (r: Attrs)
    ensures Truthy(aaid) ==> r.Keys == e.Keys + {"userId", "userIdType"}
    ensures Truthy(aaid) ==> r["userId"] == Str(aaid.value) && r["userIdType"] == Str("atlassianAccount")
    ensures !Truthy(aaid) ==> r.Keys == e.Keys + {"anonymousId"} && r["anonymousId"] == Str(machineId)
    ensures forall k :: k in e && k !in {"userId", "userIdType", "anonymousId"} ==> r[k] == e[k]
    ensures forall k :: k !in {"userId", "userIdType", "anonymousId"} ==> (k in r <==> k in e)
    ensures "userId" !in e && "userIdType" !in e && "anonymousId" !in e ==> HasUser(r, aaid, machineId)
  {
    if Truthy(aaid) then e + map["userId" := Str(aaid.value), "userIdType" := Str("atlassianAccount")]
    else e + map["anonymousId" := Str(machineId)]
  }

  /** Sets the tenant fields: type `cloudId` with a non-empty tenant id,
      otherwise `null`; the id itself is copied as given. */
  function TenantOrNull(e: Attrs, tenantId: Option<string>): (r: Attrs)
    ensures r.Keys == e.Keys + {"tenantIdType", "tenantId"}
    ensures r["tenantIdType"] == Null <==> !Truthy(tenantId)
    ensures Truthy(tenantId) ==> r["tenantIdType"] == Str("cloudId")
    ensures r["tenantId"] == (if tenantId.Some? then Str(tenantId.value) else Undefined)
    ensures forall k :: k in e && k !in {"tenantIdType", "tenantId"} ==> r[k] == e[k]
  {
    var tenantType := if Truthy(tenantId) then Str("cloudId") else Null;
    e + map["tenantIdType" := tenantType, "tenantId" := if tenantId.Some? then Str(tenantId.value) else Undefined]
  }

  /** The attributes `instanceType` adds: the product's name when a product
      is given; for a non-empty site, the instance type and the site's
      product instead. */
  function InstanceAttrs(site: Option<Site>, product: Option<Product>): (a: Option<Attrs>)
    ensures site.Some? && !IsEmptySite(site.value) ==>
      a == Some(map["instanceType" := Str(if site.value.isCloud then "cloud" else "server"),
                    "hostProduct" := Str(site.value.product.name)])
    ensures (site.None? || IsEmptySite(site.value)) ==>
      a == (if product.Some? then Some(map["hostProduct" := Str(product.value.name)]) else None)
  {
    if site.Some? && !IsEmptySite(site.value) then
      Some(map["instanceType" := Str(if site.value.isCloud then "cloud" else "server"),
               "hostProduct" := Str(site.value.product.name)])
    else if product.Some? then Some(map["hostProduct" := Str(product.value.name)])
    else None
  }

  /** `instanceType`: merges the instance attributes into the `attributes`
      object, keeping what is there; without a site or product the event is
      unchanged. */
  function InstanceType(props: Attrs, site: Option<Site>, product: Option<Product>): (r: Attrs)
    ensures InstanceAttrs(site, product).None? ==> r == props
    ensures InstanceAttrs(site, product).Some? ==>
      var added := InstanceAttrs(site, product).value;
      && r.Keys == props.Keys + {"attributes"}
      && (forall k :: k in props && k != "attributes" ==> r[k] == props[k])
      && r["attributes"].Obj?
      && r["attributes"].fields.Keys == Spread(Get(props, "attributes")).Keys + added.Keys
      && (forall k :: k in added ==> r["attributes"].fields[k] == added[k])
      && (forall k :: k in Spread(Get(props, "attributes")) && k !in added ==>
            r["attributes"].fields[k] == Spread(Get(props, "attributes"))[k])
  {
    match InstanceAttrs(site, product)
    case None => props
    case Some(added) => props["attributes" := Obj(Spread(Get(props, "attributes")) + added)]
  }

  /** For a non-empty site the instance type and host product come from the
      site, whatever product is passed. */
  lemma SiteOverridesProduct(props: Attrs, site: Site, product: Option<Product>)
    requires !IsEmptySite(site)
    ensures var a := InstanceType(props, Some(site), product)["attributes"].fields;
            && a["hostProduct"] == Str(site.product.name)
            && a["instanceType"] == Str(if site.isCloud then "cloud" else "server")
  {
  }

  /** Merging the same instance attributes twice gives the same event. */
  lemma InstanceTypeIdempotent(props: Attrs, site: Option<Site>, product: Option<Product>)
    ensures InstanceType(InstanceType(props, site, product), site, product) == InstanceType(props, site, product)
  {
    if InstanceAttrs(site, product).Some? {
      var added := InstanceAttrs(site, product).value;
      var once := InstanceType(props, site, product);
      var inner := Spread(Get(props, "attributes")) + added;
      assert Spread(Get(once, "attributes")) == inner;
      assert inner + added == inner;
    }
  }

  const ExcludeFlag: Attrs := map["excludeFromActivity" := Bool(true)]

  /** `excludeFromActivity`: sets the flag in the `attributes` object,
      keeping its other entries. */
  function ExcludeFromActivity(props: Attrs): (r: Attrs)
    ensures r.Keys == props.Keys + {"attributes"}
    ensures forall k :: k in props && k != "attributes" ==> r[k] == props[k]
    ensures r["attributes"].Obj? && "excludeFromActivity" in r["attributes"].fields
    ensures r["attributes"].fields["excludeFromActivity"] == Bool(true)
    ensures !ValueTruthy(Get(props, "attributes")) ==> r["attributes"].fields == ExcludeFlag
    ensures ValueTruthy(Get(props, "attributes")) ==>
      r["attributes"].fields.Keys == Spread(Get(props, "attributes")).Keys + {"excludeFromActivity"}
    ensures ValueTruthy(Get(props, "attributes")) ==>
      forall k :: k in Spread(Get(props, "attributes")) && k != "excludeFromActivity" ==>
        r["attributes"].fields[k] == Spread(Get(props, "attributes"))[k]
  {
    if ValueTruthy(Get(props, "attributes")) then
      props["attributes" := Obj(Spread(Get(props, "attributes")) + ExcludeFlag)]
    else
      props + map["attributes" := Obj(ExcludeFlag)]
  }

  /** Excluding twice is the same as excluding once. */
  lemma ExcludeIdempotent(props: Attrs)
    ensures ExcludeFromActivity(ExcludeFromActivity(props)) == ExcludeFromActivity(props)
  {
    var once := ExcludeFromActivity(props);
    var inner := once["attributes"].fields;
    assert inner + ExcludeFlag == inner;
  }

  /** The envelope of a track event: the tenant fields (`null` type and no
      id without a tenant) around the event body. */
  function TrackEnvelope(tenantId: Option<string>, body: Value): (e: Attrs)
    ensures "trackEvent" in e && "tenantIdType" in e && ("tenantId" in e <==> tenantId.Some?)
    ensures e["trackEvent"] == body
    ensures e["tenantIdType"] == (if tenantId.Some? then Str("cloudId") else Null)
    ensures tenantId.Some? ==> e["tenantId"] == Str(tenantId.value)
  {
    match tenantId
    case None => map["tenantIdType" := Null, "trackEvent" := body]
    case Some(t) => map["tenantIdType" := Str("cloudId"), "tenantId" := Str(t), "trackEvent" := body]
  }

  /** `trackEvent` and `tenantTrackEvent`: the event under `trackEvent`,
      with the tenant when given, and the user. */
  function TrackEvent(tenantId: Option<string>, platform: string, action: string, actionSubject: string, props: Attrs,
                      aaid: Option<string>, machineId: string): (r: Attrs)
    ensures Get(r, "trackEvent") == Obj(Event(PlatformFor(platform), action, actionSubject, props))
    ensures Get(r, "tenantIdType") == (if tenantId.Some? then Str("cloudId") else Null)
    ensures "tenantId" in r <==> tenantId.Some?
    ensures Get(r, "tenantId") == (if tenantId.Some? then Str(tenantId.value) else Undefined)
    ensures HasUser(r, aaid, machineId)
  {
    var e := TrackEnvelope(tenantId, Obj(Event(PlatformFor(platform), action, actionSubject, props)));
    assert "trackEvent" !in {"userId", "userIdType", "anonymousId"};
    assert "tenantIdType" !in {"userId", "userIdType", "anonymousId"};
    assert "tenantId" !in {"userId", "userIdType", "anonymousId"};
    assert e.Keys <= {"trackEvent", "tenantIdType", "tenantId"};
    AnyUserOrAnonymous(e, aaid, machineId)
  }

  /** `instanceTrackEvent`: a track event about a site, tenant-scoped exactly
      when the site is a cloud Jira site. */
  function InstanceTrackEvent(site: Site, action: string, actionSubject: string, props: Attrs,
                              platform: string, aaid: Option<string>, machineId: string): (r: Attrs)
    ensures "tenantIdType" in r && "trackEvent" in r
    ensures r["tenantIdType"] == Str("cloudId") <==> site.isCloud && site.product.key == ProductJira.key
    ensures site.isCloud && site.product.key == ProductJira.key ==> "tenantId" in r && r["tenantId"] == Str(site.id)
    ensures !(site.isCloud && site.product.key == ProductJira.key) ==> "tenantId" !in r
    ensures r["trackEvent"] == Obj(Event(PlatformFor(platform), action, actionSubject, InstanceType(props, Some(site), None)))
    ensures HasUser(r, aaid, machineId)
  {
    var tenant := if site.isCloud && site.product.key == ProductJira.key then Some(site.id) else None;
    TrackEvent(tenant, platform, action, actionSubject, InstanceType(props, Some(site), None), aaid, machineId)
  }

  const WelcomeScreen := "atlascodeWelcomeScreen"

  /** The `screenEvent` object of a screen event: origin and the platform
      label with the instance attributes, excluded from activity for the
      welcome screen. */
  function ScreenBody(screenName: string, site: Option<Site>, product: Option<Product>, platformLabel: string): Attrs
  {
    var base := InstanceType(map["origin" := Str("desktop"), "platform" := Str(platformLabel)], site, product);
    if screenName == WelcomeScreen then ExcludeFromActivity(base) else base
  }

  /** The fields of a screen event built from its name, body and tenant. */
  lemma ScreenEventFields(name: string, body: Value, tenant: Option<string>, aaid: Option<string>, machineId: string)
    ensures var t := TenantOrNull(map["tenantIdType" := Null, "name" := Str(name), "screenEvent" := body], tenant);
            var r := AnyUserOrAnonymous(t, aaid, machineId);
            && Get(r, "name") == Str(name) && Get(r, "screenEvent") == body
            && Get(r, "tenantId") == (if tenant.Some? then Str(tenant.value) else Undefined)
            && Get(r, "tenantIdType") == (if Truthy(tenant) then Str("cloudId") else Null)
            && HasUser(r, aaid, machineId)
  {
    var e := map["tenantIdType" := Null, "name" := Str(name), "screenEvent" := body];
    var t := TenantOrNull(e, tenant);
    assert t["name"] == e["name"] && t["screenEvent"] == e["screenEvent"];
    assert "userId" !in t && "userIdType" !in t && "anonymousId" !in t by {
      assert e.Keys == {"tenantIdType", "name", "screenEvent"};
    }
  }

  /** `viewScreenEvent` */
  function ViewScreenEvent(screenName: string, site: Option<Site>, product: Option<Product>,
                           platform: string, aaid: Option<string>, machineId: string): (r: Attrs)
    ensures Get(r, "name") == Str(screenName)
    ensures Get(r, "screenEvent") == Obj(ScreenBody(screenName, site, product, PlatformFor(platform)))
    ensures Get(r, "tenantId") == (if site.Some? then Str(site.value.id) else Undefined)
    ensures Get(r, "tenantIdType") == (if site.Some? && site.value.id != "" then Str("cloudId") else Null)
    ensures HasUser(r, aaid, machineId)
  {
    var body := Obj(ScreenBody(screenName, site, product, PlatformFor(platform)));
    var tenant := if site.Some? then Some(site.value.id) else None;
    ScreenEventFields(screenName, body, tenant, aaid, machineId);
    AnyUserOrAnonymous(TenantOrNull(map["tenantIdType" := Null, "name" := Str(screenName), "screenEvent" := body], tenant),
                       aaid, machineId)
  }

  /** The welcome screen's body is excluded from activity and keeps the
      instance type of a non-empty site, whatever the platform label. */
  lemma ScreenBodyOfWelcome(site: Option<Site>, product: Option<Product>, platformLabel: string)
    ensures var s := ScreenBody(WelcomeScreen, site, product, platformLabel);
            && Get(Spread(Get(s, "attributes")), "excludeFromActivity") == Bool(true)
            && (site.Some? && !IsEmptySite(site.value) ==>
                  Get(Spread(Get(s, "attributes")), "instanceType") == Str(if site.value.isCloud then "cloud" else "server"))
  {
    var start := map["origin" := Str("desktop"), "platform" := Str(platformLabel)];
    var base := InstanceType(start, site, product);
    var s := ExcludeFromActivity(base);
    assert ScreenBody(WelcomeScreen, site, product, platformLabel) == s;
    assert Get(Spread(Get(s, "attributes")), "excludeFromActivity") == Bool(true);
    if site.Some? && !IsEmptySite(site.value) {
      SiteOverridesProduct(start, site.value, product);
      var a := base["attributes"].fields;
      assert Spread(Get(base, "attributes")) == a;
      assert "instanceType" in a && "instanceType" != "excludeFromActivity";
      assert s["attributes"].fields["instanceType"] == a["instanceType"];
    }
  }

  /** The welcome screen is always excluded from activity, whatever site
      and product; with a non-empty site it still carries the site's
      instance type. */
  lemma WelcomeScreenExcluded(site: Option<Site>, product: Option<Product>, platform: string,
                              aaid: Option<string>, machineId: string)
    ensures var s := Spread(Get(ViewScreenEvent(WelcomeScreen, site, product, platform, aaid, machineId), "screenEvent"));
            && Get(Spread(Get(s, "attributes")), "excludeFromActivity") == Bool(true)
            && (site.Some? && !IsEmptySite(site.value) ==>
                  Get(Spread(Get(s, "attributes")), "instanceType") == Str(if site.value.isCloud then "cloud" else "server"))
  {
    ScreenBodyOfWelcome(site, product, PlatformFor(platform));
  }
}

=== FILE: authinfo.dfy ===
/** Shared records of the authentication layer: the four OAuth providers,
    the two products, provider strategy descriptors, the records an OAuth
    dance produces and the detailed site record built from them.

    The enum string values of the providers and the product name/key pairs
    are those of the extension's authInfo module, which is not part of this
    model; they are fixed here as constants. */
module AuthInfo {
  import opened Results
  import opened Strings

  datatype Provider = BitbucketCloud | BitbucketCloudStaging | JiraCloud | JiraCloudStaging

  /** The string value of the `OAuthProvider` enum member; also the path of
      the provider's callback route on the local listener. */
  function ProviderId(p: Provider): string
  {
    match p
    case BitbucketCloud => "bbcloud"
    case BitbucketCloudStaging => "bbcloudstaging"
    case JiraCloud => "jiracloud"
    case JiraCloudStaging => "jiracloudstaging"
  }

  predicate IsJiraProvider(p: Provider)
  {
    p.JiraCloud? || p.JiraCloudStaging?
  }

  predicate IsStagingProvider(p: Provider)
  {
    p.BitbucketCloudStaging? || p.JiraCloudStaging?
  }

  /** The string tests the code uses to classify a provider (`startsWith('jira')`,
      `endsWith('staging')`) agree with the enum members they are meant to pick. */
  lemma ProviderIdClassifies(p: Provider)
    ensures StartsWith(ProviderId(p), "jira") <==> IsJiraProvider(p)
    ensures EndsWith(ProviderId(p), "staging") <==> IsStagingProvider(p)
  {
    match p
    case BitbucketCloud =>
      assert ProviderId(p)[0] != "jira"[0];
      assert ProviderId(p)[|ProviderId(p)| - 7..] != "staging";
    case BitbucketCloudStaging =>
      assert ProviderId(p)[0] != "jira"[0];
    case JiraCloud =>
      assert ProviderId(p)[|ProviderId(p)| - 7..] != "staging";
    case JiraCloudStaging =>
  }

  datatype Product = Product(name: string, key: string)

  const ProductJira := Product("Jira", "jira")
  const ProductBitbucket := Product("Bitbucket", "bitbucket")

  /** The product a provider id belongs to: `startsWith('jira')` picks Jira,
      everything else is Bitbucket. */
  function ProductForProviderId(id: string): (r: Product)
    ensures r == ProductJira || r == ProductBitbucket
    ensures r == ProductJira <==> StartsWith(id, "jira")
  {
    if StartsWith(id, "jira") then ProductJira else ProductBitbucket
  }

  /** A provider strategy descriptor (endpoints, client credentials and the
      extra authorize parameters). Its values live in a module that is not
      part of this model, so strategies are parameters. */
  datatype Strategy = Strategy(
    authorizationURL: string,
    tokenURL: string,
    clientID: string,
    clientSecret: string,
    callbackURL: string,
    scope: string,
    audience: string,
    prompt: string,
    profileURL: string,
    emailsURL: string,
    accessibleResourcesURL: string)

  datatype Strategies = Strategies(
    jiraProd: Strategy,
    jiraStaging: Strategy,
    bitbucketProd: Strategy,
    bitbucketStaging: Strategy)

  function StrategyFor(cfg: Strategies, p: Provider): Strategy
  {
    match p
    case JiraCloud => cfg.jiraProd
    case JiraCloudStaging => cfg.jiraStaging
    case BitbucketCloud => cfg.bitbucketProd
    case BitbucketCloudStaging => cfg.bitbucketStaging
  }

  datatype AccessibleResource = AccessibleResource(
    id: string, name: string, scopes: seq<string>, avatarUrl: string, url: string)

  datatype UserInfo = UserInfo(id: string, displayName: string, email: string, avatarUrl: string)

  datatype OAuthResponse = OAuthResponse(
    access: string, refresh: string, user: UserInfo, accessibleResources: seq<AccessibleResource>)

  /** Custom TLS material a server site may carry. */
  datatype Tls = Tls(customSSLCertPaths: Option<string>, pfxPath: Option<string>, pfxPassphrase: Option<string>)

  const NoTls := Tls(None, None, None)

  /** `DetailedSiteInfo` */
  datatype Site = Site(
    avatarUrl: string,
    baseApiUrl: string,
    baseLinkUrl: string,
    hostname: string,
    id: string,
    name: string,
    product: Product,
    isCloud: bool,
    userId: string,
    credentialId: string,
    tls: Tls)

  /** `emptySiteInfo`: the placeholder returned when a product has no site.
      Its definition lives outside this model; it is taken to be the site with
      every string empty, and `isEmptySiteInfo` to test for an empty id. */
  const EmptySite := Site("", "", "", "", "", "", Product("", ""), false, "", "", NoTls)

  predicate IsEmptySite(s: Site)
  {
    s.id == ""
  }
}

=== FILE: commentprovider.dfy ===
/** The pull-request comment provider of the diff editor: it turns the comment
    threads carried in a diff document's query into editor threads, and posts
    new threads and replies. Editor lines are 0-based, inline positions
    1-based. Posting goes through the Bitbucket Cloud pull-request API, which
    is not part of this model: a post is modelled as the arguments the
    provider passes, and the comment the server answers with is an input. */
module CommentProvider {
  import opened Results
  import opened Strings

  /** The URI scheme of pull-request diff documents. */
  const Scheme := "atlascode.bbpr"

  /** An editor range; lines and characters are 0-based. */
  datatype Range = Range(startLine: int, startCharacter: int, endLine: int, endCharacter: int)

  /** A Bitbucket Cloud inline position: 1-based lines on the old (`from`)
      and new (`to`) side of the diff, and the file path. */
  datatype CloudInline = CloudInline(from: Option<int>, to: Option<int>, path: Option<string>)

  /** The fields of a Bitbucket Cloud comment the provider reads. */
  datatype CloudComment = CloudComment(id: nat, displayName: string, raw: string, inline: Option<CloudInline>)

  datatype EditorComment = EditorComment(userName: string, body: string, commentId: string)

  datatype Thread = Thread(comments: seq<EditorComment>, range: Range, resource: string, threadId: string)

  datatype CommentInfo = CommentInfo(commentingRanges: seq<Range>, threads: seq<Thread>)

  /** The fields of a diff document's query the provider reads; `remote`
      names the git remote the pull request lives on. */
  datatype DiffQuery = DiffQuery(remote: string, prId: int, commentThreads: Option<seq<seq<CloudComment>>>,
                                 path: Option<string>, lhs: bool)

  /** The parent-id argument of a post: left out, a number, or `NaN`. */
  datatype Parent = NoParent | ParentNumber(n: int) | ParentNaN

  /** The arguments of one `postComment` call. */
  datatype PostCall = PostCall(remote: string, prId: int, text: string, parent: Parent, inline: Option<CloudInline>)

  /** Every thread has a first comment, and that comment has an inline
      position: the provider dereferences both without a check. */
  predicate ThreadsAnchored(ts: seq<seq<CloudComment>>)
  {
    forall i :: 0 <= i < |ts| ==> |ts[i]| > 0 && ts[i][0].inline.Some?
  }

  /** The 0-based editor line of an inline position: the left side when it is
      set, else the right side, else the first line. */
  function ThreadLine(i: CloudInline): (line: int)
    ensures IntTruthy(i.from) ==> line == i.from.value - 1
    ensures !IntTruthy(i.from) && IntTruthy(i.to) ==> line == i.to.value - 1
    ensures !IntTruthy(i.from) && !IntTruthy(i.to) ==> line == 0
  {
    if IntTruthy(i.from) then i.from.value - 1
    else if IntTruthy(i.to) then i.to.value - 1
    else 0
  }

  /** `String(n)` for a number the editor shows or sends back. */
  function IdText(n: nat): (s: string)
    ensures s != [] && forall k :: 0 <= k < |s| ==> '0' <= s[k] <= '9'
  {
    NatToString(n)
  }

  predicate AllDigits(s: string)
  {
    forall k :: 0 <= k < |s| ==> '0' <= s[k] <= '9'
  }

  /** `Number(s)` on decimal digit strings; `None` stands for NaN. */
  function NumberOf(s: string): (r: Option<int>)
    ensures s == "" ==> r == Some(0)
    ensures r.Some? <==> AllDigits(s)
    ensures AllDigits(s) && s != "" ==> r == Some(DigitsValue(s))
  {
    if s == "" then Some(0)
    else if AllDigits(s) then Some(DigitsValue(s))
    else None
  }

  /** `Number(String(n)) == n`: an id shown to the editor reads back. */
  lemma IdTextReadsBack(n: nat)
    ensures NumberOf(IdText(n)) == Some(n)
  {
    NatToStringValue(n);
  }

  function ToEditorComment(c: CloudComment): (e: EditorComment)
    ensures e.userName == c.displayName && e.body == c.raw
    ensures NumberOf(e.commentId) == Some(c.id)
  {
    IdTextReadsBack(c.id);
    EditorComment(c.displayName, c.raw, IdText(c.id))
  }

  /** One editor thread per stored thread, positioned on its first comment's
      line. */
  function ToThread(c: seq<CloudComment>, fileName: string): (t: Thread)
    requires |c| > 0 && c[0].inline.Some?
    ensures |t.comments| == |c|
    ensures forall k :: 0 <= k < |c| ==> t.comments[k] == ToEditorComment(c[k])
    ensures t.range.startLine == t.range.endLine == ThreadLine(c[0].inline.value)
    ensures t.range.startCharacter == t.range.endCharacter == 0
    ensures t.resource == Scheme + "://" + fileName
    ensures NumberOf(t.threadId) == Some(c[0].id)
  {
    var line := ThreadLine(c[0].inline.value);
    IdTextReadsBack(c[0].id);
    Thread(seq(|c|, k requires 0 <= k < |c| => ToEditorComment(c[k])),
           Range(line, 0, line, 0), Scheme + "://" + fileName, IdText(c[0].id))
  }

  /** `provideDocumentComments` for a document of `lineCount` lines (an
      editor document always has at least one). */
  function ProvideDocumentComments(q: DiffQuery, lineCount: nat, fileName: string): (r: CommentInfo)
    requires lineCount >= 1
    requires q.commentThreads.Some? ==> ThreadsAnchored(q.commentThreads.value)
    ensures Truthy(q.path) ==> r.commentingRanges == [Range(0, 0, lineCount - 1, 0)]
    ensures !Truthy(q.path) ==> r.commentingRanges == []
    ensures q.commentThreads.None? ==> r.threads == []
    ensures q.commentThreads.Some? ==>
      var ts := q.commentThreads.value;
      && |r.threads| == |ts|
      && forall k :: 0 <= k < |ts| ==> r.threads[k] == ToThread(ts[k], fileName)
  {
    var ranges := if Truthy(q.path) then [Range(0, 0, lineCount - 1, 0)] else [];
    if q.commentThreads.None? || |q.commentThreads.value| == 0 then CommentInfo(ranges, [])
    else
      var ts := q.commentThreads.value;
      CommentInfo(ranges, seq(|ts|, k requires 0 <= k < |ts| => ToThread(ts[k], fileName)))
  }

  /** The inline position of a new comment on editor line `line`: the left
      side of the diff sets `from`, the right side `to`, 1-based; the path is
      the query's, present or not. */
  function NewCommentInline(line: int, lhs: bool, path: Option<string>): (i: CloudInline)
    ensures i.path == path
    ensures lhs ==> i.from == Some(line + 1) && i.to.None?
    ensures !lhs ==> i.to == Some(line + 1) && i.from.None?
  {
    CloudInline(if lhs then Some(line + 1) else None, if lhs then None else Some(line + 1), path)
  }

  /** A new comment's inline position maps back to the line it was made on;
      only line -1, whose position is the falsy 0, falls back to line 0. */
  lemma NewCommentLineRoundTrip(line: int, lhs: bool, path: Option<string>)
    ensures line != -1 ==> ThreadLine(NewCommentInline(line, lhs, path)) == line
    ensures line == -1 ==> ThreadLine(NewCommentInline(line, lhs, path)) == 0
  {
  }

  /** `Number(s)` as a parent-id argument. */
  function ParentOf(n: Option<int>): (p: Parent)
    ensures n.Some? <==> p.ParentNumber?
    ensures n.Some? ==> p.n == n.value
    ensures n.None? <==> p == ParentNaN
  {
    match n
    case Some(v) => ParentNumber(v)
    case None => ParentNaN
  }

  /** `createNewCommentThread`: posts the text to the query's pull request,
      with no parent and an inline position on the range's start line, and
      returns a one-comment thread for the server's answer, at the given
      range on the given document. A query without a path posts an inline
      position without one. */
  function CreateNewCommentThread(q: DiffQuery, range: Range, text: string, answer: CloudComment, documentUri: string)
    : (r: (PostCall, Thread))
    ensures r.0.remote == q.remote && r.0.prId == q.prId && r.0.text == text
    ensures r.0.parent == NoParent
    ensures r.0.inline.Some? && r.0.inline.value.path == q.path
    ensures q.lhs ==> r.0.inline.value.from == Some(range.startLine + 1) && r.0.inline.value.to.None?
    ensures !q.lhs ==> r.0.inline.value.to == Some(range.startLine + 1) && r.0.inline.value.from.None?
    ensures r.1.comments == [ToEditorComment(answer)]
    ensures r.1.range == range && r.1.resource == documentUri
    ensures NumberOf(r.1.threadId) == Some(answer.id)
  {
    var inline := NewCommentInline(range.startLine, q.lhs, q.path);
    IdTextReadsBack(answer.id);
    (PostCall(q.remote, q.prId, text, NoParent, Some(inline)),
     Thread([ToEditorComment(answer)], range, documentUri, IdText(answer.id)))
  }

  /** When the server stores the posted inline position with the comment, the
      thread the provider shows for it on reloading sits on the line the
      comment was made on, with the same id and comment as the created
      thread. */
  lemma CreatedThreadReappears(q: DiffQuery, range: Range, text: string, answer: CloudComment,
                               documentUri: string, fileName: string)
    requires range.startLine >= 0
    requires answer.inline == CreateNewCommentThread(q, range, text, answer, documentUri).0.inline
    ensures var created := CreateNewCommentThread(q, range, text, answer, documentUri).1;
            var shown := ToThread([answer], fileName);
            && shown.range.startLine == range.startLine
            && shown.threadId == created.threadId
            && shown.comments == created.comments
  {
    NewCommentLineRoundTrip(range.startLine, q.lhs, q.path);
  }

  /** `replyToCommentThread`: posts the text to the query's pull request
      under the thread id read as a number, with no inline position, and
      appends one comment for the server's answer. */
  function ReplyToCommentThread(q: DiffQuery, thread: Thread, text: string, answer: CloudComment): (r: (PostCall, Thread))
    ensures r.0.remote == q.remote && r.0.prId == q.prId && r.0.text == text && r.0.inline.None?
    ensures AllDigits(thread.threadId) ==> r.0.parent == ParentNumber(NumberOf(thread.threadId).value)
    ensures !AllDigits(thread.threadId) ==> r.0.parent == ParentNaN
    ensures |r.1.comments| == |thread.comments| + 1
    ensures r.1.comments[..|thread.comments|] == thread.comments
    ensures r.1.comments[|thread.comments|] == ToEditorComment(answer)
    ensures r.1.range == thread.range && r.1.resource == thread.resource && r.1.threadId == thread.threadId
  {
    (PostCall(q.remote, q.prId, text, ParentOf(NumberOf(thread.threadId)), None),
     thread.(comments := thread.comments + [ToEditorComment(answer)]))
  }

  /** A reply to a provided thread is posted under the thread's first
      comment, whatever its id. */
  lemma ReplyTargetsFirstComment(q: DiffQuery, c: seq<CloudComment>, fileName: string, text: string, answer: CloudComment)
    requires |c| > 0 && c[0].inline.Some?
    ensures ReplyToCommentThread(q, ToThread(c, fileName), text, answer).0.parent == ParentNumber(c[0].id)
  {
  }

  /** The thread a reply leaves in the editor is the one the provider shows
      once the answer is stored at the end of the thread. */
  lemma {:induction false} ReplyMatchesReload(q: DiffQuery, c: seq<CloudComment>, fileName: string, text: string, answer: CloudComment)
    requires |c| > 0 && c[0].inline.Some?
    ensures ReplyToCommentThread(q, ToThread(c, fileName), text, answer).1 == ToThread(c + [answer], fileName)
  {
    var t := ToThread(c, fileName);
    var r := ReplyToCommentThread(q, t, text, answer).1;
    var u := ToThread(c + [answer], fileName);
    assert (c + [answer])[0] == c[0];
    assert forall k :: 0 <= k < |c| ==> (c + [answer])[k] == c[k];
    assert r.comments == u.comments;
  }
}

=== FILE: dancerproperties.dfy ===
/** Properties of the dancer that relate several events, including the
    consequences of the quirks the model keeps as written. */
module DancerProperties {
  import opened Results
  import opened Strings
  import opened AuthInfo
  import opened OAuthDancer
  import opened OAuthDancerShutdown

  /** One event of the dancer. */
  datatype Event =
    | DoDanceEvent(p: Provider, token: Token, listenOk: bool)
    | ResponseEvent(route: Provider, code: Option<string>, state: Option<string>, ex: Exchange)
    | ForceShutdownEvent

  /** An event the environment can deliver in state `d`: dance tokens are fresh
      uuids, and shutdown happens in states the other events can reach. */
  predicate Enabled(d: Dancer, e: Event)
  {
    match e
    case DoDanceEvent(_, token, _) => token != "" && token !in d.listeners
    case ResponseEvent(_, _, _, _) => true
    case ForceShutdownEvent => Valid(d)
  }

  function Apply(d: Dancer, cfg: Strategies, e: Event): (r: Dancer)
    requires Enabled(d, e)
    ensures Valid(d) ==> Valid(r)
    ensures d.listeners.Keys <= r.listeners.Keys
  {
    match e
    case DoDanceEvent(p, token, listenOk) => DoDance(d, cfg, p, token, listenOk).0
    case ResponseEvent(route, code, state, ex) => Response(d, route, code, state, ex)
    case ForceShutdownEvent => ForceShutdown(d)
  }

  /** Once a session has settled (resolved, rejected or cancelled) no event
      changes it again: each session has exactly one terminal transition. */
  lemma SettledIsFinal(d: Dancer, cfg: Strategies, e: Event, t: Token)
    requires Valid(d) && Enabled(d, e)
    requires t in d.listeners && !d.listeners[t].status.Pending?
    ensures Apply(d, cfg, e).listeners[t] == d.listeners[t]
  {
    match e
    case DoDanceEvent(p, token, listenOk) =>
    case ResponseEvent(route, code, state, ex) =>
    case ForceShutdownEvent =>
      assert !Live(d, t);
  }

  /** Runs a sequence of events from `d`. */
  function Run(d: Dancer, cfg: Strategies, es: seq<Event>): (r: Option<Dancer>)
    ensures r.Some? && Valid(d) ==> Valid(r.value)
    decreases |es|
  {
    if es == [] then Some(d)
    else if Enabled(d, es[0]) then Run(Apply(d, cfg, es[0]), cfg, es[1..])
    else None
  }

  /** Every state reachable from the initial one is valid, and a settled
      session stays settled with the same outcome through any run. */
  lemma {:induction false} RunKeepsSettled(d: Dancer, cfg: Strategies, es: seq<Event>, t: Token)
    requires Valid(d) && Run(d, cfg, es).Some?
    requires t in d.listeners && !d.listeners[t].status.Pending?
    ensures t in Run(d, cfg, es).value.listeners
    ensures Run(d, cfg, es).value.listeners[t] == d.listeners[t]
    decreases |es|
  {
    if es != [] {
      SettledIsFinal(d, cfg, es[0], t);
      RunKeepsSettled(Apply(d, cfg, es[0]), cfg, es[1..], t);
    }
  }

  /** Starting a second dance for a provider cancels the first one as
      superseded; it can never resolve afterwards. */
  lemma SecondDanceSupersedesFirst(d: Dancer, cfg: Strategies, p: Provider, t1: Token, t2: Token, ok1: bool, ok2: bool)
    requires Valid(d) && t1 != "" && t2 != "" && t1 != t2 && t1 !in d.listeners && t2 !in d.listeners
    ensures var d1 := DoDance(d, cfg, p, t1, ok1).0;
            var d2 := DoDance(d1, cfg, p, t2, ok2).0;
            && d2.listeners[t1] == Session(p, Cancelled(Superseded(p)))
            && d2.inFlight[p] == t2
            && d2.listeners[t2] == Session(p, Pending)
  {
  }

  /** Quirk: the idle check ignores the table, so a successful callback for
      one provider closes the listener while another provider's dance is
      still in flight. */
  lemma SuccessClosesListenerWhileOthersInFlight(
    d: Dancer, route: Provider, code: Option<string>, state: Option<string>, ex: Exchange, q: Provider)
    requires Valid(d) && Matches(d, code, state)
    requires RunExchange(route, d.listeners[state.value].provider, ex).Ok?
    requires q != route && q in d.inFlight && d.inFlight[q] != state.value
    requires d.listeners[d.inFlight[q]].status.Pending?
    ensures var r := Response(d, route, code, state, ex);
            && q in r.inFlight && r.listeners[r.inFlight[q]].status.Pending?
            && r.server == NoServer
  {
  }

  /** Quirk: listeners are never removed, so a superseded session still
      handles a late callback carrying its token, and that deletes the entry
      of the session that replaced it, which stays pending with no entry. */
  lemma SupersededCallbackEvictsSuccessor(d: Dancer, p: Provider, stale: Token, code: Option<string>, ex: Exchange)
    requires Valid(d) && p in d.inFlight && Truthy(code)
    requires stale in d.listeners && stale != "" && stale != d.inFlight[p] && d.listeners[stale].status.Cancelled?
    ensures var r := Response(d, p, code, Some(stale), ex);
            && p !in r.inFlight
            && r.listeners[d.inFlight[p]] == d.listeners[d.inFlight[p]]
            && r.listeners[stale] == d.listeners[stale]
  {
  }

  /** Quirk: the token match ignores which route the callback came in on. A
      callback on `route` carrying the token of another provider's pending
      session settles that session, deletes the route's entry and leaves the
      session's own entry in the table. */
  lemma CrossRouteCallback(d: Dancer, route: Provider, code: Option<string>, t: Token, ex: Exchange)
    requires Valid(d) && Truthy(code) && t != "" && t in d.listeners
    requires d.listeners[t].provider != route && d.listeners[t].status.Pending?
    requires d.listeners[t].provider in d.inFlight && d.inFlight[d.listeners[t].provider] == t
    ensures var r := Response(d, route, code, Some(t), ex);
            && route !in r.inFlight
            && r.inFlight[d.listeners[t].provider] == t
            && !r.listeners[t].status.Pending?
  {
  }

  /** On the Jira route, a token exchange that succeeds with zero accessible
      resources rejects the session; it is never resolved. */
  lemma JiraWithoutResourcesRejects(d: Dancer, route: Provider, code: Option<string>, t: Token, ex: Exchange)
    requires Truthy(code) && t != "" && t in d.listeners && d.listeners[t].status.Pending?
    requires IsJiraProvider(route) && ex.tokens.Ok? && ex.resources == Ok([])
    ensures Response(d, route, code, Some(t), ex).listeners[t].status
            == Rejected(AuthFailure(d.listeners[t].provider, NoAccessibleResources(d.listeners[t].provider)))
  {
  }

  /** A full Jira dance from any valid state: after the dance for `p` and
      its matching callback, whose exchange yields tokens, a non-empty
      resource list and the user, the session resolves with exactly those,
      the provider has no entry left and the listener is closed. */
  lemma JiraDanceEndToEnd(d: Dancer, cfg: Strategies, p: Provider, t: Token, listenOk: bool, code: Option<string>,
                          tokens: Tokens, resources: seq<AccessibleResource>, me: JiraMyself,
                          bbUser: Result<BitbucketProfile, string>, bbEmails: Result<EmailsPayload, string>)
    requires Valid(d) && t != "" && t !in d.listeners
    requires IsJiraProvider(p) && Truthy(code) && |resources| > 0
    ensures var ex := Exchange(Ok(tokens), Ok(resources), Ok(me), bbUser, bbEmails);
            var d1 := DoDance(d, cfg, p, t, listenOk).0;
            var d2 := Response(d1, p, code, Some(t), ex);
            && d2.listeners[t].status
               == Resolved(OAuthResponse(tokens.accessToken, tokens.refreshToken,
                                         UserInfo(me.accountId, me.displayName, me.emailAddress, me.avatar48), resources))
            && p !in d2.inFlight
            && d2.server == NoServer && !d2.shutdownTimer
            && Valid(d2)
  {
    var d1 := DoDance(d, cfg, p, t, listenOk).0;
    assert Matches(d1, code, Some(t));
    ProviderIdClassifies(p);
  }

  /** A full Bitbucket dance from any valid state whose email listing fails:
      the session still resolves, with the placeholder email and the one
      resource synthesized for the provider. */
  lemma BitbucketDanceEndToEnd(d: Dancer, cfg: Strategies, p: Provider, t: Token, listenOk: bool, code: Option<string>,
                               tokens: Tokens, profile: BitbucketProfile, emailError: string,
                               resources: Result<seq<AccessibleResource>, string>, jiraUser: Result<JiraMyself, string>)
    requires Valid(d) && t != "" && t !in d.listeners
    requires !IsJiraProvider(p) && Truthy(code)
    ensures var ex := Exchange(Ok(tokens), resources, jiraUser, Ok(profile), Err(emailError));
            var d1 := DoDance(d, cfg, p, t, listenOk).0;
            var d2 := Response(d1, p, code, Some(t), ex);
            && d2.listeners[t].status
               == Resolved(OAuthResponse(tokens.accessToken, tokens.refreshToken,
                                         UserInfo(profile.accountId, profile.displayName, DefaultEmail, profile.avatarHref),
                                         [BitbucketResource(p)]))
            && p !in d2.inFlight
            && d2.server == NoServer
  {
    var d1 := DoDance(d, cfg, p, t, listenOk).0;
    assert Matches(d1, code, Some(t));
    ProviderIdClassifies(p);
  }

  /** Quirk consequence: once a stale session's late callback has evicted its
      provider's current entry, forced shutdown no longer finds that entry's
      session, which stays pending for good. */
  lemma EvictedSessionOutlivesShutdown(d: Dancer, p: Provider, stale: Token, code: Option<string>, ex: Exchange)
    requires Valid(d) && p in d.inFlight && d.listeners[d.inFlight[p]].status.Pending?
    requires stale in d.listeners && stale != d.inFlight[p] && !d.listeners[stale].status.Pending?
    requires Truthy(code)
    ensures var d3 := Response(d, p, code, Some(stale), ex);
            && Valid(d3)
            && ForceShutdown(d3).listeners[d.inFlight[p]].status.Pending?
  {
    var succ := d.inFlight[p];
    var d3 := Response(d, p, code, Some(stale), ex);
    assert Matches(d, code, Some(stale));
    assert p !in d3.inFlight;
    assert d3.listeners[succ] == d.listeners[succ];
    assert !Live(d3, succ);
  }

  /** Quirk consequence: when the port cannot be bound the dance hangs with
      its session pending, and the unbound server object is kept, so a later
      dance for another provider opens the browser with no listener running
      to take its callback. */
  lemma FailedBindHangsLaterDances(d: Dancer, cfg: Strategies, p: Provider, q: Provider, t1: Token, t2: Token, ok2: bool)
    requires Valid(d) && d.server == NoServer
    requires t1 != "" && t2 != "" && t1 != t2 && t1 !in d.listeners && t2 !in d.listeners
    requires q != p && q !in d.inFlight
    ensures var (d1, s1) := DoDance(d, cfg, p, t1, false);
            var (d2, s2) := DoDance(d1, cfg, q, t2, ok2);
            && s1.ListenHangs? && d1.listeners[t1].status.Pending? && d1.inFlight[p] == t1
            && s2.BrowserOpened? && d2.server == Unbound
            && d2.listeners[t1].status.Pending?
  {
    var (d1, s1) := DoDance(d, cfg, p, t1, false);
    assert q !in d1.inFlight;
  }
}

=== FILE: loginmanager.dfy ===
/** Site and credential derivation of the login manager: the sites built from
    an OAuth result, the credential id, the username slug and the site built
    from a server (basic-auth) login probe. */
module LoginManager {
  import opened Results
  import opened Strings
  import opened AuthInfo

  // ---------------------------------------------------------------------
  // Credential ids
  // ---------------------------------------------------------------------

  /** `generateCredentialId`: Base64 of `siteId + '::' + userId`. Base64 is an
      injective encoding and is left out: the model's id is the encoded text. */
  function GenerateCredentialId(siteId: string, userId: string): (r: string)
    ensures |r| == |siteId| + 2 + |userId|
    ensures r[..|siteId|] == siteId && r[|siteId|..|siteId| + 2] == "::" && r[|siteId| + 2..] == userId
  {
    siteId + "::" + userId
  }

  /** A site id whose credential id can be split back: it holds no `::` and
      does not end in `:`, so the first `::` of the credential id is the one
      that joins it to the user id. A hostname with a port qualifies. */
  predicate SplitSafe(s: string)
  {
    forall i :: 0 <= i < |s| && s[i] == ':' ==> i + 1 < |s| && s[i + 1] != ':'
  }

  /** A `::` starts at index `i` of `id`. */
  predicate SeparatorAt(id: string, i: int)
    requires 0 <= i < |id| - 1
  {
    id[i] == ':' && id[i + 1] == ':'
  }

  /** Splits a credential id at its first `::`. */
  function SplitCredentialId(id: string): (r: Option<(string, string)>)
    ensures r.Some? ==> id == r.value.0 + "::" + r.value.1
    ensures r.Some? ==> SplitSafe(r.value.0)
    ensures r.None? <==> forall i :: 0 <= i < |id| - 1 ==> !SeparatorAt(id, i)
    decreases |id|
  {
    if |id| < 2 then None
    else if id[..2] == "::" then
      assert SeparatorAt(id, 0);
      Some(("", id[2..]))
    else
      match SplitCredentialId(id[1..])
      case None =>
        assert forall i :: 1 <= i < |id| - 1 ==> SeparatorAt(id, i) == SeparatorAt(id[1..], i - 1);
        assert !SeparatorAt(id, 0) by { assert id[..2] == [id[0], id[1]]; }
        None
      case Some((a, b)) =>
        var a' := [id[0]] + a;
        assert id == a' + "::" + b;
        assert a != [] ==> a[0] == id[1];
        assert a == [] ==> id[0] != ':' by {
          if a == [] {
            assert id[1] == id[1..][0] == ':';
            assert id[..2] == [id[0], id[1]];
          }
        }
        assert forall i :: 1 <= i < |a'| ==> a'[i] == a[i - 1];
        assert SeparatorAt(id, |a'|) by {
          assert id[|a'|] == (a' + "::" + b)[|a'|];
        }
        Some((a', b))
  }

  /** The site and user ids read back from the credential id exactly when the
      site id is split-safe; a hostname with a port is. */
  lemma {:induction false} CredentialIdRoundTrip(siteId: string, userId: string)
    ensures SplitCredentialId(GenerateCredentialId(siteId, userId)) == Some((siteId, userId)) <==> SplitSafe(siteId)
    decreases |siteId|
  {
    var id := GenerateCredentialId(siteId, userId);
    if SplitSafe(siteId) {
      if siteId == [] {
        assert id[..2] == "::";
        assert id[2..] == userId;
      } else {
        assert id[..2] != "::" by {
          if siteId[0] == ':' { assert id[1] == siteId[1] != ':'; }
        }
        assert id[1..] == GenerateCredentialId(siteId[1..], userId);
        assert SplitSafe(siteId[1..]) by {
          assert forall i :: 0 <= i < |siteId[1..]| ==> siteId[1..][i] == siteId[i + 1];
        }
        CredentialIdRoundTrip(siteId[1..], userId);
        assert [id[0]] + siteId[1..] == siteId;
      }
    }
  }

  /** A hostname without colons followed by a port is split-safe. */
  lemma HostWithPortIsSplitSafe(host: string, port: string)
    requires Lacks(host, ':') && Lacks(port, ':') && port != ""
    ensures SplitSafe(host + ":" + port)
  {
    var s := host + ":" + port;
    assert forall i :: 0 <= i < |host| ==> s[i] == host[i];
    assert forall i :: |host| < i < |s| ==> s[i] == port[i - |host| - 1];
  }

  /** With colons allowed, two different (site, user) pairs can share a
      credential id. */
  lemma CredentialIdCanCollide()
    ensures ("a:", ":b") != ("a", "::b")
    ensures GenerateCredentialId("a:", ":b") == GenerateCredentialId("a", "::b")
  {
  }

  // ---------------------------------------------------------------------
  // OAuth sites
  // ---------------------------------------------------------------------

  /** The Jira API host of a provider. */
  function JiraApiHost(provider: Provider): string
  {
    if provider == JiraCloudStaging then "api.stg.atlassian.com" else "api.atlassian.com"
  }

  /** The site of one Jira accessible resource; `host` is what URL parsing
      gives as the hostname of the resource's url. */
  function JiraSite(provider: Provider, userId: string, r: AccessibleResource, host: string): (s: Site)
    ensures s.id == r.id && s.name == r.name && s.baseLinkUrl == r.url && s.avatarUrl == r.avatarUrl
    ensures s.hostname == host && s.product == ProductJira && s.isCloud && s.userId == userId
    ensures s.baseApiUrl == "https://" + JiraApiHost(provider) + "/ex/jira/" + r.id + "/rest"
    ensures s.credentialId == GenerateCredentialId(r.id, userId)
  {
    Site(r.avatarUrl, "https://" + JiraApiHost(provider) + "/ex/jira/" + r.id + "/rest", r.url, host,
         r.id, r.name, ProductJira, true, userId, GenerateCredentialId(r.id, userId), NoTls)
  }

  datatype SiteError = InvalidUrl(url: string)

  /** `resources.map(...)` for Jira; `hostOf` is URL parsing, which fails
      (throws) on a malformed url. */
  function JiraSites(provider: Provider, userId: string, rs: seq<AccessibleResource>, hostOf: string -> Option<string>)
    : (r: Result<seq<Site>, SiteError>)
    ensures r.Ok? <==> forall i :: 0 <= i < |rs| ==> hostOf(rs[i].url).Some?
    ensures r.Ok? ==> |r.value| == |rs|
                      && forall i :: 0 <= i < |rs| ==> r.value[i] == JiraSite(provider, userId, rs[i], hostOf(rs[i].url).value)
    decreases |rs|
  {
    if rs == [] then Ok([])
    else
      match hostOf(rs[0].url)
      case None => Err(InvalidUrl(rs[0].url))
      case Some(h) =>
        match JiraSites(provider, userId, rs[1..], hostOf)
        case Err(e) =>
          assert exists i :: 1 <= i < |rs| && hostOf(rs[i].url).None? by {
            var j :| 0 <= j < |rs[1..]| && hostOf(rs[1..][j].url).None?;
            assert rs[j + 1] == rs[1..][j];
          }
          Err(e)
        case Ok(tail) =>
          assert forall i :: 1 <= i < |rs| ==> rs[i] == rs[1..][i - 1];
          Ok([JiraSite(provider, userId, rs[0], h)] + tail)
  }

  /** `getOAuthSiteDetails(product, provider, userId, resources)` */
  function OAuthSiteDetails(product: Product, provider: Provider, userId: string, resources: seq<AccessibleResource>,
                            hostOf: string -> Option<string>): (r: Result<seq<Site>, SiteError>)
    ensures product.key == ProductBitbucket.key && resources == [] ==> r == Ok([])
    ensures product.key == ProductBitbucket.key && resources != [] ==>
      r.Ok? && |r.value| == 1
      && r.value[0].id == resources[0].id && r.value[0].baseLinkUrl == resources[0].url
      && r.value[0].product == ProductBitbucket && r.value[0].avatarUrl == ""
      && (provider == BitbucketCloud ==> r.value[0].hostname == "bitbucket.org"
                                         && r.value[0].baseApiUrl == "https://api.bitbucket.org/2.0"
                                         && r.value[0].name == "Bitbucket Cloud")
      && (provider != BitbucketCloud ==> r.value[0].hostname == "staging.bb-inf.net"
                                         && r.value[0].baseApiUrl == "https://api-staging.bb-inf.net/2.0"
                                         && r.value[0].name == "Bitbucket Staging Cloud")
    ensures product.key == ProductJira.key ==> r == JiraSites(provider, userId, resources, hostOf)
    ensures product.key != ProductJira.key && product.key != ProductBitbucket.key ==> r == Ok([])
    ensures r.Ok? ==> forall i :: 0 <= i < |r.value| ==>
      && r.value[i].isCloud && r.value[i].userId == userId
      && r.value[i].credentialId == GenerateCredentialId(r.value[i].id, userId)
  {
    if product.key == ProductBitbucket.key then
      if |resources| > 0 then
        var resource := resources[0];
        var cloud := provider == BitbucketCloud;
        var hostname := if cloud then "bitbucket.org" else "staging.bb-inf.net";
        var baseApiUrl := if cloud then "https://api.bitbucket.org/2.0" else "https://api-staging.bb-inf.net/2.0";
        var siteName := if cloud then "Bitbucket Cloud" else "Bitbucket Staging Cloud";
        Ok([Site("", baseApiUrl, resource.url, hostname, resource.id, siteName, ProductBitbucket, true, userId,
                 GenerateCredentialId(resource.id, userId), NoTls)])
      else Ok([])
    else if product.key == ProductJira.key then
      JiraSites(provider, userId, resources, hostOf)
    else Ok([])
  }

  /** Every OAuth site's credential id reads back as that site and the
      signed-in user, whenever the site's id is split-safe. */
  lemma OAuthCredentialsReadBack(product: Product, provider: Provider, userId: string,
                                 resources: seq<AccessibleResource>, hostOf: string -> Option<string>)
    ensures var r := OAuthSiteDetails(product, provider, userId, resources, hostOf);
            r.Ok? ==> forall i :: 0 <= i < |r.value| && SplitSafe(r.value[i].id) ==>
              SplitCredentialId(r.value[i].credentialId) == Some((r.value[i].id, userId))
  {
    var r := OAuthSiteDetails(product, provider, userId, resources, hostOf);
    if r.Ok? {
      forall i | 0 <= i < |r.value| && SplitSafe(r.value[i].id)
        ensures SplitCredentialId(r.value[i].credentialId) == Some((r.value[i].id, userId))
      {
        CredentialIdRoundTrip(r.value[i].id, userId);
      }
    }
  }

  // ---------------------------------------------------------------------
  // What a login stores
  // ---------------------------------------------------------------------

  /** The auth info handed to the credential manager: the OAuth tokens, or the
      basic credentials the user typed in, each with the signed-in user. */
  datatype StoredAuth =
    | OAuthAuth(access: string, refresh: string, user: UserInfo)
    | BasicAuth(username: string, password: string, user: UserInfo)
  {
    function User(): UserInfo
    {
      match this
      case OAuthAuth(_, _, u) => u
      case BasicAuth(_, _, u) => u
    }
  }

  /** One site saved by a login: `saveAuthInfo(site, auth)` on the credential
      manager, followed by `addSites([site])` on the site manager. */
  datatype SiteSave = SiteSave(site: Site, auth: StoredAuth)

  /** Why `userInitiatedOAuthLogin` stored nothing. */
  datatype LoginError = NoProvider | DanceFailed(reason: string) | BadSite(e: SiteError)

  /** `userInitiatedOAuthLogin(site)`: the provider found for the site and the
      dance's outcome are inputs. With no provider or a failed dance nothing is
      saved; otherwise every site of `getOAuthSiteDetails` is saved with the
      dance's tokens and user. */
  function OAuthLogin(product: Product, provider: Option<Provider>, dance: Result<OAuthResponse, string>,
                      hostOf: string -> Option<string>): (r: Result<seq<SiteSave>, LoginError>)
    ensures provider.None? ==> r == Err(NoProvider)
    ensures provider.Some? && dance.Err? ==> r == Err(DanceFailed(dance.error))
    ensures provider.Some? && dance.Ok? ==>
      var details := OAuthSiteDetails(product, provider.value, dance.value.user.id,
                                      dance.value.accessibleResources, hostOf);
      && (r.Ok? <==> details.Ok?)
      && (details.Err? ==> r == Err(BadSite(details.error)))
      && (r.Ok? ==> |r.value| == |details.value|
                    && forall i :: 0 <= i < |r.value| ==>
                         r.value[i] == SiteSave(details.value[i],
                                                OAuthAuth(dance.value.access, dance.value.refresh, dance.value.user)))
  {
    match provider
    case None => Err(NoProvider)
    case Some(p) =>
      match dance
      case Err(e) => Err(DanceFailed(e))
      case Ok(resp) =>
        match OAuthSiteDetails(product, p, resp.user.id, resp.accessibleResources, hostOf)
        case Err(e) => Err(BadSite(e))
        case Ok(sites) =>
          Ok(seq(|sites|, i requires 0 <= i < |sites| =>
            SiteSave(sites[i], OAuthAuth(resp.access, resp.refresh, resp.user))))
  }

  /** Every site an OAuth login saves is stored under a credential id that
      reads back as that site and the user saved with it, and the site's user
      id is that user's, whenever the site's id is split-safe. */
  lemma OAuthLoginSavesItsUser(product: Product, provider: Option<Provider>, dance: Result<OAuthResponse, string>,
                               hostOf: string -> Option<string>)
    ensures var r := OAuthLogin(product, provider, dance, hostOf);
            r.Ok? ==> forall i :: 0 <= i < |r.value| ==>
              && r.value[i].site.userId == r.value[i].auth.User().id
              && r.value[i].auth.OAuthAuth?
              && (SplitSafe(r.value[i].site.id) ==>
                    SplitCredentialId(r.value[i].site.credentialId) == Some((r.value[i].site.id, r.value[i].auth.User().id)))
  {
    var r := OAuthLogin(product, provider, dance, hostOf);
    if r.Ok? {
      var resp := dance.value;
      OAuthCredentialsReadBack(product, provider.value, resp.user.id, resp.accessibleResources, hostOf);
    }
  }

  // ---------------------------------------------------------------------
  // Server login
  // ---------------------------------------------------------------------

  /** The characters `slugRegex` matches. */
  predicate IsSlugClassChar(c: char)
  {
    c in "[:/?#@!$&'()*+,;=%\\]"
  }

  /** `username.replace(slugRegex, "_")` */
  function Slug(u: string): (r: string)
    ensures |r| == |u|
    ensures forall i :: 0 <= i < |u| ==> r[i] == (if IsSlugClassChar(u[i]) then '_' else u[i])
    ensures forall i :: 0 <= i < |r| ==> !IsSlugClassChar(r[i])
    decreases |u|
  {
    if u == [] then ""
    else
      var tail := Slug(u[1..]);
      assert forall i :: 1 <= i < |u| ==> u[i] == u[1..][i - 1];
      [if IsSlugClassChar(u[0]) then '_' else u[0]] + tail
  }

  /** A slug is its own slug: slugging twice changes nothing. */
  lemma SlugIdempotent(u: string)
    ensures Slug(Slug(u)) == Slug(u)
  {
  }

  /** The server site the user typed in. */
  datatype SiteInfo = SiteInfo(product: Product, hostname: string, protocol: Option<string>, contextPath: Option<string>, tls: Tls)

  datatype BasicCredentials = BasicCredentials(username: string, password: string)

  /** The fields read from the probe's JSON answer. */
  datatype ProbeJson = ProbeJson(id: string, slug: string, displayName: string, emailAddress: string,
                                 avatar48: string, avatarUrl: string)

  /** `${protocol}//${hostname}${contextPath}` with the defaults applied. */
  function SiteRoot(site: SiteInfo): (r: string)
    ensures !Truthy(site.protocol) && !Truthy(site.contextPath) ==> r == "https://" + site.hostname
    ensures Truthy(site.protocol) && Truthy(site.contextPath) ==>
      r == site.protocol.value + "//" + site.hostname + site.contextPath.value
  {
    var protocol := if Truthy(site.protocol) then site.protocol.value else "https:";
    var contextPath := if Truthy(site.contextPath) then site.contextPath.value else "";
    protocol + "//" + site.hostname + contextPath
  }

  /** The URL probed to check the credentials (`siteDetailsUrl`). */
  function ProbeUrl(site: SiteInfo, creds: BasicCredentials): (r: string)
    ensures site.product.key == ProductJira.key ==> r == SiteRoot(site) + "/rest/api/2/myself"
    ensures site.product.key == ProductBitbucket.key ==>
      r == SiteRoot(site) + "/rest/api/1.0/users/" + Slug(creds.username) + "?avatarSize=64"
  {
    if site.product.key == ProductJira.key then SiteRoot(site) + "/rest/api/2/myself"
    else if site.product.key == ProductBitbucket.key then
      SiteRoot(site) + "/rest/api/1.0/users/" + Slug(creds.username) + "?avatarSize=64"
    else ""
  }

  /** The site details and the user recorded with the credentials for a
      successful probe. */
  function ServerSite(site: SiteInfo, creds: BasicCredentials, json: ProbeJson): (r: (Site, UserInfo))
    ensures !r.0.isCloud && r.0.id == site.hostname && r.0.name == site.hostname && r.0.hostname == site.hostname
    ensures r.0.product == site.product && r.0.tls == site.tls && r.0.baseLinkUrl == SiteRoot(site)
    ensures r.0.credentialId == GenerateCredentialId(site.hostname, creds.username)
    ensures r.0.userId == (if site.product.key == ProductJira.key then json.id else json.slug)
    ensures r.1.id == r.0.userId
    ensures site.product.key == ProductJira.key ==>
      r.0.baseApiUrl == SiteRoot(site) + "/rest" && r.0.avatarUrl == SiteRoot(site) + "/images/fav-jcore.png"
    ensures site.product.key == ProductBitbucket.key ==> r.0.baseApiUrl == SiteRoot(site) && r.0.avatarUrl == ""
  {
    var root := SiteRoot(site);
    var isJira := site.product.key == ProductJira.key;
    var avatarUrl := if isJira then root + "/images/fav-jcore.png" else "";
    var apiUrl := if isJira then root + "/rest" else if site.product.key == ProductBitbucket.key then root else "";
    var userId := if isJira then json.id else json.slug;
    var details := Site(avatarUrl, apiUrl, root, site.hostname, site.hostname, site.hostname, site.product, false,
                        userId, GenerateCredentialId(site.hostname, creds.username), site.tls);
    var user := if isJira then UserInfo(json.id, json.displayName, json.emailAddress, json.avatar48)
                else UserInfo(json.slug, json.displayName, json.emailAddress, json.avatarUrl);
    (details, user)
  }

  /** A server site's credential id reads back as its hostname and the
      username typed in, for any hostname that is split-safe, such as one
      with a port. */
  lemma ServerCredentialReadsBack(site: SiteInfo, creds: BasicCredentials, json: ProbeJson)
    requires SplitSafe(site.hostname)
    ensures SplitCredentialId(ServerSite(site, creds, json).0.credentialId) == Some((site.hostname, creds.username))
  {
    CredentialIdRoundTrip(site.hostname, creds.username);
  }

  /** `saveDetailsForServerSite`: the probe's outcome is an input; a failed
      probe rejects with its error and saves nothing, a successful one saves
      the server site with the typed-in credentials and the probed user. */
  function SaveDetailsForServerSite(site: SiteInfo, creds: BasicCredentials, probe: Result<ProbeJson, string>)
    : (r: Result<SiteSave, string>)
    ensures r.Ok? <==> probe.Ok?
    ensures r.Ok? ==>
      r.value.site == ServerSite(site, creds, probe.value).0
      && r.value.auth == BasicAuth(creds.username, creds.password, ServerSite(site, creds, probe.value).1)
    ensures r.Err? ==> r.error == probe.error
  {
    match probe
    case Err(e) => Err(e)
    case Ok(json) =>
      var (details, user) := ServerSite(site, creds, json);
      Ok(SiteSave(details, BasicAuth(creds.username, creds.password, user)))
  }

  /** A server login saves the site under a credential id that reads back as
      the hostname and the saved username, and the saved user is the site's. */
  lemma ServerLoginSavesTypedCredentials(site: SiteInfo, creds: BasicCredentials, probe: Result<ProbeJson, string>)
    requires SplitSafe(site.hostname)
    ensures var r := SaveDetailsForServerSite(site, creds, probe);
            r.Ok? ==> && r.value.auth.BasicAuth?
                      && r.value.site.userId == r.value.auth.User().id
                      && SplitCredentialId(r.value.site.credentialId) == Some((r.value.site.hostname, r.value.auth.username))
  {
    if probe.Ok? {
      ServerCredentialReadsBack(site, creds, probe.value);
    }
  }
}

=== FILE: newissuemonitor.dfy ===
/** The new-issue monitor: it remembers a working project and a timestamp,
    and each check keeps the issues created strictly after the timestamp,
    announces them and advances the timestamp to the newest of them. Dates
    are integers; the clock, the connectivity probe, the site lookup and the
    JQL search are inputs. */
module NewIssueMonitor {
  import opened Results
  import opened Strings

  datatype Project = Project(id: string, name: string)

  datatype Issue = Issue(key: string, summary: string, created: int)

  datatype Monitor = Monitor(project: Option<Project>, timestamp: int)

  /** What the user can open from the notification. */
  datatype ViewAction = ShowIssue(key: string) | OpenExplorer

  datatype Notification = Notification(message: string, onView: ViewAction)

  /** The monitor as constructed at time `now`. */
  function Create(now: int): (m: Monitor)
    ensures m.project.None? && m.timestamp == now
  {
    Monitor(None, now)
  }

  /** `setProject`: a new working project, watched from `now` on. */
  function SetProject(m: Monitor, p: Project, now: int): (r: Monitor)
    ensures r.project == Some(p) && r.timestamp == now
  {
    Monitor(Some(p), now)
  }

  /** The search a check runs, or `None` when the check returns at once:
      no working project, offline, or no Jira site. `formatMinute` is the
      minute-precision date formatting. */
  function CheckQuery(m: Monitor, online: bool, hasJiraSite: bool, formatMinute: int -> string): (r: Option<string>)
    ensures r.None? <==> m.project.None? || !online || !hasJiraSite
    ensures r.Some? ==> StartsWith(r.value, "project = " + m.project.value.id + " AND created > \"")
    ensures r.Some? ==> EndsWith(r.value, formatMinute(m.timestamp) + "\"")
    ensures r.Some? ==> |r.value| == |"project = "| + |m.project.value.id| + |" AND created > \""|
                                     + |formatMinute(m.timestamp)| + 1
  {
    if m.project.None? || !online || !hasJiraSite then None
    else
      var prefix := "project = " + m.project.value.id + " AND created > \"";
      var q := prefix + formatMinute(m.timestamp) + "\"";
      assert q[..|prefix|] == prefix;
      assert q[|q| - |formatMinute(m.timestamp) + "\""|..] == formatMinute(m.timestamp) + "\"";
      Some(q)
  }

  /** Right after a project is chosen, an online check with a Jira site
      searches that project from the minute of the choice. */
  lemma SetProjectThenQuery(m: Monitor, p: Project, now: int, formatMinute: int -> string)
    ensures var q := CheckQuery(SetProject(m, p, now), true, true, formatMinute);
            && q.Some?
            && StartsWith(q.value, "project = " + p.id + " AND created > \"")
            && EndsWith(q.value, formatMinute(now) + "\"")
  {
  }

  /** The issues created strictly after `ts`, in their order. */
  function NewerThan(issues: seq<Issue>, ts: int): (r: seq<Issue>)
    ensures forall i :: 0 <= i < |r| ==> r[i].created > ts && r[i] in issues
    ensures forall x :: x in issues && x.created > ts ==> x in r
    ensures |r| <= |issues|
  {
    if issues == [] then []
    else if issues[0].created > ts then [issues[0]] + NewerThan(issues[1..], ts)
    else NewerThan(issues[1..], ts)
  }

  /** The timestamp after walking the issues and taking each later creation
      time. */
  function Advance(ts: int, issues: seq<Issue>): (r: int)
    ensures r >= ts
    ensures forall i :: 0 <= i < |issues| ==> issues[i].created <= r
    ensures r == ts || exists i | 0 <= i < |issues| :: r == issues[i].created
    decreases |issues|
  {
    if issues == [] then ts
    else
      var next := if issues[0].created > ts then issues[0].created else ts;
      var r := Advance(next, issues[1..]);
      assert forall i :: 1 <= i < |issues| ==> issues[i] == issues[1..][i - 1];
      r
  }

  /** `[KEY] "summary"` */
  function IssueName(i: Issue): (s: string)
    ensures StartsWith(s, "[" + i.key + "]")
    ensures EndsWith(s, " \"" + i.summary + "\"")
    ensures |s| == |i.key| + |i.summary| + 5
  {
    var s := "[" + i.key + "] \"" + i.summary + "\"";
    assert s[..|"[" + i.key + "]"|] == "[" + i.key + "]";
    assert s[|s| - |" \"" + i.summary + "\""|..] == " \"" + i.summary + "\"";
    s
  }

  function IssueNames(issues: seq<Issue>): (r: seq<string>)
    ensures |r| == |issues| && forall i :: 0 <= i < |issues| ==> r[i] == IssueName(issues[i])
  {
    seq(|issues|, i requires 0 <= i < |issues| => IssueName(issues[i]))
  }

  /** The notification text for a non-empty list of new issues. */
  function Message(issues: seq<Issue>, projectName: string): (s: string)
    requires |issues| > 0
    ensures var names := IssueNames(issues);
            var n := |issues|;
            && (n == 1 ==> s == names[0] + " added to " + projectName)
            && (2 <= n <= 3 ==> s == Join(names[..n - 1], ", ") + " and " + names[n - 1] + " added to " + projectName)
            && (n > 3 ==> s == Join(names[..2], ", ") + " and " + NatToString(n - 2) + " other new issues added to "
                               + projectName + ".")
  {
    var names := IssueNames(issues);
    var n := |issues|;
    if n == 1 then names[0] + " added to " + projectName
    else if n <= 3 then Join(names[..n - 1], ", ") + " and " + names[n - 1] + " added to " + projectName
    else Join(names[..2], ", ") + " and " + NatToString(n - 2) + " other new issues added to " + projectName + "."
  }

  /** Every message names the first new issue first. */
  lemma MessageStartsWithFirstIssue(issues: seq<Issue>, projectName: string)
    requires |issues| > 0
    ensures StartsWith(Message(issues, projectName), IssueName(issues[0]))
  {
    var names := IssueNames(issues);
    var n := |issues|;
    var s := Message(issues, projectName);
    var k := if n == 1 then 1 else if n <= 3 then n - 1 else 2;
    var head := Join(names[..k], ", ");
    JoinStartsWithFirst(names[..k], ", ");
    StartsWithExtend(head, s[|head|..], names[0]);
    assert s == head + s[|head|..];
  }

  /** The message names every new issue when there are at most three, and
      otherwise names the first two and counts the other `n - 2`. */
  lemma MessageNamesIssues(issues: seq<Issue>, projectName: string)
    requires |issues| > 0
    ensures var s := Message(issues, projectName);
            && (|issues| <= 3 ==> forall i :: 0 <= i < |issues| ==> Contains(s, IssueName(issues[i])))
            && (|issues| > 3 ==> && Contains(s, IssueName(issues[0])) && Contains(s, IssueName(issues[1]))
                                 && Contains(s, " and " + NatToString(|issues| - 2) + " other new issues"))
  {
    if |issues| <= 3 {
      MessageNamesFew(issues, projectName);
    } else {
      MessageNamesMany(issues, projectName);
    }
  }

  lemma MessageNamesFew(issues: seq<Issue>, projectName: string)
    requires 1 <= |issues| <= 3
    ensures forall i :: 0 <= i < |issues| ==> Contains(Message(issues, projectName), IssueName(issues[i]))
  {
    var names := IssueNames(issues);
    var n := |issues|;
    var s := Message(issues, projectName);
    if n == 1 {
      assert s == names[0] + " added to " + projectName;
      NamesOne(names[0], projectName);
    } else if n == 2 {
      assert names[..1] == [names[0]];
      assert s == names[0] + " and " + names[1] + " added to " + projectName;
      NamesTwo(names[0], names[1], projectName);
    } else {
      assert names[..2] == [names[0], names[1]];
      JoinTwo(names[0], names[1], ", ");
      assert s == names[0] + ", " + names[1] + " and " + names[2] + " added to " + projectName;
      NamesThree(names[0], names[1], names[2], projectName);
    }
    forall i | 0 <= i < n
      ensures Contains(s, IssueName(issues[i]))
    {
      assert names[i] == IssueName(issues[i]);
    }
  }

  lemma MessageNamesMany(issues: seq<Issue>, projectName: string)
    requires |issues| > 3
    ensures var s := Message(issues, projectName);
            && Contains(s, IssueName(issues[0])) && Contains(s, IssueName(issues[1]))
            && Contains(s, " and " + NatToString(|issues| - 2) + " other new issues")
  {
    var names := IssueNames(issues);
    var n := |issues|;
    assert names[..2] == [names[0], names[1]];
    JoinTwo(names[0], names[1], ", ");
    assert Message(issues, projectName) == names[0] + ", " + names[1] + " and " + NatToString(n - 2)
                                           + " other new issues added to " + projectName + ".";
    NamesMany(names[0], names[1], NatToString(n - 2), projectName);
  }

  lemma NamesOne(x: string, project: string)
    ensures Contains(x + " added to " + project, x)
  {
    ContainsSelf(x);
    ContainsExtendRight(x, " added to ", x);
    ContainsExtendRight(x + " added to ", project, x);
  }

  lemma NamesTwo(x: string, y: string, project: string)
    ensures var s := x + " and " + y + " added to " + project;
            Contains(s, x) && Contains(s, y)
  {
    ContainsSelf(x);
    ContainsSelf(y);
    ContainsExtendRight(x, " and ", x);
    ContainsExtendRight(x + " and ", y, x);
    ContainsExtendLeft(x + " and ", y, y);
    ContainsExtendRight(x + " and " + y, " added to ", x);
    ContainsExtendRight(x + " and " + y, " added to ", y);
    ContainsExtendRight(x + " and " + y + " added to ", project, x);
    ContainsExtendRight(x + " and " + y + " added to ", project, y);
  }

  lemma NamesThree(x: string, y: string, z: string, project: string)
    ensures var s := x + ", " + y + " and " + z + " added to " + project;
            Contains(s, x) && Contains(s, y) && Contains(s, z)
  {
    NamesTwo(x + ", " + y, z, project);
    ContainsSelf(x);
    ContainsSelf(y);
    ContainsExtendRight(x, ", ", x);
    ContainsExtendRight(x + ", ", y, x);
    ContainsExtendLeft(x + ", ", y, y);
    var s := x + ", " + y + " and " + z + " added to " + project;
    var rest := " and " + z + " added to " + project;
    assert s == (x + ", " + y) + rest;
    ContainsExtendRight(x + ", " + y, rest, x);
    ContainsExtendRight(x + ", " + y, rest, y);
  }

  lemma NamesMany(x: string, y: string, count: string, project: string)
    ensures var s := x + ", " + y + " and " + count + " other new issues added to " + project + ".";
            Contains(s, x) && Contains(s, y) && Contains(s, " and " + count + " other new issues")
  {
    var s := x + ", " + y + " and " + count + " other new issues added to " + project + ".";
    var mid := " and " + count + " other new issues";
    var rest := " added to " + project + ".";
    assert s == (x + ", " + y) + mid + rest;
    ContainsSelf(x);
    ContainsSelf(y);
    ContainsSelf(mid);
    ContainsExtendRight(x, ", ", x);
    ContainsExtendRight(x + ", ", y, x);
    ContainsExtendLeft(x + ", ", y, y);
    ContainsExtendRight(x + ", " + y, mid, x);
    ContainsExtendRight(x + ", " + y, mid, y);
    ContainsExtendLeft(x + ", " + y, mid, mid);
    ContainsExtendRight(x + ", " + y + mid, rest, x);
    ContainsExtendRight(x + ", " + y + mid, rest, y);
    ContainsExtendRight(x + ", " + y + mid, rest, mid);
  }

  /** The outcome of the search's answer: the new issues announced and the
      monitor afterwards. The timestamp read is the monitor's at the time
      the answer arrives. */
  function OnIssues(m: Monitor, found: seq<Issue>): (r: (Monitor, Option<Notification>))
    requires m.project.Some?
    ensures var kept := NewerThan(found, m.timestamp);
            && (r.1.Some? <==> |kept| > 0)
            && (r.1.Some? ==> r.1.value.message == Message(kept, m.project.value.name))
            && (r.1.Some? ==> (r.1.value.onView == if |kept| == 1 then ShowIssue(kept[0].key) else OpenExplorer))
    ensures r.0.project == m.project
    ensures r.0.timestamp >= m.timestamp
    ensures forall x :: x in found ==> x.created <= r.0.timestamp
    ensures r.0.timestamp == m.timestamp || exists x | x in found :: x.created > m.timestamp && r.0.timestamp == x.created
  {
    var kept := NewerThan(found, m.timestamp);
    if |kept| == 0 then
      (m, None)
    else
      var ts := Advance(m.timestamp, kept);
      var view := if |kept| == 1 then ShowIssue(kept[0].key) else OpenExplorer;
      assert forall x :: x in found && x.created > m.timestamp ==> x.created <= ts by {
        forall x | x in found && x.created > m.timestamp ensures x.created <= ts {
          var i :| 0 <= i < |kept| && kept[i] == x;
        }
      }
      (m.(timestamp := ts), Some(Notification(Message(kept, m.project.value.name), view)))
  }

  /** Delivering the same answer twice announces nothing the second time:
      the timestamp has moved past every issue in it. */
  lemma SecondDeliveryIsSilent(m: Monitor, found: seq<Issue>)
    requires m.project.Some?
    ensures var m1 := OnIssues(m, found).0;
            OnIssues(m1, found).1.None? && OnIssues(m1, found).0 == m1
  {
  }
}

=== FILE: oauthdancer.dfy ===
/** The OAuth "dancer": the table of in-flight authorization sessions, the
    local callback listener's lifecycle and the handling of a provider's
    redirect callback, as an explicit state-transition system.

    State. `inFlight` maps a provider to the correlation token (`state`) of
    the cancelable promise stored for it. `listeners` maps every token ever
    issued to its session: response listeners are registered once per dance
    and never removed, so every session keeps reacting to callbacks for its
    whole life, settled or not. `server` is the local listener.

    Events. `DoDance`, `Response`, `ForceShutdown`; cancelling a session is a
    step of the first and the last. A callback is handled atomically: the
    results of the network calls it makes are an `Exchange` input.

    The code's quirks are modelled as written:
    - the idle test reads the arity of the `entries` method (always 0), so
      every idle check closes the listener;
    - a settled or cancelled session still reacts to a callback carrying its
      token, and deletes whatever entry the route's provider has;
    - the token match does not compare the route's provider with the
      session's provider;
    - the failure path never runs the idle check. */
module OAuthDancer {
  import opened Results
  import opened Strings
  import opened AuthInfo

  type Token = string

  /** A URL as a base plus the query pairs appended to it, in order. */
  datatype Url = Url(base: string, query: seq<(string, string)>)

  function QueryNames(q: seq<(string, string)>): (names: seq<string>)
    ensures |names| == |q|
    ensures forall i :: 0 <= i < |q| ==> names[i] == q[i].0
  {
    seq(|q|, i requires 0 <= i < |q| => q[i].0)
  }

  /** `URLSearchParams.get`: the value of the first pair with that name. */
  function QueryGet(q: seq<(string, string)>, name: string): (r: Option<string>)
    ensures r.None? <==> name !in QueryNames(q)
    ensures r.Some? ==> exists i :: 0 <= i < |q| && q[i] == (name, r.value)
  {
    if q == [] then None
    else if q[0].0 == name then Some(q[0].1)
    else
      var r := QueryGet(q[1..], name);
      assert QueryNames(q) == [q[0].0] + QueryNames(q[1..]);
      if r.Some? then
        var i :| 0 <= i < |q[1..]| && q[1..][i] == (name, r.value);
        assert q[i + 1] == (name, r.value);
        r
      else r
  }

  /** The browser URL that starts a dance (`getAuthorizeURL`). */
  function AuthorizeUrl(cfg: Strategies, p: Provider, state: Token): (u: Url)
    ensures u.base == StrategyFor(cfg, p).authorizationURL
    ensures IsJiraProvider(p) ==>
      QueryNames(u.query) == ["client_id", "redirect_uri", "response_type", "scope", "audience", "prompt", "state"]
    ensures !IsJiraProvider(p) ==> QueryNames(u.query) == ["client_id", "response_type", "state"]
    ensures u.query[|u.query| - 1] == ("state", state)
    ensures u.query[0] == ("client_id", StrategyFor(cfg, p).clientID)
  {
    var s := StrategyFor(cfg, p);
    if IsJiraProvider(p) then
      Url(s.authorizationURL,
          [("client_id", s.clientID), ("redirect_uri", s.callbackURL), ("response_type", "code"),
           ("scope", s.scope), ("audience", s.audience), ("prompt", s.prompt),
           ("state", state)])
    else
      Url(s.authorizationURL, [("client_id", s.clientID), ("response_type", "code"), ("state", state)])
  }

  /** The provider reads back from the authorize URL exactly the session's
      token as `state`, and is always asked for an authorization code. */
  lemma AuthorizeUrlCarriesToken(cfg: Strategies, p: Provider, state: Token)
    ensures QueryGet(AuthorizeUrl(cfg, p, state).query, "state") == Some(state)
    ensures QueryGet(AuthorizeUrl(cfg, p, state).query, "response_type") == Some("code")
  {
    var q := AuthorizeUrl(cfg, p, state).query;
    if IsJiraProvider(p) {
      QueryGetUnique(q, "state", 6);
      QueryGetUnique(q, "response_type", 2);
    } else {
      QueryGetUnique(q, "state", 2);
      QueryGetUnique(q, "response_type", 1);
    }
  }

  /** A name carried by exactly one pair reads back that pair's value. */
  lemma QueryGetUnique(q: seq<(string, string)>, name: string, k: nat)
    requires k < |q| && q[k].0 == name
    requires forall j :: 0 <= j < |q| && j != k ==> q[j].0 != name
    ensures QueryGet(q, name) == Some(q[k].1)
  {
    assert QueryNames(q)[k] == name;
    var r := QueryGet(q, name);
    var i :| 0 <= i < |q| && q[i] == (name, r.value);
  }

  // ---------------------------------------------------------------------
  // Token, resource and identity exchange
  // ---------------------------------------------------------------------

  datatype Tokens = Tokens(accessToken: string, refreshToken: string)

  /** The fields read from Jira's `myself` resource. */
  datatype JiraMyself = JiraMyself(accountId: string, displayName: string, emailAddress: string, avatar48: string)

  /** The fields read from Bitbucket's user profile. */
  datatype BitbucketProfile = BitbucketProfile(accountId: string, displayName: string, avatarHref: string)

  datatype EmailEntry = EmailEntry(email: string, isPrimary: bool)

  /** The `values` member of Bitbucket's email listing. */
  datatype EmailsPayload = NotAnArray | Values(entries: seq<EmailEntry>)

  /** What each network call of the exchange answers, were it made; an `Err`
      carries the text of the transport or response error. */
  datatype Exchange = Exchange(
    tokens: Result<Tokens, string>,
    resources: Result<seq<AccessibleResource>, string>,
    jiraUser: Result<JiraMyself, string>,
    bitbucketUser: Result<BitbucketProfile, string>,
    bitbucketEmails: Result<EmailsPayload, string>)

  datatype ExchangeError =
    | JiraTokensFailed(cause: string)
    | JiraResourcesFailed(cause: string)
    | NoAccessibleResources(provider: Provider)
    | JiraUserFailed(cause: string)
    | BitbucketTokensFailed(cause: string)
    | BitbucketUserFailed(cause: string)

  const DefaultEmail := "do-not-reply@atlassian.com"

  /** The email of the first entry flagged primary, if any. */
  function FirstPrimary(es: seq<EmailEntry>): (r: Option<string>)
    ensures r.None? <==> forall i :: 0 <= i < |es| ==> !es[i].isPrimary
    ensures r.Some? ==> exists i :: 0 <= i < |es| && es[i].isPrimary && es[i].email == r.value
                                   && forall j :: 0 <= j < i ==> !es[j].isPrimary
  {
    if es == [] then None
    else if es[0].isPrimary then Some(es[0].email)
    else
      var r := FirstPrimary(es[1..]);
      if r.Some? then
        var i :| 0 <= i < |es[1..]| && es[1..][i].isPrimary && es[1..][i].email == r.value
                 && forall j :: 0 <= j < i ==> !es[1..][j].isPrimary;
        assert es[i + 1].isPrimary && forall j :: 0 <= j < i + 1 ==> !es[j].isPrimary by {
          forall j | 0 <= j < i + 1 ensures !es[j].isPrimary {
            if j > 0 { assert es[j] == es[1..][j - 1]; }
          }
        }
        r
      else
        assert forall i :: 1 <= i < |es| ==> es[i] == es[1..][i - 1];
        r
  }

  /** The email chosen for a Bitbucket user: the first primary entry when the
      listing is a non-empty array that has one, else the placeholder; a
      failed listing falls back to the placeholder too. */
  function BitbucketEmail(emails: Result<EmailsPayload, string>): (r: string)
    ensures (emails.Ok? && emails.value.Values? && FirstPrimary(emails.value.entries).Some?)
            ==> r == FirstPrimary(emails.value.entries).value
    ensures emails.Err? || emails.value.NotAnArray? ==> r == DefaultEmail
    ensures emails.Ok? && emails.value.Values? && (forall i :: 0 <= i < |emails.value.entries| ==> !emails.value.entries[i].isPrimary)
            ==> r == DefaultEmail
  {
    match emails
    case Err(_) => DefaultEmail
    case Ok(NotAnArray) => DefaultEmail
    case Ok(Values(es)) =>
      if |es| > 0 then
        match FirstPrimary(es)
        case Some(e) => e
        case None => DefaultEmail
      else DefaultEmail
  }

  /** `getBitbucketUser` */
  function BitbucketUser(ex: Exchange): (r: Result<UserInfo, ExchangeError>)
    ensures r.Ok? <==> ex.bitbucketUser.Ok?
    ensures r.Ok? ==> (r.value.id == ex.bitbucketUser.value.accountId
                       && r.value.email == BitbucketEmail(ex.bitbucketEmails))
  {
    match ex.bitbucketUser
    case Err(e) => Err(BitbucketUserFailed(e))
    case Ok(prof) => Ok(UserInfo(prof.accountId, prof.displayName, BitbucketEmail(ex.bitbucketEmails), prof.avatarHref))
  }

  /** The one resource synthesized for Bitbucket, chosen by the session's
      provider (the only thing compared is equality with the production
      Bitbucket provider). */
  function BitbucketResource(sessionProvider: Provider): (r: AccessibleResource)
    ensures r.scopes == [] && r.avatarUrl == "" && r.name == ProductBitbucket.name
    ensures sessionProvider == BitbucketCloud ==> r.id == ProviderId(BitbucketCloud) && r.url == "https://bitbucket.org"
    ensures sessionProvider != BitbucketCloud ==> r.id == ProviderId(BitbucketCloudStaging) && r.url == "https://bb-inf.net"
  {
    if sessionProvider == BitbucketCloud then
      AccessibleResource(ProviderId(BitbucketCloud), ProductBitbucket.name, [], "", "https://bitbucket.org")
    else
      AccessibleResource(ProviderId(BitbucketCloudStaging), ProductBitbucket.name, [], "", "https://bb-inf.net")
  }

  /** The exchange chain run by a session's listener for a matched callback
      on `route`. The product comes from the route; the error text and the
      Bitbucket resource come from the session's own provider. */
  function RunExchange(route: Provider, sessionProvider: Provider, ex: Exchange): (r: Result<OAuthResponse, ExchangeError>)
    ensures r.Ok? ==> (ex.tokens.Ok? && r.value.access == ex.tokens.value.accessToken
                       && r.value.refresh == ex.tokens.value.refreshToken)
    ensures r.Ok? && IsJiraProvider(route) ==>
      ex.resources.Ok? && |ex.resources.value| > 0 && r.value.accessibleResources == ex.resources.value
      && ex.jiraUser.Ok? && r.value.user.id == ex.jiraUser.value.accountId
    ensures IsJiraProvider(route) && ex.tokens.Ok? && ex.resources == Ok([]) ==>
      r == Err(NoAccessibleResources(sessionProvider))
    ensures !IsJiraProvider(route) ==>
      (r.Ok? <==> ex.tokens.Ok? && ex.bitbucketUser.Ok?)
    ensures r.Ok? && !IsJiraProvider(route) ==>
      r.value.accessibleResources == [BitbucketResource(sessionProvider)]
      && r.value.user == BitbucketUser(ex).value
  {
    ProviderIdClassifies(route);
    if ProductForProviderId(ProviderId(route)) == ProductJira then
      match ex.tokens
      case Err(e) => Err(JiraTokensFailed(e))
      case Ok(tokens) =>
        match ex.resources
        case Err(e) => Err(JiraResourcesFailed(e))
        case Ok(resources) =>
          if |resources| > 0 then
            match ex.jiraUser
            case Err(e) => Err(JiraUserFailed(e))
            case Ok(me) =>
              Ok(OAuthResponse(tokens.accessToken, tokens.refreshToken,
                               UserInfo(me.accountId, me.displayName, me.emailAddress, me.avatar48), resources))
          else Err(NoAccessibleResources(sessionProvider))
    else
      var resources := [BitbucketResource(sessionProvider)];
      match ex.tokens
      case Err(e) => Err(BitbucketTokensFailed(e))
      case Ok(tokens) =>
        match BitbucketUser(ex)
        case Err(e) => Err(e)
        case Ok(user) => Ok(OAuthResponse(tokens.accessToken, tokens.refreshToken, user, resources))
  }

  // ---------------------------------------------------------------------
  // Session table
  // ---------------------------------------------------------------------

  /** The local listener: absent, listening, or created but failed to bind
      (the server object is kept, so later dances do not try to bind again). */
  datatype Server = NoServer | Listening | Unbound

  datatype CancelReason = Superseded(provider: Provider) | Shutdown

  /** `Error authenticating with ${provider}: ${err}` */
  datatype AuthFailure = AuthFailure(provider: Provider, error: ExchangeError)

  datatype Status =
    | Pending
    | Resolved(response: OAuthResponse)
    | Rejected(failure: AuthFailure)
    | Cancelled(reason: CancelReason)

  datatype Session = Session(provider: Provider, status: Status)

  datatype Dancer = Dancer(
    inFlight: map<Provider, Token>,
    listeners: map<Token, Session>,
    server: Server,
    shutdownTimer: bool)

  const Initial := Dancer(map[], map[], NoServer, false)

  /** Every table entry names a registered session of that same provider, and
      every token is non-empty (a uuid). */
  predicate Valid(d: Dancer)
  {
    && (forall p | p in d.inFlight :: d.inFlight[p] in d.listeners && d.listeners[d.inFlight[p]].provider == p)
    && "" !in d.listeners
  }

  lemma InitialValid()
    ensures Valid(Initial)
  {
  }

  /** `this._authsInFlight.entries.length`: `entries` is a method, and the
      `length` of a function is its declared arity. */
  const EntriesArity := 0

  /** `maybeShutdown`. The idle test compares the arity above with 1, so it
      passes whatever the table holds. */
  function MaybeShutdown(d: Dancer): (r: Dancer)
    ensures r.inFlight == d.inFlight && r.listeners == d.listeners
    ensures r.server == NoServer && !r.shutdownTimer
  {
    if EntriesArity < 1 then d.(server := NoServer, shutdownTimer := false) else d
  }

  /** Settles session `t` with `st` if it is still pending; a settled or
      cancelled promise ignores later resolve/reject calls. */
  function Settle(d: Dancer, t: Token, st: Status): (r: Dancer)
    requires t in d.listeners
    ensures r.inFlight == d.inFlight && r.server == d.server && r.shutdownTimer == d.shutdownTimer
    ensures r.listeners.Keys == d.listeners.Keys
    ensures forall u | u in d.listeners && u != t :: r.listeners[u] == d.listeners[u]
    ensures r.listeners[t].provider == d.listeners[t].provider
    ensures r.listeners[t].status == (if d.listeners[t].status.Pending? then st else d.listeners[t].status)
  {
    var s := d.listeners[t];
    if s.status.Pending? then d.(listeners := d.listeners[t := s.(status := st)]) else d
  }

  /** `promise.cancel(reason)`: on a pending session this runs its cancel
      handler (delete its provider's entry, idle check) and marks it
      cancelled; on anything else it does nothing. */
  function Cancel(d: Dancer, t: Token, reason: CancelReason): (r: Dancer)
    ensures r.listeners.Keys == d.listeners.Keys
    ensures forall u | u in d.listeners && u != t :: r.listeners[u] == d.listeners[u]
    ensures t in d.listeners && d.listeners[t].status.Pending? ==>
      && r.listeners[t] == Session(d.listeners[t].provider, Cancelled(reason))
      && r.inFlight == d.inFlight - {d.listeners[t].provider}
      && r.server == NoServer && !r.shutdownTimer
    ensures !(t in d.listeners && d.listeners[t].status.Pending?) ==> r == d
  {
    if t in d.listeners && d.listeners[t].status.Pending? then
      var s := d.listeners[t];
      Settle(MaybeShutdown(d.(inFlight := d.inFlight - {s.provider})), t, Cancelled(reason))
    else d
  }

  /** How `doDance` went on after registering its session: the browser was
      opened at the authorize URL, or the bind failed and `doDance` hangs.
      The promisified `listen` hands its callback to the server as the
      'listening' handler; a bind error is emitted as an 'error' event that
      never reaches it, so the awaited promise never settles, the catch that
      would reject the caller never runs, the browser is not opened and the
      session stays pending until it is superseded or shut down. */
  datatype DanceStart = BrowserOpened(url: Url) | ListenHangs

  /** First step of `doDance(p)`: an entry already in flight for `p` is
      cancelled (superseded) and removed from the table. */
  function Supersede(d: Dancer, p: Provider): (r: Dancer)
    ensures Valid(d) ==> Valid(r) && r.inFlight == d.inFlight - {p}
    ensures r.listeners.Keys == d.listeners.Keys
    ensures p in d.inFlight && d.inFlight[p] in d.listeners && d.listeners[d.inFlight[p]].status.Pending? ==>
      r.listeners[d.inFlight[p]] == d.listeners[d.inFlight[p]].(status := Cancelled(Superseded(p)))
      && r.server == NoServer
    ensures forall u | u in d.listeners && (p !in d.inFlight || u != d.inFlight[p]) :: r.listeners[u] == d.listeners[u]
    ensures r.server == d.server || r.server == NoServer
  {
    if p in d.inFlight then
      var c := Cancel(d, d.inFlight[p], Superseded(p));
      c.(inFlight := c.inFlight - {p})
    else d
  }

  /** Last step of `doDance`: bind the listener when there is no server
      (`listenOk` says whether the bind succeeds) and open the browser; a
      failed bind leaves the server object unbound and the dance hanging. */
  function StartListener(d: Dancer, url: Url, listenOk: bool): (r: (Dancer, DanceStart))
    ensures r.0.inFlight == d.inFlight && r.0.listeners == d.listeners
    ensures r.1.BrowserOpened? ==> r.1.url == url && r.0.server != NoServer
    ensures r.1.ListenHangs? ==> !listenOk && d.server == NoServer && r.0.server == Unbound
    ensures d.server.NoServer? && listenOk ==> r.0.server == Listening && r.0.shutdownTimer
    ensures !d.server.NoServer? ==> r.0 == d
    ensures listenOk ==> r.1.BrowserOpened?
  {
    if d.server.NoServer? then
      if listenOk then (d.(server := Listening, shutdownTimer := true), BrowserOpened(url))
      else (d.(server := Unbound), ListenHangs)
    else (d, BrowserOpened(url))
  }

  /** `doDance(p)` with `token` the fresh uuid and `listenOk` whether binding
      the listener's port succeeds (asked only when there is no server). */
  function DoDance(d: Dancer, cfg: Strategies, p: Provider, token: Token, listenOk: bool): (r: (Dancer, DanceStart))
    requires token != "" && token !in d.listeners
    ensures Valid(d) ==> Valid(r.0)
    ensures Valid(d) ==> r.0.inFlight == d.inFlight[p := token]
    ensures r.0.listeners.Keys == d.listeners.Keys + {token}
    ensures r.0.listeners[token] == Session(p, Pending)
    ensures p in d.inFlight && d.inFlight[p] in d.listeners && d.listeners[d.inFlight[p]].status.Pending? ==>
      r.0.listeners[d.inFlight[p]] == d.listeners[d.inFlight[p]].(status := Cancelled(Superseded(p)))
    ensures forall u | u in d.listeners && (p !in d.inFlight || u != d.inFlight[p]) :: r.0.listeners[u] == d.listeners[u]
    ensures r.1.BrowserOpened? ==> r.1.url == AuthorizeUrl(cfg, p, token) && r.0.server != NoServer
    ensures r.1.ListenHangs? ==> !listenOk && r.0.server == Unbound
    ensures listenOk ==> r.1.BrowserOpened?
  {
    var d1 := Supersede(d, p);
    var d2 := d1.(listeners := d1.listeners[token := Session(p, Pending)], inFlight := d1.inFlight[p := token]);
    assert Valid(d) ==> Valid(d2);
    assert d2.listeners.Keys == d.listeners.Keys + {token};
    RemoveThenSet(d.inFlight, p, token);
    StartListener(d2, AuthorizeUrl(cfg, p, token), listenOk)
  }

  lemma RemoveThenSet<K, V>(m: map<K, V>, k: K, v: V)
    ensures (m - {k})[k := v] == m[k := v]
  {
  }

  /** A callback is taken up by a listener when it has a code and a state and
      the state is the token of some registered session. */
  predicate Matches(d: Dancer, code: Option<string>, state: Option<string>)
  {
    Truthy(code) && Truthy(state) && state.value in d.listeners
  }

  /** A redirect callback on the route of `route` with query `code`/`state`;
      `ex` is what the exchange's network calls answer. */
  function Response(d: Dancer, route: Provider, code: Option<string>, state: Option<string>, ex: Exchange): (r: Dancer)
    ensures !Matches(d, code, state) ==> r == d
    ensures Matches(d, code, state) ==>
      && r.inFlight == d.inFlight - {route}
      && r.listeners.Keys == d.listeners.Keys
      && (forall u | u in d.listeners && u != state.value :: r.listeners[u] == d.listeners[u])
      && r.listeners[state.value].provider == d.listeners[state.value].provider
    ensures Matches(d, code, state) && d.listeners[state.value].status.Pending? ==>
      match RunExchange(route, d.listeners[state.value].provider, ex)
      case Ok(resp) => r.listeners[state.value].status == Resolved(resp)
      case Err(e) => r.listeners[state.value].status == Rejected(AuthFailure(d.listeners[state.value].provider, e))
    ensures Matches(d, code, state) && !d.listeners[state.value].status.Pending? ==>
      r.listeners == d.listeners
    ensures Matches(d, code, state) && RunExchange(route, d.listeners[state.value].provider, ex).Ok? ==>
      r.server == NoServer && !r.shutdownTimer
    ensures !Matches(d, code, state) || RunExchange(route, d.listeners[state.value].provider, ex).Err? ==>
      r.server == d.server && r.shutdownTimer == d.shutdownTimer
    ensures Valid(d) ==> Valid(r)
  {
    if Matches(d, code, state) then
      var t := state.value;
      var s := d.listeners[t];
      match RunExchange(route, s.provider, ex)
      case Ok(resp) => Settle(MaybeShutdown(d.(inFlight := d.inFlight - {route})), t, Resolved(resp))
      case Err(e) => Settle(d.(inFlight := d.inFlight - {route}), t, Rejected(AuthFailure(s.provider, e)))
    else d
  }
}

module OAuthDancerShutdown {
  import opened Results
  import opened AuthInfo
  import opened OAuthDancer

  /** The providers `forceShutdownAll` can find in the table. The order of
      the walk does not matter: each cancellation touches only its own entry. */
  const AllProviders: seq<Provider> := [BitbucketCloud, BitbucketCloudStaging, JiraCloud, JiraCloudStaging]

  lemma AllProvidersListed()
    ensures forall q: Provider :: q in AllProviders
  {
    forall q: Provider ensures q in AllProviders {
      match q
      case BitbucketCloud => assert AllProviders[0] == q;
      case BitbucketCloudStaging => assert AllProviders[1] == q;
      case JiraCloud => assert AllProviders[2] == q;
      case JiraCloudStaging => assert AllProviders[3] == q;
    }
  }

  /** Session `t` is pending and is the table's entry for its provider. */
  predicate Live(d: Dancer, t: Token)
  {
    && t in d.listeners
    && d.listeners[t].status.Pending?
    && d.listeners[t].provider in d.inFlight
    && d.inFlight[d.listeners[t].provider] == t
  }

  /** Cancels (reason `Shutdown`) the table entry of provider `p`, if any. */
  function CancelProvider(d: Dancer, p: Provider): (r: Dancer)
    requires Valid(d)
    ensures Valid(r)
    ensures r.listeners.Keys == d.listeners.Keys
    ensures forall t | t in d.listeners ::
      r.listeners[t] == (if Live(d, t) && d.listeners[t].provider == p
                         then Session(p, Cancelled(Shutdown))
                         else d.listeners[t])
    ensures forall t | t in d.listeners && d.listeners[t].provider == p :: !Live(r, t)
    ensures forall t | t in d.listeners && d.listeners[t].provider != p :: Live(r, t) == Live(d, t)
    ensures forall q | q != p :: (q in r.inFlight <==> q in d.inFlight)
    ensures forall q | q != p && q in d.inFlight :: r.inFlight[q] == d.inFlight[q]
  {
    if p in d.inFlight then Cancel(d, d.inFlight[p], Shutdown) else d
  }

  /** Cancels (reason `Shutdown`) the table entry of each provider in `ps`. */
  function CancelEach(d: Dancer, ps: seq<Provider>): (r: Dancer)
    requires Valid(d)
    requires forall i, j :: 0 <= i < j < |ps| ==> ps[i] != ps[j]
    ensures Valid(r)
    ensures r.listeners.Keys == d.listeners.Keys
    ensures forall t | t in d.listeners ::
      r.listeners[t] == (if Live(d, t) && d.listeners[t].provider in ps
                         then Session(d.listeners[t].provider, Cancelled(Shutdown))
                         else d.listeners[t])
    ensures forall p | p !in ps :: (p in r.inFlight <==> p in d.inFlight)
    ensures forall p | p !in ps && p in d.inFlight :: r.inFlight[p] == d.inFlight[p]
    decreases |ps|
  {
    if ps == [] then d
    else
      var p := ps[0];
      var d1 := CancelProvider(d, p);
      assert p !in ps[1..];
      var r := CancelEach(d1, ps[1..]);
      CancelEachStep(d, ps, d1, r);
      r
  }

  /** The recursive step of `CancelEach`: cancelling the head provider, then
      the rest, cancels the live entries of every listed provider. */
  lemma CancelEachStep(d: Dancer, ps: seq<Provider>, d1: Dancer, r: Dancer)
    requires Valid(d) && ps != [] && ps[0] !in ps[1..]
    requires d1 == CancelProvider(d, ps[0])
    requires r.listeners.Keys == d1.listeners.Keys
    requires forall t | t in d1.listeners ::
      r.listeners[t] == (if Live(d1, t) && d1.listeners[t].provider in ps[1..]
                         then Session(d1.listeners[t].provider, Cancelled(Shutdown))
                         else d1.listeners[t])
    ensures forall t | t in d.listeners ::
      r.listeners[t] == (if Live(d, t) && d.listeners[t].provider in ps
                         then Session(d.listeners[t].provider, Cancelled(Shutdown))
                         else d.listeners[t])
  {
    var p := ps[0];
    var rest := ps[1..];
    assert forall q :: q in ps <==> q == p || q in rest;
    forall t | t in d.listeners
      ensures r.listeners[t] == (if Live(d, t) && d.listeners[t].provider in ps
                                 then Session(d.listeners[t].provider, Cancelled(Shutdown))
                                 else d.listeners[t])
    {
      if d.listeners[t].provider != p {
        assert d1.listeners[t] == d.listeners[t];
      }
    }
  }

  /** `forceShutdownAll`: cancel every table entry, clear the table, stop the
      idle timer and close the listener. */
  function ForceShutdown(d: Dancer): (r: Dancer)
    requires Valid(d)
    ensures Valid(r)
    ensures r.inFlight == map[] && r.server == NoServer && !r.shutdownTimer
    ensures r.listeners.Keys == d.listeners.Keys
    ensures forall t | t in d.listeners && Live(d, t) ::
      r.listeners[t] == Session(d.listeners[t].provider, Cancelled(Shutdown))
    ensures forall t | t in d.listeners && !Live(d, t) :: r.listeners[t] == d.listeners[t]
  {
    var c := CancelEach(d, AllProviders);
    AllProvidersListed();
    c.(inFlight := map[], server := NoServer, shutdownTimer := false)
  }
}

=== FILE: oauthrefresher.dfy ===
/** Construction of the refresh-token request: the provider string selects
    the product family and the strategy, and each family has its own body
    and authentication. The HTTP call itself is left out; its answer is an
    input. */
module OAuthRefresher {
  import opened Results
  import opened Strings
  import opened AuthInfo

  /** The request body: a JSON object (its fields in order) or a form string. */
  datatype Body = JsonBody(fields: seq<(string, string)>) | FormBody(text: string)

  /** `Authorization` header: none, or Basic over the `user:password` text
      (its Base64 encoding is left out). */
  datatype Authorization = NoAuthorization | Basic(credentials: string)

  datatype Request = Request(url: string, contentType: string, authorization: Authorization, body: Body)

  /** The fields of a token answer the refresher reads. */
  datatype TokenData = TokenData(accessToken: Option<string>)

  /** The strategy `getNewAccessToken` selects for a provider string. */
  function RefreshStrategy(cfg: Strategies, providerId: string): (s: Strategy)
    ensures StartsWith(providerId, "jira") && EndsWith(providerId, "staging") ==> s == cfg.jiraStaging
    ensures StartsWith(providerId, "jira") && !EndsWith(providerId, "staging") ==> s == cfg.jiraProd
    ensures !StartsWith(providerId, "jira") && EndsWith(providerId, "staging") ==> s == cfg.bitbucketStaging
    ensures !StartsWith(providerId, "jira") && !EndsWith(providerId, "staging") ==> s == cfg.bitbucketProd
  {
    var product := ProductForProviderId(providerId);
    if product == ProductJira then
      if EndsWith(providerId, "staging") then cfg.jiraStaging else cfg.jiraProd
    else
      if EndsWith(providerId, "staging") then cfg.bitbucketStaging else cfg.bitbucketProd
  }

  /** For every provider, the refresher picks the strategy the dance used for
      that provider. */
  lemma RefreshUsesProviderStrategy(cfg: Strategies, p: Provider)
    ensures RefreshStrategy(cfg, ProviderId(p)) == StrategyFor(cfg, p)
  {
    ProviderIdClassifies(p);
  }

  const FormPrefix := "grant_type=refresh_token&refresh_token="

  /** The request `getNewAccessToken` posts. */
  function RefreshRequest(cfg: Strategies, providerId: string, refreshToken: string): (r: Request)
    ensures r.url == RefreshStrategy(cfg, providerId).tokenURL
    ensures r.body.JsonBody? <==> StartsWith(providerId, "jira")
    ensures r.body.JsonBody? ==>
      var s := RefreshStrategy(cfg, providerId);
      && r.contentType == "application/json" && r.authorization == NoAuthorization
      && r.body.fields == [("grant_type", "refresh_token"), ("client_id", s.clientID), ("client_secret", s.clientSecret),
                           ("refresh_token", refreshToken), ("redirect_uri", s.callbackURL)]
    ensures r.body.FormBody? ==>
      var s := RefreshStrategy(cfg, providerId);
      && r.contentType == "application/x-www-form-urlencoded"
      && r.authorization == Basic(s.clientID + ":" + s.clientSecret)
      && StartsWith(r.body.text, FormPrefix) && r.body.text[|FormPrefix|..] == refreshToken
  {
    var strategy := RefreshStrategy(cfg, providerId);
    if ProductForProviderId(providerId) == ProductJira then
      Request(strategy.tokenURL, "application/json", NoAuthorization,
              JsonBody([("grant_type", "refresh_token"), ("client_id", strategy.clientID),
                        ("client_secret", strategy.clientSecret), ("refresh_token", refreshToken),
                        ("redirect_uri", strategy.callbackURL)]))
    else
      var text := FormPrefix + refreshToken;
      assert text[..|FormPrefix|] == FormPrefix;
      Request(strategy.tokenURL, "application/x-www-form-urlencoded", Basic(strategy.clientID + ":" + strategy.clientSecret),
              FormBody(text))
  }

  /** The value of the first JSON field with the given name. */
  function JsonField(fields: seq<(string, string)>, name: string): (r: Option<string>)
    ensures r.Some? ==> (name, r.value) in fields
    ensures r.None? <==> forall i :: 0 <= i < |fields| ==> fields[i].0 != name
  {
    if fields == [] then None
    else if fields[0].0 == name then Some(fields[0].1)
    else
      assert forall i :: 1 <= i < |fields| ==> fields[i] == fields[1..][i - 1];
      JsonField(fields[1..], name)
  }

  /** How a form value is decoded: `+` stands for a space. Percent escapes
      are not decoded here; the reading lemmas exclude `%`. */
  function FormDecode(s: string): (r: string)
    ensures |r| == |s|
    ensures forall j :: 0 <= j < |s| ==> r[j] == if s[j] == '+' then ' ' else s[j]
  {
    seq(|s|, j requires 0 <= j < |s| => if s[j] == '+' then ' ' else s[j])
  }

  /** The value a form pair gives for `name`: the text after its first `=`
      (empty when it has none), provided the text before it is `name`. */
  function FormPairValue(pair: string, name: string): (r: Option<string>)
    ensures r.Some? ==> var i := IndexOf(pair, '=');
                        FormDecode(if i < 0 then pair else pair[..i]) == name
  {
    var i := IndexOf(pair, '=');
    var key := if i < 0 then pair else pair[..i];
    var value := if i < 0 then "" else pair[i + 1..];
    if FormDecode(key) == name then Some(FormDecode(value)) else None
  }

  /** The first pair that gives a value for `name`. */
  function FormFieldIn(pairs: seq<string>, name: string): (r: Option<string>)
    ensures r.None? <==> forall k :: 0 <= k < |pairs| ==> FormPairValue(pairs[k], name).None?
    ensures r.Some? ==> exists k :: 0 <= k < |pairs| && FormPairValue(pairs[k], name) == r
  {
    if pairs == [] then None
    else if FormPairValue(pairs[0], name).Some? then FormPairValue(pairs[0], name)
    else
      assert forall k :: 1 <= k < |pairs| ==> pairs[k] == pairs[1..][k - 1];
      FormFieldIn(pairs[1..], name)
  }

  /** What a server reading an `application/x-www-form-urlencoded` body
      takes as the value of `name`: the body is cut at every `&`. */
  function FormField(body: string, name: string): (r: Option<string>)
    ensures r.Some? ==> exists k :: 0 <= k < |Split(body, '&')| && FormPairValue(Split(body, '&')[k], name) == r
  {
    FormFieldIn(Split(body, '&'), name)
  }

  /** A token that form encoding leaves unchanged: no `&`, `+` or `%`. */
  predicate FormSafe(t: string)
  {
    Lacks(t, '&') && Lacks(t, '+') && Lacks(t, '%')
  }

  /** A pair `key=value` whose key holds no `=` gives its decoded value for
      the decoded key and nothing for any other name. */
  lemma PairReadsBack(key: string, value: string, name: string)
    requires Lacks(key, '=')
    ensures FormPairValue(key + "=" + value, name)
            == if FormDecode(key) == name then Some(FormDecode(value)) else None
  {
    IndexOfAfter(key, '=', value);
    var pair := key + "=" + value;
    assert pair[..|key|] == key;
    assert pair[|key| + 1..] == value;
  }

  /** Decoding leaves text without `+` as it is. */
  lemma DecodePlain(s: string)
    requires Lacks(s, '+')
    ensures FormDecode(s) == s
  {
  }

  /** Reading a field from a body that starts with a pair `key=value`: that
      pair answers for its own key, and the rest of the body for any other. */
  lemma FieldAfterPair(key: string, value: string, rest: string, name: string)
    requires Lacks(key, '=') && Lacks(key + "=" + value, '&')
    ensures FormField(key + "=" + value + "&" + rest, name)
            == if FormDecode(key) == name then Some(FormDecode(value)) else FormField(rest, name)
  {
    var pair := key + "=" + value;
    assert pair + "&" + rest == key + "=" + value + "&" + rest;
    SplitAfter(pair, '&', rest);
    PairReadsBack(key, value, name);
    var ps := [pair] + Split(rest, '&');
    assert ps[1..] == Split(rest, '&');
  }

  /** A body that is one pair answers for that pair's key alone. */
  lemma FieldOfLastPair(pair: string, name: string)
    requires Lacks(pair, '&')
    ensures FormField(pair, name) == FormPairValue(pair, name)
  {
    SplitLacking(pair, '&');
  }

  /** Both fields read back from the form body the code writes, whatever the
      value, as long as it holds no `&`. */
  lemma FormFieldsOfPairs(value: string)
    requires Lacks(value, '&')
    ensures FormField(FormPrefix + value, "refresh_token") == Some(FormDecode(value))
    ensures FormField(FormPrefix + value, "grant_type") == Some("refresh_token")
  {
    var pair := "refresh_token" + "=" + value;
    assert FormPrefix + value == "grant_type" + "=" + "refresh_token" + "&" + pair;
    assert Lacks("grant_type", '=') && Lacks("refresh_token", '=');
    assert Lacks("grant_type", '+') && Lacks("refresh_token", '+');
    assert Lacks("grant_type" + "=" + "refresh_token", '&');
    assert Lacks("refresh_token" + "=", '&');
    LacksConcat("refresh_token" + "=", value, '&');
    DecodePlain("grant_type");
    DecodePlain("refresh_token");
    assert "grant_type" != "refresh_token" by { assert |"grant_type"| != |"refresh_token"|; }
    FieldAfterPair("grant_type", "refresh_token", pair, "grant_type");
    FieldAfterPair("grant_type", "refresh_token", pair, "refresh_token");
    FieldOfLastPair(pair, "refresh_token");
    PairReadsBack("refresh_token", value, "refresh_token");
  }

  /** The server reads back exactly the refresh token from the JSON body, and
      from the form body whenever the token is one that form encoding leaves
      unchanged. */
  lemma RefreshTokenReadsBack(cfg: Strategies, providerId: string, refreshToken: string)
    ensures var b := RefreshRequest(cfg, providerId, refreshToken).body;
            && (b.JsonBody? ==> JsonField(b.fields, "refresh_token") == Some(refreshToken)
                                && JsonField(b.fields, "grant_type") == Some("refresh_token"))
            && (b.FormBody? && FormSafe(refreshToken) ==>
                  FormField(b.text, "refresh_token") == Some(refreshToken)
                  && FormField(b.text, "grant_type") == Some("refresh_token"))
  {
    var b := RefreshRequest(cfg, providerId, refreshToken).body;
    if b.FormBody? {
      assert b.text == b.text[..|FormPrefix|] + b.text[|FormPrefix|..];
      if FormSafe(refreshToken) {
        FormFieldsOfPairs(refreshToken);
        DecodePlain(refreshToken);
      }
    } else {
      var f := b.fields;
      assert JsonField(f[3..], "refresh_token") == Some(refreshToken);
      assert JsonField(f[2..], "refresh_token") == Some(refreshToken) by { assert f[2..][1..] == f[3..]; }
      assert JsonField(f[1..], "refresh_token") == Some(refreshToken) by { assert f[1..][1..] == f[2..]; }
    }
  }

  /** The form body is built without encoding the token, so a token holding
      `&` is read back cut short at that `&`. */
  lemma AmpersandTokenCut(head: string, tail: string)
    requires Lacks(head, '&') && Lacks(head, '+')
    ensures FormField(FormPrefix + (head + "&" + tail), "refresh_token") == Some(head)
    ensures head + "&" + tail != head
  {
    var pair := "refresh_token" + "=" + head;
    var rest := pair + "&" + tail;
    assert FormPrefix + (head + "&" + tail) == FormPrefix + head + "&" + tail;
    assert FormPrefix + head == "grant_type" + "=" + "refresh_token" + "&" + pair;
    assert FormPrefix + (head + "&" + tail) == "grant_type" + "=" + "refresh_token" + "&" + rest;
    assert Lacks("grant_type", '=') && Lacks("refresh_token", '=');
    assert Lacks("grant_type", '+') && Lacks("refresh_token", '+');
    assert Lacks("grant_type" + "=" + "refresh_token", '&');
    assert Lacks("refresh_token" + "=", '&');
    LacksConcat("refresh_token" + "=", head, '&');
    DecodePlain("grant_type");
    DecodePlain("refresh_token");
    DecodePlain(head);
    assert "grant_type" != "refresh_token" by { assert |"grant_type"| != |"refresh_token"|; }
    FieldAfterPair("grant_type", "refresh_token", rest, "refresh_token");
    FieldAfterPair("refresh_token", head, tail, "refresh_token");
    assert |head + "&" + tail| > |head|;
  }

  /** The same missing encoding reads every `+` of a token back as a space. */
  lemma PlusTokenSpaced(token: string, j: nat)
    requires Lacks(token, '&') && j < |token| && token[j] == '+'
    ensures FormField(FormPrefix + token, "refresh_token") == Some(FormDecode(token))
    ensures FormDecode(token) != token
  {
    FormFieldsOfPairs(token);
    assert FormDecode(token)[j] == ' ';
  }

  /** `getNewAccessToken`: posts the request; a failed call rejects, and an
      answer yields its `access_token`, which may be absent. */
  function GetNewAccessToken(cfg: Strategies, providerId: string, refreshToken: string,
                             answer: Result<TokenData, string>): (r: (Request, Result<Option<string>, string>))
    ensures r.0 == RefreshRequest(cfg, providerId, refreshToken)
    ensures r.1.Ok? <==> answer.Ok?
    ensures answer.Ok? ==> r.1.value == answer.value.accessToken
  {
    var request := RefreshRequest(cfg, providerId, refreshToken);
    match answer
    case Err(e) => (request, Err(e))
    case Ok(data) => (request, Ok(data.accessToken))
  }
}

=== FILE: results.dfy ===
/** Optional values (JavaScript `undefined`) and outcomes of fallible steps
    (a rejected promise or a thrown error). */
module Results {

  datatype Option<+T> = None | Some(value: T)

  datatype Result<+T, +E> = Ok(value: T) | Err(error: E)
}

=== FILE: serverpullrequests.dfy ===
/** Bitbucket Server pull-request mapping: paged REST answers accumulated
    into one list, diff entries normalised into file changes, activities
    filtered into nested comment trees with their visibility rule, the
    inline anchor posted with a new comment and its decoding, avatar-url
    patching, user and branch records, and the merge body.

    REST answers are inputs (the raw records below hold the fields the code
    reads); the HTTP client and the repository record builder are not part of
    this model. */
module ServerPullRequests {
  import opened Results
  import opened Strings
  import opened AuthInfo

  // ---------------------------------------------------------------------
  // Paged answers
  // ---------------------------------------------------------------------

  /** One page of a paged answer: `values` may be missing. */
  datatype Page<T> = Page(values: Option<seq<T>>, isLastPage: Option<bool>)

  /** `data.values || []` */
  function ValuesOr<T>(p: Page<T>): seq<T>
  {
    if p.values.Some? then p.values.value else []
  }

  /** `data.isLastPage === false`: only an explicit false asks for more. */
  predicate Continues<T>(p: Page<T>)
  {
    p.isLastPage == Some(false)
  }

  /** The values of the pages, in order. */
  function PageValues<T>(pages: seq<Page<T>>): seq<T>
  {
    if pages == [] then [] else ValuesOr(pages[0]) + PageValues(pages[1..])
  }

  /** The index of the first page that does not ask for more, `|pages|` when
      every page does. */
  function StopIndex<T>(pages: seq<Page<T>>): (k: nat)
    ensures k <= |pages|
    ensures forall j :: 0 <= j < k ==> Continues(pages[j])
    ensures k < |pages| ==> !Continues(pages[k])
  {
    if pages == [] then 0
    else if !Continues(pages[0]) then 0
    else
      var k := StopIndex(pages[1..]);
      assert forall j :: 1 <= j < k + 1 ==> pages[j] == pages[1..][j - 1];
      k + 1
  }

  /** What the paging loop collects from the answers `pages` (the first is
      the initial answer): nothing when the first has no `values`, otherwise
      the values of every page up to the first that does not ask for more.
      `None` when every given answer asks for more. */
  function Accumulated<T>(pages: seq<Page<T>>): (r: Option<seq<T>>)
    requires |pages| >= 1
    ensures r.Some? ==> forall x :: x in r.value ==> exists p | p in pages :: x in ValuesOr(p)
  {
    if pages[0].values.None? then Some([])
    else
      var k := StopIndex(pages);
      if k == |pages| then None
      else
        PageValuesFrom(pages[..k + 1]);
        assert forall p :: p in pages[..k + 1] ==> p in pages;
        Some(PageValues(pages[..k + 1]))
  }

  lemma {:induction false} PageValuesSnoc<T>(pages: seq<Page<T>>, p: Page<T>)
    ensures PageValues(pages + [p]) == PageValues(pages) + ValuesOr(p)
  {
    if pages == [] {
      assert PageValues([p]) == ValuesOr(p) + PageValues([]);
    } else {
      assert (pages + [p])[1..] == pages[1..] + [p];
      PageValuesSnoc(pages[1..], p);
    }
  }

  /** The paging loop of `getChangedFiles` and `getComments`. */
  method FetchAll<T>(pages: seq<Page<T>>) returns (r: Option<seq<T>>)
    requires |pages| >= 1
    ensures r == Accumulated(pages)
  {
    var data := pages[0];
    if data.values.None? {
      return Some([]);
    }
    var accumulated := data.values.value;
    var i := 0;
    assert PageValues(pages[..1]) == ValuesOr(pages[0]) + PageValues([]);
    assert pages[..1] == [pages[0]];
    while Continues(data)
      invariant 0 <= i < |pages| && data == pages[i]
      invariant accumulated == PageValues(pages[..i + 1])
      invariant forall j :: 0 <= j < i ==> Continues(pages[j])
      decreases |pages| - i
    {
      if i + 1 == |pages| {
        assert StopIndex(pages) == |pages|;
        return None;
      }
      assert Continues(pages[i]);
      i := i + 1;
      assert forall j :: 0 <= j < i ==> Continues(pages[j]);
      data := pages[i];
      PageValuesSnoc(pages[..i], data);
      assert pages[..i + 1] == pages[..i] + [data];
      accumulated := accumulated + ValuesOr(data);
    }
    assert StopIndex(pages) == i;
    return Some(accumulated);
  }

  // ---------------------------------------------------------------------
  // Changed files
  // ---------------------------------------------------------------------

  /** One entry of the `changes` answer: its change type, the text of its
      path object's `toString` field, and, for a move, the source path. */
  datatype RawDiffStat = RawDiffStat(kind: string, path: string, srcPath: Option<string>)

  datatype FileStatus = Added | Removed | Renamed | Modified

  /** The status text the code writes back into `type`. */
  function StatusName(s: FileStatus): string
  {
    match s
    case Added => "added"
    case Removed => "removed"
    case Renamed => "renamed"
    case Modified => "modified"
  }

  /** The `switch (diffStat.type)` normalisation. */
  function NormalizeType(kind: string): (s: FileStatus)
    ensures s == Added <==> kind == "ADD" || kind == "COPY"
    ensures s == Removed <==> kind == "DELETE"
    ensures s == Renamed <==> kind == "MOVE"
  {
    if kind == "ADD" || kind == "COPY" then Added
    else if kind == "DELETE" then Removed
    else if kind == "MOVE" then Renamed
    else Modified
  }

  datatype FileChange = FileChange(status: FileStatus, oldPath: Option<string>, newPath: Option<string>)

  /** Both sides of a change take the entry's (new) path; `srcPath` is never
      read. */
  function ToFileChange(d: RawDiffStat): (c: FileChange)
    ensures c.status == NormalizeType(d.kind)
    ensures c.oldPath.None? <==> c.status == Added
    ensures c.newPath.None? <==> c.status == Removed
    ensures c.oldPath.Some? ==> c.oldPath.value == d.path
    ensures c.newPath.Some? ==> c.newPath.value == d.path
  {
    var status := NormalizeType(d.kind);
    FileChange(status,
               if status == Added then None else Some(d.path),
               if status == Removed then None else Some(d.path))
  }

  /** Quirk: a moved file's old path is its new path, so a rename's source
      never reaches the change list, whatever `srcPath` says. */
  lemma RenamedFileLosesSource(d: RawDiffStat)
    requires d.kind == "MOVE" && d.srcPath.Some? && d.srcPath.value != d.path
    ensures ToFileChange(d).status == Renamed
    ensures ToFileChange(d).oldPath == ToFileChange(d).newPath == Some(d.path)
    ensures ToFileChange(d).oldPath != d.srcPath
  {
  }

  /** `getChangedFiles` over the `changes` answers. */
  function ChangedFiles(pages: seq<Page<RawDiffStat>>): (r: Option<seq<FileChange>>)
    requires |pages| >= 1
    ensures r.Some? <==> Accumulated(pages).Some?
    ensures r.Some? ==> |r.value| == |Accumulated(pages).value|
                        && forall i :: 0 <= i < |r.value| ==> r.value[i] == ToFileChange(Accumulated(pages).value[i])
  {
    match Accumulated(pages)
    case None => None
    case Some(stats) => Some(seq(|stats|, i requires 0 <= i < |stats| => ToFileChange(stats[i])))
  }

  /** Over a whole answer: every change that has both paths has the same
      one on both sides, and every path in the list is the path of the
      collected entry in the same position. */
  lemma ChangedFilesPathsFromEntries(pages: seq<Page<RawDiffStat>>)
    requires |pages| >= 1
    ensures var r := ChangedFiles(pages);
            r.Some? ==> forall i :: 0 <= i < |r.value| ==>
              && (r.value[i].oldPath.Some? && r.value[i].newPath.Some? ==> r.value[i].oldPath == r.value[i].newPath)
              && (r.value[i].newPath.Some? ==> r.value[i].newPath.value == Accumulated(pages).value[i].path)
              && (r.value[i].status == Renamed <==> Accumulated(pages).value[i].kind == "MOVE")
  {
  }

  /** A single answer without `values` yields no changes at all. */
  lemma NoValuesNoChanges(p: Page<RawDiffStat>)
    requires p.values.None?
    ensures ChangedFiles([p]) == Some([])
  {
  }

  // ---------------------------------------------------------------------
  // Users and avatars
  // ---------------------------------------------------------------------

  /** `patchAvatarUrl(baseUrl, avatarUrl)`: a relative avatar gets the base
      prefixed; a missing, empty or absolute one is returned unchanged. */
  function PatchAvatarUrl(baseUrl: string, avatarUrl: Option<string>): (r: Option<string>)
    ensures Truthy(avatarUrl) && !StartsWith(avatarUrl.value, "http") ==> r == Some(baseUrl + avatarUrl.value)
    ensures !Truthy(avatarUrl) || StartsWith(avatarUrl.value, "http") ==> r == avatarUrl
  {
    if Truthy(avatarUrl) && !StartsWith(avatarUrl.value, "http") then Some(baseUrl + avatarUrl.value) else avatarUrl
  }

  /** With an absolute base url the patch is idempotent, and a patched
      avatar is absolute. */
  lemma PatchAvatarUrlIdempotent(baseUrl: string, avatarUrl: Option<string>)
    requires StartsWith(baseUrl, "http")
    ensures var once := PatchAvatarUrl(baseUrl, avatarUrl);
            && PatchAvatarUrl(baseUrl, once) == once
            && (Truthy(avatarUrl) ==> StartsWith(once.value, "http"))
  {
    var once := PatchAvatarUrl(baseUrl, avatarUrl);
    if Truthy(avatarUrl) && !StartsWith(avatarUrl.value, "http") {
      assert (baseUrl + avatarUrl.value)[..4] == baseUrl[..4];
    }
  }

  /** The author record of the REST answers. */
  datatype RawUser = RawUser(slug: string, displayName: string, emailAddress: Option<string>,
                             selfHref: Option<string>, avatarUrl: Option<string>)

  datatype User = User(accountId: string, displayName: string, emailAddress: Option<string>,
                       url: Option<string>, avatarUrl: Option<string>, mention: string)

  /** `toUser(site, input)` */
  function ToUser(site: Site, input: RawUser): (u: User)
    ensures u.accountId == input.slug && u.mention == "@" + input.slug
    ensures u.avatarUrl == PatchAvatarUrl(site.baseLinkUrl, input.avatarUrl)
    ensures u.url == input.selfHref && u.emailAddress == input.emailAddress
    ensures u.displayName == input.displayName
  {
    User(input.slug, input.displayName, input.emailAddress, input.selfHref,
         PatchAvatarUrl(site.baseLinkUrl, input.avatarUrl), "@" + input.slug)
  }

  // ---------------------------------------------------------------------
  // Comments
  // ---------------------------------------------------------------------

  /** The comment anchor of an activity. */
  datatype RawAnchor = RawAnchor(path: string, line: int, fileType: string, diffType: string, orphaned: Option<bool>)

  /** A comment of the REST answers, with its replies. */
  datatype RawComment = RawComment(
    id: int, parentId: Option<int>, html: Option<string>, text: string,
    createdDate: int, updatedDate: int, deleted: bool, author: Option<RawUser>,
    canDelete: bool, canEdit: bool, comments: seq<RawComment>)

  /** The inline position of a comment: `from` on the old side, `to` on the new. */
  datatype Inline = Inline(path: string, from: Option<int>, to: Option<int>)

  datatype Comment = Comment(
    id: int, parentId: Option<int>, htmlContent: string, rawContent: string,
    ts: int, updatedTs: int, deleted: bool, deletable: bool, editable: bool,
    inline: Option<Inline>, user: User, children: seq<Comment>)

  /** The inline position read from an anchor: the line goes to `to` when the
      anchor is on the `TO` side, to `from` otherwise. */
  function InlineOfAnchor(a: RawAnchor): (i: Inline)
    ensures i.path == a.path
    ensures i.to.Some? <==> a.fileType == "TO"
    ensures i.from.Some? <==> a.fileType != "TO"
    ensures i.to.Some? ==> i.to.value == a.line
    ensures i.from.Some? ==> i.from.value == a.line
  {
    if a.fileType == "TO" then Inline(a.path, None, Some(a.line)) else Inline(a.path, Some(a.line), None)
  }

  /** Every author needs the remote's site: the code asserts it is present
      (`siteDetailsForRemote(remote)!`) before converting the author. */
  predicate AuthorsHaveSite(c: RawComment, site: Option<Site>)
  {
    (c.author.Some? ==> site.Some?) && forall i :: 0 <= i < |c.comments| ==> AuthorsHaveSite(c.comments[i], site)
  }

  /** The user of a comment: the converted author, or `unknown`. */
  function CommentUser(data: RawComment, site: Option<Site>, unknown: User): User
    requires data.author.Some? ==> site.Some?
  {
    if data.author.Some? then ToUser(site.value, data.author.value) else unknown
  }

  /** The comment belongs to the site's user (false without a site). */
  predicate BelongsToUser(data: RawComment, site: Option<Site>, unknown: User)
    requires data.author.Some? ==> site.Some?
  {
    site.Some? && CommentUser(data, site, unknown).accountId == site.value.userId
  }

  /** `convertDataToComment(data, remote, commentAnchor)`, without children. */
  function ConvertDataToComment(data: RawComment, site: Option<Site>, unknown: User, anchor: Option<RawAnchor>): (c: Comment)
    requires data.author.Some? ==> site.Some?
    ensures c.id == data.id && c.deleted == data.deleted && c.rawContent == data.text && c.children == []
    ensures c.htmlContent == if Truthy(data.html) then data.html.value else data.text
    ensures c.deletable <==> data.canDelete && BelongsToUser(data, site, unknown) && !data.deleted
    ensures c.editable <==> data.canEdit && BelongsToUser(data, site, unknown) && !data.deleted
    ensures c.inline.Some? <==> anchor.Some?
    ensures anchor.Some? ==> c.inline.value == InlineOfAnchor(anchor.value)
    ensures c.inline == AnchorInline(anchor)
    ensures data.author.Some? ==> c.user == ToUser(site.value, data.author.value)
    ensures data.author.None? ==> c.user == unknown
    ensures c.parentId == data.parentId && c.ts == data.createdDate && c.updatedTs == data.updatedDate
  {
    var user := CommentUser(data, site, unknown);
    var belongs := BelongsToUser(data, site, unknown);
    Comment(data.id, data.parentId, if Truthy(data.html) then data.html.value else data.text, data.text,
            data.createdDate, data.updatedDate, data.deleted,
            data.canDelete && belongs && !data.deleted, data.canEdit && belongs && !data.deleted,
            AnchorInline(anchor), user, [])
  }

  /** `shouldDisplayComment`: a comment is shown when it is not deleted, or
      when one of its replies is shown. */
  predicate ShouldDisplay(c: Comment)
    decreases c, 1
  {
    if !c.deleted then true
    else if |c.children| == 0 then false
    else HasUndeletedChild(c)
  }

  /** `hasUndeletedChild`: some reply is shown. */
  predicate HasUndeletedChild(c: Comment)
    decreases c, 0
  {
    exists i | 0 <= i < |c.children| :: ShouldDisplay(c.children[i])
  }

  /** The comment and all its replies, depth first. */
  function Flatten(c: Comment): (r: seq<Comment>)
    ensures |r| >= 1 && r[0] == c
    decreases c, 1
  {
    [c] + FlattenAll(c.children, c)
  }

  function FlattenAll(cs: seq<Comment>, parent: Comment): seq<Comment>
    requires forall i :: 0 <= i < |cs| ==> cs[i] in parent.children
    decreases parent, 0, |cs|
  {
    if cs == [] then []
    else
      assert cs[0] in parent.children;
      assert forall i :: 0 <= i < |cs| - 1 ==> cs[1..][i] == cs[i + 1];
      Flatten(cs[0]) + FlattenAll(cs[1..], parent)
  }

  /** Some comment of the sequence is not deleted. */
  predicate AnyLive(cs: seq<Comment>)
  {
    exists i | 0 <= i < |cs| :: !cs[i].deleted
  }

  lemma AnyLiveConcat(a: seq<Comment>, b: seq<Comment>)
    ensures AnyLive(a + b) <==> AnyLive(a) || AnyLive(b)
  {
    if AnyLive(a + b) {
      var i :| 0 <= i < |a + b| && !(a + b)[i].deleted;
      if i >= |a| { assert b[i - |a|] == (a + b)[i]; }
    }
    if AnyLive(b) {
      var i :| 0 <= i < |b| && !b[i].deleted;
      assert (a + b)[|a| + i] == b[i];
    }
    if AnyLive(a) {
      var i :| 0 <= i < |a| && !a[i].deleted;
      assert (a + b)[i] == a[i];
    }
  }

  /** The visibility rule, stated independently: a comment is shown exactly
      when its thread (the comment or any reply at any depth) holds a comment
      that is not deleted. */
  lemma {:induction false} ShouldDisplayIffLiveInThread(c: Comment)
    ensures ShouldDisplay(c) <==> AnyLive(Flatten(c))
    decreases c, 1
  {
    AnyLiveConcat([c], FlattenAll(c.children, c));
    assert AnyLive([c]) <==> !c.deleted by {
      if !c.deleted { assert [c][0] == c; }
    }
    ChildrenLiveInThread(c.children, c);
    assert c.children[0..] == c.children;
  }

  lemma {:induction false} ChildrenLiveInThread(cs: seq<Comment>, parent: Comment)
    requires forall i :: 0 <= i < |cs| ==> cs[i] in parent.children
    ensures AnyLive(FlattenAll(cs, parent)) <==> exists i | 0 <= i < |cs| :: ShouldDisplay(cs[i])
    decreases parent, 0, |cs|
  {
    if cs != [] {
      ShouldDisplayIffLiveInThread(cs[0]);
      ChildrenLiveInThread(cs[1..], parent);
      AnyLiveConcat(Flatten(cs[0]), FlattenAll(cs[1..], parent));
      if exists i | 0 <= i < |cs| :: ShouldDisplay(cs[i]) {
        var i :| 0 <= i < |cs| && ShouldDisplay(cs[i]);
        if i > 0 { assert cs[1..][i - 1] == cs[i]; }
      }
      if exists i | 0 <= i < |cs[1..]| :: ShouldDisplay(cs[1..][i]) {
        var i :| 0 <= i < |cs[1..]| && ShouldDisplay(cs[1..][i]);
        assert cs[i + 1] == cs[1..][i];
      }
    }
  }

  /** `toNestedCommentModel(comment, commentAnchor, ...)`: converts the
      comment and its replies (every reply carries the thread's anchor); a
      comment with a shown reply is never deletable. Apart from its replies
      and deletability, a nested comment is the flat conversion of its data. */
  function ToNested(raw: RawComment, anchor: Option<RawAnchor>, site: Option<Site>, unknown: User): (c: Comment)
    requires AuthorsHaveSite(raw, site)
    ensures c.id == raw.id && c.deleted == raw.deleted && |c.children| == |raw.comments|
    ensures forall i :: 0 <= i < |raw.comments| ==> c.children[i] == ToNested(raw.comments[i], anchor, site, unknown)
    ensures c.deletable <==> raw.canDelete && BelongsToUser(raw, site, unknown) && !raw.deleted && !HasUndeletedChild(c)
    ensures c.editable <==> raw.canEdit && BelongsToUser(raw, site, unknown) && !raw.deleted
    ensures c.inline == AnchorInline(anchor)
    ensures c.(children := [], deletable := false) == ConvertDataToComment(raw, site, unknown, anchor).(deletable := false)
    decreases raw
  {
    var model := ConvertDataToComment(raw, site, unknown, anchor);
    var children := seq(|raw.comments|, i requires 0 <= i < |raw.comments| => ToNested(raw.comments[i], anchor, site, unknown));
    var nested := model.(children := children);
    if HasUndeletedChild(nested) then nested.(deletable := false) else nested
  }

  /** The inline position a thread's anchor gives. */
  function AnchorInline(anchor: Option<RawAnchor>): Option<Inline>
  {
    if anchor.Some? then Some(InlineOfAnchor(anchor.value)) else None
  }

  /** The comment and every reply at any depth have inline position `v`. */
  predicate EveryInline(c: Comment, v: Option<Inline>)
  {
    c.inline == v && forall i :: 0 <= i < |c.children| ==> EveryInline(c.children[i], v)
  }

  /** Every comment of a converted thread, replies at any depth included,
      has the inline position of the thread's anchor. */
  lemma {:induction false} ThreadSharesInline(raw: RawComment, anchor: Option<RawAnchor>, site: Option<Site>, unknown: User)
    requires AuthorsHaveSite(raw, site)
    ensures EveryInline(ToNested(raw, anchor, site, unknown), AnchorInline(anchor))
    decreases raw
  {
    forall i | 0 <= i < |raw.comments|
      ensures EveryInline(ToNested(raw.comments[i], anchor, site, unknown), AnchorInline(anchor))
    {
      ThreadSharesInline(raw.comments[i], anchor, site, unknown);
    }
  }

  /** One entry of the `activities` answer. */
  datatype Activity = Activity(action: string, comment: RawComment, anchor: Option<RawAnchor>)

  /** The activity filter of `getComments`: comments only, and an anchor, when
      present, must be on the effective diff and explicitly not orphaned. */
  predicate KeepActivity(a: Activity)
  {
    a.action == "COMMENTED"
    && (a.anchor.Some? ==> a.anchor.value.diffType == "EFFECTIVE" && a.anchor.value.orphaned == Some(false))
  }

  function KeptActivities(acts: seq<Activity>): (r: seq<Activity>)
    ensures forall a :: a in r <==> a in acts && KeepActivity(a)
  {
    if acts == [] then []
    else
      var tail := KeptActivities(acts[1..]);
      assert forall a :: a in acts <==> a == acts[0] || a in acts[1..];
      if KeepActivity(acts[0]) then [acts[0]] + tail else tail
  }

  /** The threads of the given activities that are shown, in order. */
  function ShownThreads(acts: seq<Activity>, site: Option<Site>, unknown: User): (r: seq<Comment>)
    requires forall a :: a in acts ==> AuthorsHaveSite(a.comment, site)
    ensures forall c :: c in r ==> ShouldDisplay(c) && exists a | a in acts :: c == ToNested(a.comment, a.anchor, site, unknown)
    ensures forall a :: a in acts && ShouldDisplay(ToNested(a.comment, a.anchor, site, unknown))
                        ==> ToNested(a.comment, a.anchor, site, unknown) in r
  {
    if acts == [] then []
    else
      var c := ToNested(acts[0].comment, acts[0].anchor, site, unknown);
      assert forall a :: a in acts <==> a == acts[0] || a in acts[1..];
      var tail := ShownThreads(acts[1..], site, unknown);
      if ShouldDisplay(c) then [c] + tail else tail
  }

  /** `getComments` over the `activities` answers: the shown threads of the
      kept activities, in order. */
  function GetComments(pages: seq<Page<Activity>>, site: Option<Site>, unknown: User): (r: Option<seq<Comment>>)
    requires |pages| >= 1
    requires forall p, a :: p in pages && a in ValuesOr(p) ==> AuthorsHaveSite(a.comment, site)
    ensures r.Some? <==> Accumulated(pages).Some?
    ensures r.Some? ==> forall c :: c in r.value ==>
      ShouldDisplay(c) && exists a | a in Accumulated(pages).value :: KeepActivity(a) && c == ToNested(a.comment, a.anchor, site, unknown)
    ensures r.Some? ==> forall a :: a in Accumulated(pages).value && KeepActivity(a)
                                    && ShouldDisplay(ToNested(a.comment, a.anchor, site, unknown))
                                    ==> ToNested(a.comment, a.anchor, site, unknown) in r.value
  {
    match Accumulated(pages)
    case None => None
    case Some(acts) =>
      var kept := KeptActivities(acts);
      Some(ShownThreads(kept, site, unknown))
  }

  /** The threads `getComments` returns are exactly the kept threads that
      hold at least one comment, at any depth, that is not deleted. */
  lemma GetCommentsKeepsLiveThreads(pages: seq<Page<Activity>>, site: Option<Site>, unknown: User)
    requires |pages| >= 1
    requires forall p, a :: p in pages && a in ValuesOr(p) ==> AuthorsHaveSite(a.comment, site)
    ensures var r := GetComments(pages, site, unknown);
            r.Some? ==>
              && (forall c :: c in r.value ==> AnyLive(Flatten(c)))
              && (forall a :: a in Accumulated(pages).value && KeepActivity(a)
                              && AnyLive(Flatten(ToNested(a.comment, a.anchor, site, unknown)))
                              ==> ToNested(a.comment, a.anchor, site, unknown) in r.value)
  {
    var r := GetComments(pages, site, unknown);
    if r.Some? {
      forall c | c in r.value
        ensures AnyLive(Flatten(c))
      {
        ShouldDisplayIffLiveInThread(c);
      }
      forall a | a in Accumulated(pages).value && KeepActivity(a)
                 && AnyLive(Flatten(ToNested(a.comment, a.anchor, site, unknown)))
        ensures ToNested(a.comment, a.anchor, site, unknown) in r.value
      {
        ShouldDisplayIffLiveInThread(ToNested(a.comment, a.anchor, site, unknown));
      }
    }
  }

  /** Every collected value comes from one of the pages. */
  lemma {:induction false} PageValuesFrom<T>(pages: seq<Page<T>>)
    ensures forall x :: x in PageValues(pages) ==> exists p | p in pages :: x in ValuesOr(p)
  {
    if pages != [] {
      PageValuesFrom(pages[1..]);
      forall x | x in PageValues(pages)
        ensures exists p | p in pages :: x in ValuesOr(p)
      {
        if x in ValuesOr(pages[0]) {
          assert pages[0] in pages;
        } else {
          assert x in PageValues(pages[1..]);
          var p :| p in pages[1..] && x in ValuesOr(p);
          assert p in pages;
        }
      }
    }
  }

  // ---------------------------------------------------------------------
  // Posting a comment
  // ---------------------------------------------------------------------

  /** The anchor `postComment` sends: `line = to || from`, `fileType = to ? TO : FROM`. */
  datatype PostedAnchor = PostedAnchor(line: Option<int>, lineType: string, fileType: string, path: string)

  datatype PostBody = PostBody(parent: Option<int>, text: string, anchor: Option<PostedAnchor>)

  function PostAnchor(i: Inline): (a: PostedAnchor)
    ensures a.path == i.path && a.lineType == "CONTEXT"
    ensures a.fileType == "TO" <==> IntTruthy(i.to)
    ensures IntTruthy(i.to) ==> a.line == i.to
    ensures !IntTruthy(i.to) ==> a.line == i.from
  {
    PostedAnchor(if IntTruthy(i.to) then i.to else i.from, "CONTEXT", if IntTruthy(i.to) then "TO" else "FROM", i.path)
  }

  /** The body `postComment` sends. */
  function PostCommentBody(text: string, parentCommentId: Option<int>, inline: Option<Inline>): (b: PostBody)
    ensures b.text == text
    ensures b.parent.Some? <==> IntTruthy(parentCommentId)
    ensures b.parent.Some? ==> b.parent == parentCommentId
    ensures b.anchor.Some? <==> inline.Some?
    ensures inline.Some? ==> b.anchor.value == PostAnchor(inline.value)
  {
    PostBody(if IntTruthy(parentCommentId) then parentCommentId else None, text,
             if inline.Some? then Some(PostAnchor(inline.value)) else None)
  }

  /** The anchor the server stores for a posted one (a posted anchor without
      a line has nothing to store). */
  function StoredAnchor(a: PostedAnchor): Option<RawAnchor>
  {
    if a.line.Some? then Some(RawAnchor(a.path, a.line.value, a.fileType, "EFFECTIVE", Some(false))) else None
  }

  /** Posting then reading back an inline position gives it back exactly
      when one side is set: `to` (non-zero) alone, or `from` alone. */
  lemma AnchorRoundTrip(i: Inline)
    ensures (StoredAnchor(PostAnchor(i)).Some? && InlineOfAnchor(StoredAnchor(PostAnchor(i)).value) == i)
            <==> (IntTruthy(i.to) && i.from.None?) || (i.to.None? && i.from.Some?)
  {
  }

  /** `postComment` converts the answer without its anchor: the returned
      comment never carries an inline position, even for an inline post. */
  function PostComment(text: string, parentCommentId: Option<int>, inline: Option<Inline>,
                       answer: RawComment, site: Option<Site>, unknown: User): (r: (PostBody, Comment))
    requires answer.author.Some? ==> site.Some?
    ensures r.0 == PostCommentBody(text, parentCommentId, inline)
    ensures r.1.inline.None? && r.1.id == answer.id && r.1.children == []
    ensures r.1 == ConvertDataToComment(answer, site, unknown, None)
  {
    (PostCommentBody(text, parentCommentId, inline), ConvertDataToComment(answer, site, unknown, None))
  }

  // ---------------------------------------------------------------------
  // Merge and branch records
  // ---------------------------------------------------------------------

  datatype MergeBody = EmptyMergeBody | StrategyMergeBody(autoSubject: bool, strategyId: string, message: Option<string>)

  /** The body of `merge`: empty without a strategy; otherwise the strategy,
      the message and `autoSubject: false`. */
  function MergeRequestBody(mergeStrategy: Option<string>, commitMessage: Option<string>): (b: MergeBody)
    ensures b.EmptyMergeBody? <==> mergeStrategy.None?
    ensures b.StrategyMergeBody? ==> !b.autoSubject && Some(b.strategyId) == mergeStrategy && b.message == commitMessage
  {
    if mergeStrategy.None? then EmptyMergeBody else StrategyMergeBody(false, mergeStrategy.value, commitMessage)
  }

  /** The commit message the server receives with a merge. */
  function SentMessage(b: MergeBody): Option<string>
  {
    match b
    case EmptyMergeBody => None
    case StrategyMergeBody(_, _, message) => message
  }

  /** The commit message reaches the server exactly when a strategy is
      chosen or there is no message: without a strategy it is dropped. */
  lemma MergeMessageNeedsStrategy(mergeStrategy: Option<string>, commitMessage: Option<string>)
    ensures SentMessage(MergeRequestBody(mergeStrategy, commitMessage)) == commitMessage
            <==> mergeStrategy.Some? || commitMessage.None?
  {
  }

  /** The `fromRef`/`toRef` record of a pull request. */
  datatype RawPrRepo = RawPrRepo(displayId: Option<string>, latestCommit: Option<string>)

  /** `toPullRequestRepo`; `repo` is what the repository builder gives. */
  datatype PullRequestRepo<R> = PullRequestRepo(repo: R, branchName: string, commitHash: string)

  const BranchNotFound := "BRANCH_NOT_FOUND"
  const CommitHashNotFound := "COMMIT_HASH_NOT_FOUND"

  function ToPullRequestRepo<R>(repo: R, prRepo: RawPrRepo): (r: PullRequestRepo<R>)
    ensures r.repo == repo
    ensures r.branchName != "" && r.commitHash != ""
    ensures Truthy(prRepo.displayId) <==> r.branchName != BranchNotFound || prRepo.displayId == Some(BranchNotFound)
    ensures Truthy(prRepo.displayId) ==> r.branchName == prRepo.displayId.value
    ensures Truthy(prRepo.latestCommit) ==> r.commitHash == prRepo.latestCommit.value
    ensures !Truthy(prRepo.latestCommit) ==> r.commitHash == CommitHashNotFound
  {
    PullRequestRepo(repo,
                    if Truthy(prRepo.displayId) then prRepo.displayId.value else BranchNotFound,
                    if Truthy(prRepo.latestCommit) then prRepo.latestCommit.value else CommitHashNotFound)
  }

  /** A converted record is a fixed point: converting the record it reads as
      gives it back. */
  lemma PullRequestRepoStable<R>(repo: R, prRepo: RawPrRepo)
    ensures var r := ToPullRequestRepo(repo, prRepo);
            ToPullRequestRepo(repo, RawPrRepo(Some(r.branchName), Some(r.commitHash))) == r
  {
  }
}

=== FILE: sitemanager.dfy ===
/** The site directory: per-product site lists persisted in a global store
    and mirrored in an in-memory cache, with de-duplicating add,
    hostname-keyed remove and removal driven by auth-change events.

    The store is a map from product key to the persisted list (a missing key
    is a list never written); the cache is the manager's `_sitesAvailable`
    map. Events and calls into the credential manager and the configuration
    are returned as a list of effects, in the order the code issues them. */
module SiteManager {
  import opened Results
  import opened Strings
  import opened AuthInfo

  datatype Effect =
    | SitesChanged(sites: seq<Site>, product: Product)   // `onDidSitesAvailableChange.fire`
    | RemoveAuthInfo(site: Site)                          // `credentialManager.removeAuthInfo`
    | ClearLastCreateSiteAndProject                       // `setLastCreateSiteAndProject(undefined)`

  datatype Manager = Manager(store: map<string, seq<Site>>, cache: map<string, seq<Site>>)

  /** The persisted list of a product key, `[]` when none was written. */
  function Stored(m: Manager, key: string): seq<Site>
  {
    if key in m.store then m.store[key] else []
  }

  /** The cache never disagrees with the store: a non-empty cached list is
      the persisted one. (An empty cached list is reloaded on every read.) */
  predicate Coherent(m: Manager)
  {
    forall k :: k in m.cache && m.cache[k] != [] ==> k in m.store && m.store[k] == m.cache[k]
  }

  /** The constructor: empty cached lists for both products. */
  function Create(store: map<string, seq<Site>>): (m: Manager)
    ensures m.store == store && Coherent(m)
  {
    Manager(store, map[ProductJira.key := [], ProductBitbucket.key := []])
  }

  // ---------------------------------------------------------------------
  // Reads
  // ---------------------------------------------------------------------

  /** `getSitesAvailableForKey`: a missing or empty cached list is reloaded
      from the store (or `[]`) and cached. */
  function SitesForKey(m: Manager, key: string): (r: (Manager, seq<Site>))
    ensures r.0.store == m.store
    ensures Coherent(m) ==> r.1 == Stored(m, key) && Coherent(r.0)
    ensures key in r.0.cache && r.0.cache[key] == r.1
  {
    if key !in m.cache || |m.cache[key]| < 1 then
      var sites := Stored(m, key);
      (m.(cache := m.cache[key := sites]), sites)
    else (m, m.cache[key])
  }

  /** `getFirstSite` */
  function FirstSite(m: Manager, key: string): (r: (Manager, Site))
    ensures r.0.store == m.store
    ensures Coherent(m) ==> Coherent(r.0)
    ensures Coherent(m) && Stored(m, key) == [] ==> r.1 == EmptySite
    ensures Coherent(m) && Stored(m, key) != [] ==> r.1 == Stored(m, key)[0]
  {
    var (m1, sites) := SitesForKey(m, key);
    if |sites| > 0 then (m1, sites[0]) else (m1, EmptySite)
  }

  /** The user id of the first cloud site, if any (`getFirstAAIDForProduct`). */
  function FirstCloudUserId(sites: seq<Site>): (r: Option<string>)
    ensures r.None? <==> forall i :: 0 <= i < |sites| ==> !sites[i].isCloud
    ensures r.Some? ==> exists i :: 0 <= i < |sites| && sites[i].isCloud && sites[i].userId == r.value
                                    && forall j :: 0 <= j < i ==> !sites[j].isCloud
  {
    if sites == [] then None
    else if sites[0].isCloud then Some(sites[0].userId)
    else
      var r := FirstCloudUserId(sites[1..]);
      assert forall j :: 1 <= j < |sites| ==> sites[j] == sites[1..][j - 1];
      if r.Some? then
        assert exists i :: 1 <= i < |sites| && sites[i].isCloud && sites[i].userId == r.value
                           && forall j :: 0 <= j < i ==> !sites[j].isCloud by {
          var k :| 0 <= k < |sites[1..]| && sites[1..][k].isCloud && sites[1..][k].userId == r.value
                   && forall j :: 0 <= j < k ==> !sites[1..][j].isCloud;
          assert sites[k + 1] == sites[1..][k];
          assert forall j :: 1 <= j < k + 1 ==> !sites[j].isCloud;
        }
        r
      else r
  }

  /** `getFirstAAID(productKey?)`: with a key, that product's first cloud
      user; without one, Jira's when it is truthy, otherwise Bitbucket's. */
  function FirstAAID(m: Manager, productKey: Option<string>): (r: (Manager, Option<string>))
    ensures r.0.store == m.store
    ensures Coherent(m) ==> Coherent(r.0)
    ensures Coherent(m) && Truthy(productKey) ==> r.1 == FirstCloudUserId(Stored(m, productKey.value))
    ensures Coherent(m) && !Truthy(productKey) ==>
      var jira := FirstCloudUserId(Stored(m, ProductJira.key));
      r.1 == if Truthy(jira) then jira else FirstCloudUserId(Stored(m, ProductBitbucket.key))
  {
    if Truthy(productKey) then
      var (m1, sites) := SitesForKey(m, productKey.value);
      (m1, FirstCloudUserId(sites))
    else
      var (m1, jiraSites) := SitesForKey(m, ProductJira.key);
      var userId := FirstCloudUserId(jiraSites);
      if Truthy(userId) then (m1, userId)
      else
        var (m2, bbSites) := SitesForKey(m1, ProductBitbucket.key);
        (m2, FirstCloudUserId(bbSites))
  }

  /** The first site with the given id. */
  function FindById(sites: seq<Site>, id: string): (r: Option<Site>)
    ensures r.None? <==> forall i :: 0 <= i < |sites| ==> sites[i].id != id
    ensures r.Some? ==> r.value in sites && r.value.id == id
    ensures r.Some? ==> exists i :: 0 <= i < |sites| && sites[i] == r.value
                                    && forall j :: 0 <= j < i ==> sites[j].id != id
  {
    if sites == [] then None
    else if sites[0].id == id then Some(sites[0])
    else
      assert forall j :: 1 <= j < |sites| ==> sites[j] == sites[1..][j - 1];
      var r := FindById(sites[1..], id);
      if r.Some? then
        var k :| 0 <= k < |sites[1..]| && sites[1..][k] == r.value && forall j :: 0 <= j < k ==> sites[1..][j].id != id;
        assert sites[k + 1] == r.value && forall j :: 0 <= j < k + 1 ==> sites[j].id != id;
        r
      else r
  }

  /** `getSiteForId` */
  function SiteForId(m: Manager, product: Product, id: string): (r: (Manager, Option<Site>))
    ensures r.0.store == m.store
    ensures Coherent(m) ==> Coherent(r.0)
    ensures Coherent(m) ==> (r.1.Some? <==> exists i :: 0 <= i < |Stored(m, product.key)| && Stored(m, product.key)[i].id == id)
    ensures r.1.Some? ==> r.1.value.id == id
    ensures Coherent(m) ==> r.1 == FindById(Stored(m, product.key), id)
  {
    var (m1, sites) := SitesForKey(m, product.key);
    (m1, FindById(sites, id))
  }

  /** When two users are logged in to sites with the same id, the lookup
      gives the site stored first. */
  lemma SiteForIdPrefersFirst(a: Site, b: Site, rest: seq<Site>)
    requires a.id == b.id && a != b
    ensures var key := a.product.key;
            SiteForId(Create(map[key := [a, b] + rest]), a.product, a.id).1 == Some(a)
  {
    var key := a.product.key;
    var m := Create(map[key := [a, b] + rest]);
    assert Stored(m, key) == [a, b] + rest;
  }

  // ---------------------------------------------------------------------
  // addSites
  // ---------------------------------------------------------------------

  /** A site with the same (id, userId) is already in `existing`. */
  predicate Known(existing: seq<Site>, s: Site)
  {
    exists j | 0 <= j < |existing| :: existing[j].id == s.id && existing[j].userId == s.userId
  }

  /** `newSites.filter(s => !allSites.some(...))` */
  function Unknown(newSites: seq<Site>, existing: seq<Site>): (r: seq<Site>)
    ensures |r| <= |newSites|
    ensures forall s :: s in r <==> s in newSites && !Known(existing, s)
  {
    if newSites == [] then []
    else
      var tail := Unknown(newSites[1..], existing);
      assert forall s :: s in newSites <==> s == newSites[0] || s in newSites[1..];
      if Known(existing, newSites[0]) then tail else [newSites[0]] + tail
  }

  /** `addSites(newSites)`: sites are keyed by the first site's product. */
  function AddSites(m: Manager, newSites: seq<Site>): (r: (Manager, seq<Effect>))
    ensures newSites == [] ==> r == (m, [])
    ensures newSites != [] ==>
      var key := newSites[0].product.key;
      var added := if key in m.store then Unknown(newSites, m.store[key]) else newSites;
      && r.0.store == m.store[key := Stored(m, key) + added]
      && r.0.cache == m.cache[key := Stored(m, key) + added]
      && (r.1 != [] <==> key !in m.store || added != [])
      && (r.1 != [] ==> r.1 == [SitesChanged(Stored(m, key) + added, (Stored(m, key) + added)[0].product)])
    ensures Coherent(m) ==> Coherent(r.0)
  {
    if |newSites| == 0 then (m, [])
    else
      var key := newSites[0].product.key;
      var stored := key in m.store;
      var added := if stored then Unknown(newSites, m.store[key]) else newSites;
      var notify := !stored || |added| > 0;
      var allSites := if stored then m.store[key] + added else added;
      assert allSites == Stored(m, key) + added by {
        if !stored { assert [] + added == added; }
      }
      var m1 := Manager(m.store[key := allSites], m.cache[key := allSites]);
      if notify then (m1, [SitesChanged(allSites, allSites[0].product)]) else (m1, [])
  }

  /** Every site of `newSites` is known once they have been added. */
  lemma AddedAreKnown(existing: seq<Site>, newSites: seq<Site>, s: Site)
    requires s in newSites
    ensures Known(existing + Unknown(newSites, existing), s)
  {
    var all := existing + Unknown(newSites, existing);
    if Known(existing, s) {
      var j :| 0 <= j < |existing| && existing[j].id == s.id && existing[j].userId == s.userId;
      assert all[j] == existing[j];
    } else {
      var k :| 0 <= k < |Unknown(newSites, existing)| && Unknown(newSites, existing)[k] == s;
      assert all[|existing| + k] == s;
    }
  }

  /** Adding the same sites twice: the second call changes nothing in the
      store and fires no event. */
  lemma AddSitesTwice(m: Manager, newSites: seq<Site>)
    requires newSites != []
    ensures var m1 := AddSites(m, newSites).0;
            var r2 := AddSites(m1, newSites);
            r2.0.store == m1.store && r2.1 == []
  {
    var key := newSites[0].product.key;
    var m1 := AddSites(m, newSites).0;
    var existing := m1.store[key];
    AddSitesKnowsAll(m, newSites);
    AllKnownAddsNothing(newSites, existing);
    assert existing + [] == existing;
    assert m1.store[key := existing] == m1.store;
  }

  /** After `addSites`, every site passed is known under its product key. */
  lemma AddSitesKnowsAll(m: Manager, newSites: seq<Site>)
    requires newSites != []
    ensures var key := newSites[0].product.key;
            key in AddSites(m, newSites).0.store
            && forall s :: s in newSites ==> Known(AddSites(m, newSites).0.store[key], s)
  {
    var key := newSites[0].product.key;
    var existing := AddSites(m, newSites).0.store[key];
    forall s | s in newSites
      ensures Known(existing, s)
    {
      if key in m.store {
        AddedAreKnown(m.store[key], newSites, s);
      } else {
        assert existing == [] + newSites;
        var k :| 0 <= k < |newSites| && newSites[k] == s;
        assert existing[k] == s;
      }
    }
  }

  lemma AllKnownAddsNothing(newSites: seq<Site>, existing: seq<Site>)
    requires forall s :: s in newSites ==> Known(existing, s)
    ensures Unknown(newSites, existing) == []
  {
    if newSites != [] {
      assert newSites[0] in newSites;
      assert forall s :: s in newSites[1..] ==> s in newSites;
      AllKnownAddsNothing(newSites[1..], existing);
    }
  }

  /** The de-duplication is only against the store: a list holding the same
      site twice is stored twice when the product has no list yet. */
  lemma AddSitesKeepsDuplicatesOfOneCall(m: Manager, s: Site)
    requires s.product.key !in m.store
    ensures AddSites(m, [s, s]).0.store[s.product.key] == [s, s]
  {
  }

  // ---------------------------------------------------------------------
  // removeSite
  // ---------------------------------------------------------------------

  /** `sites.findIndex(s => s.hostname === hostname)` */
  function FindHostname(sites: seq<Site>, hostname: string): (i: int)
    ensures -1 <= i < |sites|
    ensures i >= 0 ==> sites[i].hostname == hostname && forall j :: 0 <= j < i ==> sites[j].hostname != hostname
    ensures i == -1 ==> forall j :: 0 <= j < |sites| ==> sites[j].hostname != hostname
  {
    if sites == [] then -1
    else if sites[0].hostname == hostname then 0
    else
      var t := FindHostname(sites[1..], hostname);
      assert forall j :: 1 <= j < |sites| ==> sites[j] == sites[1..][j - 1];
      if t == -1 then -1 else t + 1
  }

  /** `removeSite(site)`; `lastCreateSiteId` is the configured
      `jira.lastCreateSiteAndProject.siteId`. Returns the new manager, the
      result and the effects. */
  function RemoveSite(m: Manager, site: Site, lastCreateSiteId: string): (r: (Manager, bool, seq<Effect>))
    ensures r.1 <==> FindHostname(Stored(m, site.product.key), site.hostname) >= 0
    ensures !r.1 ==> r.0 == m && r.2 == []
    ensures r.1 ==>
      var key := site.product.key;
      var sites := Stored(m, key);
      var i := FindHostname(sites, site.hostname);
      var rest := sites[..i] + sites[i + 1..];
      && |rest| == |sites| - 1
      && r.0.store == m.store[key := rest] && r.0.cache == m.cache[key := rest]
    ensures r.1 ==>
      var sites := Stored(m, site.product.key);
      var i := FindHostname(sites, site.hostname);
      var rest := sites[..i] + sites[i + 1..];
      && |r.2| >= 1 && r.2[0] == SitesChanged(rest, site.product)
      && (RemoveAuthInfo(sites[i]) in r.2 <==> rest == [])
    ensures r.1 ==>
      var sites := Stored(m, site.product.key);
      var i := FindHostname(sites, site.hostname);
      ClearLastCreateSiteAndProject in r.2 <==> sites[i].id == lastCreateSiteId
    ensures Coherent(m) ==> Coherent(r.0)
  {
    var key := site.product.key;
    if key in m.store && |m.store[key]| > 0 then
      var sites := m.store[key];
      var foundIndex := FindHostname(sites, site.hostname);
      if foundIndex > -1 then
        var deleted := sites[foundIndex];
        var rest := sites[..foundIndex] + sites[foundIndex + 1..];
        var m1 := Manager(m.store[key := rest], m.cache[key := rest]);
        var effects := [SitesChanged(rest, site.product)]
          + (if |rest| == 0 then [RemoveAuthInfo(deleted)] else [])
          + (if deleted.id == lastCreateSiteId then [ClearLastCreateSiteAndProject] else []);
        (m1, true, effects)
      else (m, false, [])
    else (m, false, [])
  }

  /** Only the found site goes: every other site keeps its relative order. */
  lemma RemoveSiteKeepsOthers(m: Manager, site: Site, lastCreateSiteId: string)
    requires RemoveSite(m, site, lastCreateSiteId).1
    ensures var key := site.product.key;
            var sites := Stored(m, key);
            var i := FindHostname(sites, site.hostname);
            var rest := RemoveSite(m, site, lastCreateSiteId).0.store[key];
            && (forall j :: 0 <= j < i ==> rest[j] == sites[j])
            && (forall j :: i < j < |sites| ==> rest[j - 1] == sites[j])
  {
    var key := site.product.key;
    var sites := Stored(m, key);
    var i := FindHostname(sites, site.hostname);
    var rest := RemoveSite(m, site, lastCreateSiteId).0.store[key];
    assert rest == sites[..i] + sites[i + 1..];
    forall j | 0 <= j < i
      ensures rest[j] == sites[j]
    {
      assert rest[j] == sites[..i][j];
    }
    forall j | i < j < |sites|
      ensures rest[j - 1] == sites[j]
    {
      assert rest[j - 1] == sites[i + 1..][j - 1 - i];
    }
  }

  // ---------------------------------------------------------------------
  // onDidAuthChange
  // ---------------------------------------------------------------------

  datatype AuthEvent =
    | RemoveAuthEvent(product: Product, credentialId: string)
    | UpdateAuthEvent

  /** The sites of a credential (`filter(site => site.credentialId === ...)`). */
  function WithCredential(sites: seq<Site>, credentialId: string): (r: seq<Site>)
    ensures forall s :: s in r <==> s in sites && s.credentialId == credentialId
  {
    if sites == [] then []
    else
      var tail := WithCredential(sites[1..], credentialId);
      assert forall s :: s in sites <==> s == sites[0] || s in sites[1..];
      if sites[0].credentialId == credentialId then [sites[0]] + tail else tail
  }

  /** The sites of every other credential, in order. */
  function WithoutCredential(sites: seq<Site>, credentialId: string): (r: seq<Site>)
    ensures forall s :: s in r <==> s in sites && s.credentialId != credentialId
  {
    if sites == [] then []
    else
      var tail := WithoutCredential(sites[1..], credentialId);
      assert forall s :: s in sites <==> s == sites[0] || s in sites[1..];
      if sites[0].credentialId != credentialId then [sites[0]] + tail else tail
  }

  /** `deadSites.forEach(s => this.removeSite(s))` */
  function RemoveEach(m: Manager, dead: seq<Site>, lastCreateSiteId: string): (r: (Manager, seq<Effect>))
    ensures Coherent(m) ==> Coherent(r.0)
    decreases |dead|
  {
    if dead == [] then (m, [])
    else
      var (m1, _, e1) := RemoveSite(m, dead[0], lastCreateSiteId);
      var (m2, e2) := RemoveEach(m1, dead[1..], lastCreateSiteId);
      (m2, e1 + e2)
  }

  /** `onDidAuthChange(e)`: a remove-auth event removes every site of the
      credential, then fires once with the product's current list. */
  function OnDidAuthChange(m: Manager, e: AuthEvent, lastCreateSiteId: string): (r: (Manager, seq<Effect>))
    ensures e.UpdateAuthEvent? ==> r == (m, [])
    ensures Coherent(m) ==> Coherent(r.0)
    ensures Coherent(m) && e.RemoveAuthEvent? ==>
      && (r.1 != [] <==> WithCredential(Stored(m, e.product.key), e.credentialId) != [])
      && (r.1 != [] ==> r.1[|r.1| - 1] == SitesChanged(Stored(r.0, e.product.key), e.product))
  {
    match e
    case UpdateAuthEvent => (m, [])
    case RemoveAuthEvent(product, credentialId) =>
      var (m1, sites) := SitesForKey(m, product.key);
      var dead := WithCredential(sites, credentialId);
      var (m2, effects) := RemoveEach(m1, dead, lastCreateSiteId);
      RemoveAuthTail(m2, product, effects, dead != [])
  }

  /** The final notification of `onDidAuthChange`. */
  function RemoveAuthTail(m2: Manager, product: Product, effects: seq<Effect>, anyDead: bool)
    : (r: (Manager, seq<Effect>))
    ensures !anyDead ==> r == (m2, effects)
    ensures Coherent(m2) ==> Coherent(r.0)
    ensures anyDead ==> product.key in r.0.cache && r.1 == effects + [SitesChanged(r.0.cache[product.key], product)]
    ensures Coherent(m2) && anyDead ==> r.1[|r.1| - 1] == SitesChanged(Stored(r.0, product.key), product)
    ensures r.0.store == m2.store
  {
    if anyDead then
      var (m3, now) := SitesForKey(m2, product.key);
      (m3, effects + [SitesChanged(now, product)])
    else (m2, effects)
  }

  // ----- removal by credential, when hostnames are unique -----

  /** No two stored sites share a hostname. */
  predicate UniqueHostnames(sites: seq<Site>)
  {
    sites == [] || ((forall s :: s in sites[1..] ==> s.hostname != sites[0].hostname) && UniqueHostnames(sites[1..]))
  }

  /** The sites whose hostname is not in `hosts`, in order. */
  function OutsideHosts(sites: seq<Site>, hosts: set<string>): (r: seq<Site>)
    ensures forall s :: s in r <==> s in sites && s.hostname !in hosts
  {
    if sites == [] then []
    else
      var tail := OutsideHosts(sites[1..], hosts);
      assert forall s :: s in sites <==> s == sites[0] || s in sites[1..];
      if sites[0].hostname in hosts then tail else [sites[0]] + tail
  }

  function Hostnames(sites: seq<Site>): set<string>
  {
    set s | s in sites :: s.hostname
  }

  /** The list without its first site of hostname `h`. */
  function RemoveFirstHost(sites: seq<Site>, h: string): (r: seq<Site>)
    ensures forall s :: s in r ==> s in sites
  {
    if sites == [] then []
    else if sites[0].hostname == h then sites[1..]
    else [sites[0]] + RemoveFirstHost(sites[1..], h)
  }

  /** `findIndex` followed by `splice(i, 1)` removes the first site of the
      hostname, and nothing when there is none. */
  lemma {:induction false} SpliceIsRemoveFirst(sites: seq<Site>, h: string)
    ensures var i := FindHostname(sites, h);
            i >= 0 ==> sites[..i] + sites[i + 1..] == RemoveFirstHost(sites, h)
    ensures FindHostname(sites, h) == -1 ==> RemoveFirstHost(sites, h) == sites
  {
    if sites == [] {
    } else if sites[0].hostname == h {
      assert sites[..0] + sites[1..] == sites[1..];
    } else {
      var tail := sites[1..];
      SpliceIsRemoveFirst(tail, h);
      var t := FindHostname(tail, h);
      assert RemoveFirstHost(sites, h) == [sites[0]] + RemoveFirstHost(tail, h);
      if t >= 0 {
        assert FindHostname(sites, h) == t + 1;
        SpliceCons(sites, t);
        assert sites[..t + 1] + sites[t + 2..] == RemoveFirstHost(sites, h);
      } else {
        assert FindHostname(sites, h) == -1;
        assert [sites[0]] + tail == sites;
      }
    }
  }

  /** Splicing one position out of a non-empty list past its head. */
  lemma SpliceCons(sites: seq<Site>, t: nat)
    requires t + 1 < |sites|
    ensures sites[..t + 1] + sites[t + 2..] == [sites[0]] + (sites[1..][..t] + sites[1..][t + 1..])
  {
    assert sites[..t + 1] == [sites[0]] + sites[1..][..t];
    assert sites[t + 2..] == sites[1..][t + 1..];
  }

  /** With unique hostnames, removing the first site of a hostname removes
      every site of that hostname. */
  lemma {:induction false} RemoveFirstIsOutside(sites: seq<Site>, hosts: set<string>, h: string)
    requires UniqueHostnames(sites)
    ensures RemoveFirstHost(OutsideHosts(sites, hosts), h) == OutsideHosts(sites, hosts + {h})
  {
    if sites != [] {
      var hd := sites[0];
      var tail := sites[1..];
      RemoveFirstIsOutside(tail, hosts, h);
      var lt := OutsideHosts(tail, hosts);
      if hd.hostname in hosts {
        assert OutsideHosts(sites, hosts) == lt;
      } else if hd.hostname == h {
        assert OutsideHosts(sites, hosts) == [hd] + lt;
        assert ([hd] + lt)[1..] == lt;
        OutsideWithAbsentHost(tail, hosts, h);
      } else {
        assert OutsideHosts(sites, hosts) == [hd] + lt;
        assert ([hd] + lt)[1..] == lt;
      }
    }
  }

  /** Adding a hostname no site has does not change the filter. */
  lemma {:induction false} OutsideWithAbsentHost(sites: seq<Site>, hosts: set<string>, h: string)
    requires forall s :: s in sites ==> s.hostname != h
    ensures OutsideHosts(sites, hosts + {h}) == OutsideHosts(sites, hosts)
  {
    if sites != [] {
      assert forall s :: s in sites[1..] ==> s in sites;
      OutsideWithAbsentHost(sites[1..], hosts, h);
    }
  }

  /** `removeSite` on the store: the first site of the hostname goes, and
      nothing else changes. */
  lemma RemoveSiteStore(m: Manager, site: Site, lastCreateSiteId: string)
    ensures var key := site.product.key;
            RemoveSite(m, site, lastCreateSiteId).0.store
            == if key in m.store then m.store[key := RemoveFirstHost(m.store[key], site.hostname)] else m.store
  {
    var key := site.product.key;
    if key in m.store {
      var l := m.store[key];
      SpliceIsRemoveFirst(l, site.hostname);
      if FindHostname(l, site.hostname) == -1 {
        assert m.store[key := l] == m.store;
      }
    }
  }

  /** One `removeSite` of a site of the product, by hostname. */
  lemma RemoveSiteIsOutside(m: Manager, key: string, original: seq<Site>, hosts: set<string>,
                            site: Site, lastCreateSiteId: string)
    requires UniqueHostnames(original)
    requires key in m.store && m.store[key] == OutsideHosts(original, hosts)
    requires site.product.key == key
    ensures RemoveSite(m, site, lastCreateSiteId).0.store == m.store[key := OutsideHosts(original, hosts + {site.hostname})]
  {
    RemoveFirstIsOutside(original, hosts, site.hostname);
    RemoveSiteStore(m, site, lastCreateSiteId);
  }

  lemma OverwriteTwice(a: map<string, seq<Site>>, key: string, b: map<string, seq<Site>>, c: map<string, seq<Site>>,
                       x: seq<Site>, y: seq<Site>)
    requires b == a[key := x] && c == b[key := y]
    ensures c == a[key := y]
  {
  }

  lemma RemoveEachCons(m: Manager, dead: seq<Site>, lastCreateSiteId: string)
    requires dead != []
    ensures RemoveEach(m, dead, lastCreateSiteId).0
            == RemoveEach(RemoveSite(m, dead[0], lastCreateSiteId).0, dead[1..], lastCreateSiteId).0
  {
  }

  lemma HostnamesCons(hosts: set<string>, dead: seq<Site>)
    requires dead != []
    ensures hosts + {dead[0].hostname} + Hostnames(dead[1..]) == hosts + Hostnames(dead)
  {
    assert forall s :: s in dead <==> s == dead[0] || s in dead[1..];
  }

  /** Removing the dead sites one by one, by hostname, leaves exactly the
      sites outside their hostnames. */
  lemma {:induction false} RemoveEachIsOutside(m: Manager, key: string, original: seq<Site>, hosts: set<string>,
                                               dead: seq<Site>, lastCreateSiteId: string)
    requires UniqueHostnames(original)
    requires key in m.store && m.store[key] == OutsideHosts(original, hosts)
    requires forall s :: s in dead ==> s.product.key == key
    ensures var r := RemoveEach(m, dead, lastCreateSiteId).0;
            r.store == m.store[key := OutsideHosts(original, hosts + Hostnames(dead))]
    decreases |dead|
  {
    if dead == [] {
      assert Hostnames(dead) == {};
      assert hosts + {} == hosts;
      assert m.store[key := m.store[key]] == m.store;
    } else {
      var h := dead[0].hostname;
      RemoveSiteIsOutside(m, key, original, hosts, dead[0], lastCreateSiteId);
      var m1 := RemoveSite(m, dead[0], lastCreateSiteId).0;
      assert forall s :: s in dead[1..] ==> s in dead;
      RemoveEachIsOutside(m1, key, original, hosts + {h}, dead[1..], lastCreateSiteId);
      HostnamesCons(hosts, dead);
      RemoveEachCons(m, dead, lastCreateSiteId);
      OverwriteTwice(m.store, key, m1.store, RemoveEach(m1, dead[1..], lastCreateSiteId).0.store,
                     OutsideHosts(original, hosts + {h}), OutsideHosts(original, hosts + Hostnames(dead)));
    }
  }

  /** With unique hostnames, dropping the hostnames of a credential's sites
      drops exactly that credential's sites. */
  lemma {:induction false} OutsideDeadIsWithout(sites: seq<Site>, credentialId: string)
    requires UniqueHostnames(sites)
    ensures OutsideHosts(sites, Hostnames(WithCredential(sites, credentialId))) == WithoutCredential(sites, credentialId)
  {
    var hosts := Hostnames(WithCredential(sites, credentialId));
    if sites != [] {
      var tail := sites[1..];
      var h0 := sites[0].hostname;
      OutsideDeadIsWithout(tail, credentialId);
      var tailHosts := Hostnames(WithCredential(tail, credentialId));
      if sites[0].credentialId == credentialId {
        assert WithCredential(sites, credentialId) == [sites[0]] + WithCredential(tail, credentialId);
        assert hosts == tailHosts + {h0};
        OutsideWithAbsentHost(tail, tailHosts, h0);
        assert h0 in hosts;
      } else {
        assert WithCredential(sites, credentialId) == WithCredential(tail, credentialId);
        assert h0 !in hosts by {
          assert forall s :: s in WithCredential(tail, credentialId) ==> s in tail;
        }
      }
    }
  }

  /** When no two sites of a product share a hostname, a remove-auth event
      leaves exactly the sites of the other credentials, in order. */
  lemma RemoveAuthDropsExactlyItsSites(m: Manager, product: Product, credentialId: string, lastCreateSiteId: string)
    requires Coherent(m) && product.key in m.store
    requires UniqueHostnames(m.store[product.key])
    requires forall s :: s in m.store[product.key] ==> s.product.key == product.key
    ensures OnDidAuthChange(m, RemoveAuthEvent(product, credentialId), lastCreateSiteId).0.store
            == m.store[product.key := WithoutCredential(m.store[product.key], credentialId)]
  {
    var key := product.key;
    var sites := m.store[key];
    var (m1, listed) := SitesForKey(m, key);
    assert listed == sites;
    var dead := WithCredential(sites, credentialId);
    OutsideWithNothing(sites);
    RemoveEachIsOutside(m1, key, sites, {}, dead, lastCreateSiteId);
    OutsideDeadIsWithout(sites, credentialId);
    assert {} + Hostnames(dead) == Hostnames(dead);
  }

  lemma {:induction false} OutsideWithNothing(sites: seq<Site>)
    ensures OutsideHosts(sites, {}) == sites
  {
    if sites != [] {
      OutsideWithNothing(sites[1..]);
    }
  }

  /** Quirk: removal is by hostname. When two users are logged in to the
      same server, removing the second user's credentials removes the first
      user's site and keeps the second's. */
  lemma RemoveAuthDropsOtherUsersSite(a: Site, b: Site)
    requires a.hostname == b.hostname && a.product == b.product && a.credentialId != b.credentialId
    ensures var key := a.product.key;
            var r := OnDidAuthChange(Create(map[key := [a, b]]), RemoveAuthEvent(a.product, b.credentialId), "").0;
            key in r.store && r.store[key] == [b]
  {
    var key := a.product.key;
    var m := Create(map[key := [a, b]]);
    var (m1, sites) := SitesForKey(m, key);
    assert sites == [a, b];
    assert [a, b][1..] == [b] && [b][1..] == [];
    assert WithCredential([b], b.credentialId) == [b];
    assert WithCredential([a, b], b.credentialId) == [b];
    assert FindHostname([a, b], b.hostname) == 0;
    var m2 := RemoveSite(m1, b, "").0;
    assert m2.store[key] == [b];
    assert RemoveEach(m1, [b], "").0 == RemoveEach(m2, [], "").0 == m2;
  }
}

=== FILE: startwork.dfy ===
/** The start-work webview's issue update: the best-effort move of the issue
    to an "in progress" status, the defaulting of a repository's remotes, the
    guard against overlapping refreshes, and the copied issue link. Fetching
    repositories and branches is an input. */
module StartWork {
  import opened Results
  import opened Strings
  import opened AuthInfo

  datatype Status = Status(id: string, name: string)

  datatype Transition = Transition(id: string, isInitial: bool, to: Status)

  datatype Issue = Issue(key: string, status: Status, transitions: seq<Transition>, siteDetails: Site)

  datatype Remote = Remote(name: string, isReadOnly: bool)

  /** A git ref; only heads with a name become local branches. */
  datatype Ref = Ref(isHead: bool, name: Option<string>)

  /** What the update reads from one open repository. The branching model is
      the repository API's answer, passed on unread; its contents are not
      modelled, so it stands here as the answer's text. */
  datatype RepoState = RepoState(uri: string, remotes: seq<Remote>, refs: seq<Ref>,
                                 href: Option<string>, developmentBranch: Option<string>,
                                 branchingModel: Option<string>)

  datatype RepoData = RepoData(uri: string, href: Option<string>, remotes: seq<Remote>, defaultReviewers: seq<string>,
                               localBranches: seq<string>, remoteBranches: seq<string>, developmentBranch: Option<string>,
                               branchingModel: Option<string>)

  datatype Message = Update(issue: Issue, repoData: seq<RepoData>) | Error(reason: string)

  datatype Webview = Webview(state: Issue, tenantId: Option<string>, hasPanel: bool, title: string, refreshing: bool)

  /** A status name mentions "progress", in any letter case. */
  predicate MentionsProgress(name: string)
  {
    Contains(ToLower(name), "progress")
  }

  predicate InProgressCandidate(t: Transition)
  {
    !t.isInitial && MentionsProgress(t.to.name)
  }

  /** The index of the first non-initial transition leading to an "in
      progress" status. */
  function FirstInProgress(ts: seq<Transition>): (r: Option<nat>)
    ensures r.Some? ==> r.value < |ts| && InProgressCandidate(ts[r.value])
    ensures r.Some? ==> forall j :: 0 <= j < r.value ==> !InProgressCandidate(ts[j])
    ensures r.None? ==> forall j :: 0 <= j < |ts| ==> !InProgressCandidate(ts[j])
  {
    if ts == [] then None
    else if InProgressCandidate(ts[0]) then Some(0)
    else
      var r := FirstInProgress(ts[1..]);
      assert forall j :: 1 <= j < |ts| ==> ts[j] == ts[1..][j - 1];
      if r.Some? then Some(r.value + 1) else None
  }

  /** The index of the first non-initial transition. */
  function FirstNonInitial(ts: seq<Transition>): (r: Option<nat>)
    ensures r.Some? ==> r.value < |ts| && !ts[r.value].isInitial
    ensures r.Some? ==> forall j :: 0 <= j < r.value ==> ts[j].isInitial
    ensures r.None? ==> forall j :: 0 <= j < |ts| ==> ts[j].isInitial
  {
    if ts == [] then None
    else if !ts[0].isInitial then Some(0)
    else
      var r := FirstNonInitial(ts[1..]);
      assert forall j :: 1 <= j < |ts| ==> ts[j] == ts[1..][j - 1];
      if r.Some? then Some(r.value + 1) else None
  }

  /** The status the update shows: unchanged when it already mentions
      progress, else the target of the first non-initial transition into an
      "in progress" status, else that of the first non-initial transition,
      else unchanged. */
  function ChooseStatus(issue: Issue): (s: Status)
    ensures MentionsProgress(issue.status.name) ==> s == issue.status
    ensures s == issue.status || exists j | 0 <= j < |issue.transitions| :: !issue.transitions[j].isInitial && s == issue.transitions[j].to
    ensures !MentionsProgress(issue.status.name) && FirstInProgress(issue.transitions).Some? ==>
              s == issue.transitions[FirstInProgress(issue.transitions).value].to
    ensures !MentionsProgress(issue.status.name) && FirstInProgress(issue.transitions).None? ==>
              s == (if FirstNonInitial(issue.transitions).Some?
                    then issue.transitions[FirstNonInitial(issue.transitions).value].to else issue.status)
  {
    if MentionsProgress(issue.status.name) then issue.status
    else
      match FirstInProgress(issue.transitions)
      case Some(i) => issue.transitions[i].to
      case None =>
        match FirstNonInitial(issue.transitions)
        case Some(i) => issue.transitions[i].to
        case None => issue.status
  }

  /** Whenever a non-initial transition leads to an "in progress" status, the
      chosen status mentions progress. */
  lemma ChooseStatusReachesProgress(issue: Issue, j: nat)
    requires j < |issue.transitions| && InProgressCandidate(issue.transitions[j])
    ensures MentionsProgress(ChooseStatus(issue).name)
  {
  }

  /** Choosing again changes nothing: a chosen status either mentions
      progress or is the first non-initial target, which the second choice
      picks again. */
  lemma ChooseStatusIdempotent(issue: Issue)
    ensures ChooseStatus(issue.(status := ChooseStatus(issue))) == ChooseStatus(issue)
  {
    var s := ChooseStatus(issue);
    var again := issue.(status := s);
    if !MentionsProgress(s.name) {
      assert FirstInProgress(issue.transitions).None?;
      assert FirstInProgress(again.transitions).None?;
    }
  }

  const NoRemoteName := "NO_GIT_REMOTE_FOUND"

  /** A repository's remotes, or the read-only placeholder when it has none. */
  function RemotesOrDefault(remotes: seq<Remote>): (r: seq<Remote>)
    ensures |remotes| > 0 ==> r == remotes
    ensures |remotes| == 0 ==> r == [Remote(NoRemoteName, true)]
    ensures |r| > 0
  {
    if |remotes| > 0 then remotes else [Remote(NoRemoteName, true)]
  }

  /** The names of the named heads, in order. */
  function LocalBranches(refs: seq<Ref>): (r: seq<string>)
    ensures forall b :: b in r <==> exists j | 0 <= j < |refs| :: refs[j].isHead && Truthy(refs[j].name) && refs[j].name.value == b
    ensures |r| <= |refs|
  {
    if refs == [] then []
    else
      var rest := LocalBranches(refs[1..]);
      assert forall j :: 1 <= j < |refs| ==> refs[j] == refs[1..][j - 1];
      if refs[0].isHead && Truthy(refs[0].name) then [refs[0].name.value] + rest else rest
  }

  function ToRepoData(r: RepoState): (d: RepoData)
    ensures d.uri == r.uri && d.href == r.href && d.developmentBranch == r.developmentBranch
    ensures d.branchingModel == r.branchingModel
    ensures d.remotes == RemotesOrDefault(r.remotes)
    ensures d.localBranches == LocalBranches(r.refs)
    ensures d.defaultReviewers == [] && d.remoteBranches == []
  {
    RepoData(r.uri, r.href, RemotesOrDefault(r.remotes), [], LocalBranches(r.refs), [], r.developmentBranch,
             r.branchingModel)
  }

  const TitlePrefix := "Start work on Jira issue "

  /** The synchronous start of `updateIssue`: nothing while a refresh is in
      progress; otherwise the flag is raised, the issue becomes the state,
      the tenant follows a non-empty site and the panel title names the key.
      The second component says whether the update went ahead. */
  function BeginUpdate(w: Webview, issue: Issue): (r: (Webview, bool))
    ensures w.refreshing ==> r == (w, false)
    ensures !w.refreshing ==> r.1 && r.0.refreshing && r.0.state == issue && r.0.hasPanel == w.hasPanel
    ensures !w.refreshing ==> r.0.tenantId == (if IsEmptySite(issue.siteDetails) then w.tenantId else Some(issue.siteDetails.id))
    ensures !w.refreshing ==> r.0.title == (if w.hasPanel then TitlePrefix + issue.key else w.title)
  {
    if w.refreshing then (w, false)
    else
      var tenant := if IsEmptySite(issue.siteDetails) then w.tenantId else Some(issue.siteDetails.id);
      (w.(refreshing := true, state := issue, tenantId := tenant,
          title := if w.hasPanel then TitlePrefix + issue.key else w.title), true)
  }

  /** The rest of `updateIssue`, once the repositories are read (or the read
      failed): the state's status moves towards "in progress", one message
      is posted, and the flag is cleared on both paths. */
  function FinishUpdate(w: Webview, repos: Result<seq<RepoState>, string>): (r: (Webview, Message))
    ensures !r.0.refreshing
    ensures r.0.tenantId == w.tenantId && r.0.title == w.title && r.0.hasPanel == w.hasPanel
    ensures repos.Err? ==> r.0.state == w.state && r.1 == Error("error updating issue: " + repos.error)
    ensures repos.Ok? ==> r.0.state == w.state.(status := ChooseStatus(w.state))
    ensures repos.Ok? ==> r.1.Update? && r.1.issue == r.0.state && |r.1.repoData| == |repos.value|
    ensures repos.Ok? ==> forall j :: 0 <= j < |repos.value| ==> r.1.repoData[j] == ToRepoData(repos.value[j])
  {
    match repos
    case Err(e) => (w.(refreshing := false), Error("error updating issue: " + e))
    case Ok(rs) =>
      var issue := w.state.(status := ChooseStatus(w.state));
      (w.(refreshing := false, state := issue),
       Update(issue, seq(|rs|, j requires 0 <= j < |rs| => ToRepoData(rs[j]))))
  }

  /** A refresh that starts while another is in flight leaves the webview as
      it is; when the first one finishes the flag is down, so the next
      update goes ahead. */
  lemma OverlappingUpdateIsDropped(w: Webview, first: Issue, second: Issue, repos: Result<seq<RepoState>, string>)
    requires !w.refreshing
    ensures var (w1, started) := BeginUpdate(w, first);
            && started
            && BeginUpdate(w1, second) == (w1, false)
            && BeginUpdate(FinishUpdate(w1, repos).0, second).1
  {
  }

  /** A whole update applies the status choice to the issue it was given. */
  lemma UpdateShowsChosenStatus(w: Webview, issue: Issue, rs: seq<RepoState>)
    requires !w.refreshing
    ensures var r := FinishUpdate(BeginUpdate(w, issue).0, Ok(rs));
            && r.1.Update? && r.1.issue.key == issue.key
            && r.1.issue.status == ChooseStatus(issue)
            && (MentionsProgress(issue.status.name) ==> r.1.issue == issue)
  {
  }

  /** The link `copyJiraIssueLink` puts on the clipboard. */
  function IssueLink(site: Site, key: string): (url: string)
    ensures StartsWith(url, "https://" + site.baseLinkUrl)
    ensures EndsWith(url, "/browse/" + key)
    ensures |url| == |"https://"| + |site.baseLinkUrl| + |"/browse/"| + |key|
  {
    var head := "https://" + site.baseLinkUrl;
    var tail := "/browse/" + key;
    var url := head + tail;
    assert url[..|head|] == head;
    assert url[|url| - |tail|..] == tail;
    url
  }
}

=== FILE: strings.dfy ===
/** String helpers shared by the model: the handful of JavaScript string
    operations the modelled code relies on (prefix/suffix tests, substring
    search, ASCII lower-casing, decimal rendering, splitting and joining). */
module Strings {
  import opened Results

  /** `s.startsWith(p)` */
  predicate StartsWith(s: string, p: string)
  {
    |p| <= |s| && s[..|p|] == p
  }

  /** `s.endsWith(p)` */
  predicate EndsWith(s: string, p: string)
  {
    |p| <= |s| && s[|s| - |p|..] == p
  }

  /** `p` occurs in `s` starting at index `i`. */
  predicate OccursAt(s: string, p: string, i: int)
  {
    0 <= i <= |s| - |p| && s[i..i + |p|] == p
  }

  /** `s.includes(p)` */
  predicate Contains(s: string, p: string)
  {
    exists i | 0 <= i <= |s| - |p| :: OccursAt(s, p, i)
  }

  /** JavaScript truthiness of an optional string: present and non-empty. */
  predicate Truthy(o: Option<string>)
  {
    o.Some? && o.value != ""
  }

  /** JavaScript truthiness of an optional number: present and non-zero. */
  predicate IntTruthy(o: Option<int>)
  {
    o.Some? && o.value != 0
  }

  function LowerChar(c: char): (r: char)
    ensures 'A' <= c <= 'Z' ==> r as int == c as int + 32
    ensures !('A' <= c <= 'Z') ==> r == c
  {
    if 'A' <= c <= 'Z' then (c as int + 32) as char else c
  }

  /** `toLowerCase()` restricted to ASCII letters. */
  function ToLower(s: string): (r: string)
    ensures |r| == |s|
    ensures forall i :: 0 <= i < |s| ==> r[i] == LowerChar(s[i])
  {
    seq(|s|, i requires 0 <= i < |s| => LowerChar(s[i]))
  }

  function DigitChar(d: nat): (c: char)
    requires d < 10
    ensures '0' <= c <= '9'
    ensures c as int - '0' as int == d
  {
    ('0' as int + d) as char
  }

  /** Decimal rendering of a natural number, as `String(n)` gives it. */
  function NatToString(n: nat): (r: string)
    ensures |r| >= 1
    ensures forall i :: 0 <= i < |r| ==> '0' <= r[i] <= '9'
    ensures n < 10 <==> |r| == 1
    decreases n
  {
    if n < 10 then [DigitChar(n)] else NatToString(n / 10) + [DigitChar(n % 10)]
  }

  /** Numeric value of a string of decimal digits. */
  function DigitsValue(s: string): nat
    requires forall i :: 0 <= i < |s| ==> '0' <= s[i] <= '9'
  {
    if s == [] then 0 else DigitsValue(s[..|s| - 1]) * 10 + (s[|s| - 1] as int - '0' as int)
  }

  /** NatToString is faithful: reading the digits back gives the number. */
  lemma {:induction false} NatToStringValue(n: nat)
    ensures DigitsValue(NatToString(n)) == n
    decreases n
  {
    var s := NatToString(n);
    if n >= 10 {
      NatToStringValue(n / 10);
      assert s == NatToString(n / 10) + [DigitChar(n % 10)];
      assert s[..|s| - 1] == NatToString(n / 10);
      assert s[|s| - 1] as int - '0' as int == n % 10;
    } else {
      assert s[..0] == [];
    }
  }

  /** `parts.join(sep)` */
  function Join(parts: seq<string>, sep: string): (r: string)
    ensures parts == [] ==> r == ""
    ensures |parts| == 1 ==> r == parts[0]
  {
    if parts == [] then ""
    else if |parts| == 1 then parts[0]
    else parts[0] + sep + Join(parts[1..], sep)
  }

  /** A prefix of `a` is a prefix of any extension of `a`. */
  lemma StartsWithExtend(a: string, b: string, p: string)
    requires StartsWith(a, p)
    ensures StartsWith(a + b, p)
  {
    assert (a + b)[..|p|] == a[..|p|];
  }

  /** Every string contains itself. */
  lemma ContainsSelf(p: string)
    ensures Contains(p, p)
  {
    assert p[0..|p|] == p;
    assert OccursAt(p, p, 0);
  }

  /** What `a` contains, `a + b` contains. */
  lemma ContainsExtendRight(a: string, b: string, p: string)
    requires Contains(a, p)
    ensures Contains(a + b, p)
  {
    var i :| 0 <= i <= |a| - |p| && OccursAt(a, p, i);
    assert (a + b)[i..i + |p|] == a[i..i + |p|];
    assert OccursAt(a + b, p, i);
  }

  /** What `b` contains, `a + b` contains. */
  lemma ContainsExtendLeft(a: string, b: string, p: string)
    requires Contains(b, p)
    ensures Contains(a + b, p)
  {
    var i :| 0 <= i <= |b| - |p| && OccursAt(b, p, i);
    assert (a + b)[|a| + i..|a| + i + |p|] == b[i..i + |p|];
    assert OccursAt(a + b, p, |a| + i);
  }

  /** Joining two parts puts the separator between them. */
  lemma JoinTwo(x: string, y: string, sep: string)
    ensures Join([x, y], sep) == x + sep + y
  {
    assert [x, y][1..] == [y];
  }

  /** A joined list starts with its first part. */
  lemma JoinStartsWithFirst(parts: seq<string>, sep: string)
    requires |parts| > 0
    ensures StartsWith(Join(parts, sep), parts[0])
  {
    assert parts[0][..|parts[0]|] == parts[0];
    if |parts| > 1 {
      StartsWithExtend(parts[0], sep + Join(parts[1..], sep), parts[0]);
      assert Join(parts, sep) == parts[0] + (sep + Join(parts[1..], sep));
    }
  }

  /** `s.indexOf(c)` for one character: the first index holding `c`, or -1. */
  function IndexOf(s: string, c: char): (i: int)
    ensures -1 <= i < |s|
    ensures i >= 0 ==> s[i] == c && forall j :: 0 <= j < i ==> s[j] != c
    ensures i == -1 <==> forall j :: 0 <= j < |s| ==> s[j] != c
  {
    if s == [] then -1
    else if s[0] == c then 0
    else
      var k := IndexOf(s[1..], c);
      assert forall j :: 1 <= j < |s| ==> s[j] == s[1..][j - 1];
      if k < 0 then -1 else k + 1
  }

  /** `s` holds no occurrence of `c`. */
  predicate Lacks(s: string, c: char)
  {
    forall j :: 0 <= j < |s| ==> s[j] != c
  }

  /** `s.split(c)` for a one-character separator. */
  function Split(s: string, c: char): (r: seq<string>)
    ensures |r| >= 1
    ensures forall k :: 0 <= k < |r| ==> Lacks(r[k], c)
    decreases |s|
  {
    var i := IndexOf(s, c);
    if i < 0 then
      assert Lacks(s, c);
      [s]
    else
      var rest := Split(s[i + 1..], c);
      assert Lacks(s[..i], c) by {
        assert forall j :: 0 <= j < i ==> s[..i][j] == s[j];
      }
      assert forall k :: 1 <= k < |[s[..i]] + rest| ==> ([s[..i]] + rest)[k] == rest[k - 1];
      [s[..i]] + rest
  }

  /** The first separator of `a + [c] + b` is the one after `a` when `a` holds none. */
  lemma IndexOfAfter(a: string, c: char, b: string)
    requires Lacks(a, c)
    ensures IndexOf(a + [c] + b, c) == |a|
  {
    var s := a + [c] + b;
    assert s[|a|] == c;
    assert forall j :: 0 <= j < |a| ==> s[j] == a[j];
  }

  /** Splitting at a first separator peels off the text before it. */
  lemma SplitAfter(a: string, c: char, b: string)
    requires Lacks(a, c)
    ensures Split(a + [c] + b, c) == [a] + Split(b, c)
  {
    var s := a + [c] + b;
    IndexOfAfter(a, c, b);
    assert s[..|a|] == a;
    assert s[|a| + 1..] == b;
  }

  /** Text without the separator splits into itself alone. */
  lemma SplitLacking(s: string, c: char)
    requires Lacks(s, c)
    ensures Split(s, c) == [s]
  {
    assert IndexOf(s, c) == -1;
  }

  /** Appending text without `c` to text without `c` gives text without `c`. */
  lemma LacksConcat(a: string, b: string, c: char)
    requires Lacks(a, c) && Lacks(b, c)
    ensures Lacks(a + b, c)
  {
    assert forall j :: |a| <= j < |a + b| ==> (a + b)[j] == b[j - |a|];
  }

  /** Joining the parts of a split with its separator gives the string back. */
  lemma {:induction false} SplitJoin(s: string, c: char)
    ensures Join(Split(s, c), [c]) == s
    decreases |s|
  {
    var i := IndexOf(s, c);
    if i >= 0 {
      var rest := Split(s[i + 1..], c);
      SplitJoin(s[i + 1..], c);
      var parts := [s[..i]] + rest;
      assert parts[1..] == rest;
      assert Join(parts, [c]) == s[..i] + [c] + Join(rest, [c]);
      assert s == s[..i] + [c] + s[i + 1..];
    }
  }
}
